=== FILE: README.md ===
# hugo-bros core, modelled in Dafny

hugo-bros is a desktop editor for Hugo and Hexo sites. This project models
the parts of its back end that are plain logic rather than file-system or
process plumbing, and proves what they promise:

- **Document codec** (`markdown.dfy`). It covers:
  - how a content file is split into a YAML header and a Markdown body;
  - how the header is decoded into the `Frontmatter` record, with the known
    camel-cased keys and the flattened custom fields;
  - how a document, post, page or draft is written back;
  - how the first `# ` heading is found;
  - the title and date fallbacks a post gets when it is loaded.
- **Custom-field schema** (`frontmatter_config.dfy`, with the date and time
  recognisers in `dates.dfy`). It covers:
  - the default configuration and the `is_default` rule when a
    configuration file is loaded;
  - the classification of a YAML value into a field type;
  - the per-field statistics gathered over the posts, and the majority
    vote on a field's type;
  - the label prettifier, the choice of the preview-image field and the
    image field group;
  - the configuration generated from all of these.
- **Commands** (`commands.dfy`). It covers:
  - the Russian transliteration and the slug a new post's file name is
    made of;
  - the post a new file reads back as;
  - the image URLs and the duplicate-name rule used when an image is
    copied in;
  - the image records;
  - the page and draft loaders;
  - the selection rules and newest-first orders of the four listings.
- **Settings** (`config.dfy`). It covers the default settings and the
  recent-projects list, which puts the project just opened first, keeps
  each project once and holds at most ten.

Support modules:
- `wrappers.dfy`: Option and Result.
- `text.dfy`: the Rust string operations the source uses, namely trimming,
  `starts_with`, `find`, `splitn`, `lines`, `replace`, `trim_matches`,
  lowercasing, `split_whitespace` and string order.
- `paths.dfy`: the file entries a directory walk yields, with `file_stem`
  and `extension`.
- `yaml.dfy`: a YAML value type, and a codec given as a pair of
  functions: reading a header into a mapping and emitting a mapping.

The file system, the clock and the YAML/JSON libraries are parameters:
- A loader receives a `FileEntry`, which holds what reading the file and
  its metadata returned.
- A listing receives the sequence of entries the walk yields.
- The current time is passed in as a formatted string or a number.

Where the source loops or updates state, the model is imperative:
- `TransliterateRussian`, `ExtractTitleFromMarkdown`, `PostFromFile`,
  `FormatLabel`, `CountFields`, `CollectStats`, `BuildCustomFields`,
  `PickPreviewImageField`, `BuildGroupFields`, `GenerateFrontmatterConfig`
  and the four `List*` commands are methods with loop invariants, or
  methods that call one (`PostFromFile`, `FormatLabel`,
  `GenerateFrontmatterConfig`).
- Each of these is proved equal to a specification function, or to
  satisfy a specification predicate (`BuildCustomFields`,
  `GenerateFrontmatterConfig`), whose properties are proved as lemmas.
- `AppConfig` is a class whose `AddRecentProject` updates its fields in
  place.

Some behaviour of the code that the model keeps as it is:
- `create_post` overwrites an existing post with the same slug.
- Nothing checks that a post id stays inside the project.
- Saving is a plain write; it is not atomic.
- A configuration file that cannot be read or parsed is an error; the
  loader does not fall back to the default configuration.
- The inferred fields are sorted by name.
- The header's named fields take any scalar as text: `title: 404` gives the
  title "404".

## Model

| member | source | states |
|---|---|---|
| Markdown.DefaultFrontmatter | src-tauri/src/markdown.rs:38-49 | the frontmatter of a headerless file: title "Untitled Post", empty date, tags, categories and custom fields, every optional field absent |
| Markdown.DecodeFrontmatter | src-tauri/src/markdown.rs:11-25 | a header mapping decodes exactly when it conforms (a scalar title and date, lists of scalars, no value or nothing for tags and categories (no value reading as an empty list), a scalar, null or nothing for the optional keys); title and date are the text of their scalars; every other key goes to the custom fields; a present named key of the wrong type is an "invalid type" error, reported before any missing field; with every present key well typed, a missing title is the "missing field `title`" error, and then a missing date the "missing field `date`" error |
| Markdown.ScalarText | src-tauri/src/markdown.rs:12-13 | strings, numbers and booleans have a text, a string's being itself and a number's its spelling; nothing else has one |
| Markdown.ScalarsReadAsText | src-tauri/src/markdown.rs:12-15 | a numeric title, a boolean date and a numeric tag decode as the text of those scalars |
| Markdown.MistypedBeforeMissing | src-tauri/src/markdown.rs:11-25 | a header `date: d`, `tags: 5` without a title fails with an "invalid type" error (its only mistyped key is `tags`), not with the missing title |
| Markdown.EmptyListsRead | src-tauri/src/markdown.rs:14-17 | a header whose `tags:` and `categories:` have no value decodes, with both lists empty |
| Markdown.EncodeFrontmatter | src-tauri/src/markdown.rs:9-25 | the emitted mapping has the known camel-cased keys plus the custom keys, and keeps each custom value that does not clash with a known key |
| Markdown.DecodeEncode | src-tauri/src/markdown.rs:9-25 | decoding what a frontmatter encodes to gives back the same frontmatter |
| Markdown.EncodeDecode | src-tauri/src/markdown.rs:9-25 | re-encoding a decoded mapping keeps every key; the custom values are unchanged, each named field comes back as the text it was read as, and `tags` or `categories` with no value comes back as an empty list |
| Markdown.AsWrittenKeepsStrings | src-tauri/src/markdown.rs:12-22 | a value that is already a string, a null or a list of strings is written back unchanged, so a header of strings (with lists under `tags` and `categories`) survives the round trip exactly |
| Markdown.Parse | src-tauri/src/markdown.rs:34-92 | a file not starting with `---`, or with no second `---`, gives the default frontmatter, the raw text as body and the flag true; otherwise the header is the trimmed text between the first two `---`, the body is the trimmed rest, and the flag is false; a header the YAML layer or the record rejects is an error starting "Failed to parse frontmatter: " |
| Markdown.Serialise | src-tauri/src/markdown.rs:94-99 | succeeds exactly when the YAML layer emits the header; the text is then `---\n` + yaml + `---\n\n` + body; otherwise the error starts "Failed to serialize frontmatter: " |
| Markdown.PostToMarkdown | src-tauri/src/markdown.rs:253-258 | a post is written as its frontmatter and content; `ReloadKeepsPost` states that the written file reads back as the post |
| Markdown.PageToMarkdown | src-tauri/src/markdown.rs:127-133 | a page is written as its frontmatter and content; `Commands.ReloadKeepsPage` states that the written file reads back as the page |
| Markdown.DraftToMarkdown | src-tauri/src/markdown.rs:148-154 | a draft is written as its frontmatter and content; `Commands.ReloadKeepsDraft` states that the written file reads back as the draft |
| Markdown.RenderSplits | src-tauri/src/markdown.rs:58-86 | a written file (yaml without `---` and not ending in `-`) is read as having a header, with the trimmed yaml as header text and the trimmed body as body |
| Markdown.BodyRoundTrip | src-tauri/src/markdown.rs:86-98 | writing a document with a trimmed body and reading it back, when it reads back at all, gives the flag false and the same body |
| Markdown.DocumentRoundTrip | src-tauri/src/markdown.rs:34-99 | when the YAML layer reads back what it emits, a written document with a trimmed body is read back as the same document |
| Markdown.HeadingOfTitle | src-tauri/src/markdown.rs:160-166 | a `# ` line with a non-empty trimmed title yields that title |
| Markdown.HeadingTitle | src-tauri/src/markdown.rs:160-166 | a line gives a title only when, trimmed, it starts with `# `, and the title is non-empty and trimmed; `HeadingOfTitle` gives the converse for a written heading |
| Markdown.FirstHeading | src-tauri/src/markdown.rs:158-170 | a found title is non-empty and trimmed |
| Markdown.FirstHeadingNone | src-tauri/src/markdown.rs:158-170 | no title is found exactly when no line is a level-one heading with text |
| Markdown.FirstHeadingSkips | src-tauri/src/markdown.rs:159-168 | lines without a heading before the first heading do not change the result |
| Markdown.ExtractTitleFromMarkdown | src-tauri/src/markdown.rs:158-170 | the loop returns the title of the first heading line of the body, which is non-empty and trimmed, or none |
| Markdown.WithFallbacks | src-tauri/src/markdown.rs:210-231 | only title and date change; a title other than "Untitled Post" is kept, else it becomes the first heading, else the file stem; the date becomes the file's local modification time exactly when there was no header or the date is empty |
| Markdown.FallbacksSettle | src-tauri/src/markdown.rs:210-231 | with a file date, the post always ends up with a date, and a post whose title is settled is left unchanged when it is loaded again |
| Markdown.LoadPost | src-tauri/src/markdown.rs:186-251 | a read failure is "Failed to read file: ..."; the post loads exactly when the file reads, parses and has metadata; the post's frontmatter is the fallback frontmatter, its title, date and body come from it, and its id is the project-relative path |
| Markdown.PostFromFile | src-tauri/src/markdown.rs:186-251 | the method that updates title and date in place returns exactly `LoadPost` |
| Markdown.HeaderlessPost | src-tauri/src/markdown.rs:186-231 | a headerless file always loads: its title is its first heading when it has one, else its file stem (or "Untitled Post" without one); its date is the file time and its body the raw text |
| Markdown.ReloadKeepsPost | src-tauri/src/markdown.rs:253-258 | a saved post (trimmed body, header title not "Untitled Post", non-empty date) reloads as the same post, with new file times |
| Dates.LooksLikeDate | src-tauri/src/frontmatter_config.rs:231-233 | a recognised date is exactly ten characters, with `-` after the year and after the month |
| Dates.LeapDayIsDate | src-tauri/src/frontmatter_config.rs:231-233 | "2024-02-29" is a date |
| Dates.LeapDayNeedsLeapYear | src-tauri/src/frontmatter_config.rs:231-233 | "2023-02-29" is not a date: the day must exist in its month |
| Dates.LooksLikeDatetime | src-tauri/src/frontmatter_config.rs:223-229 | a recognised date-time has at least 16 characters and starts with a valid date followed by `T`, `t` or a space |
| Dates.DateIsNotDatetime | src-tauri/src/frontmatter_config.rs:197-202 | a plain date is never a date-time, so the "date" branch is reachable |
| Dates.FormattedTimestampIsDatetime | src-tauri/src/markdown.rs:230 | a date written as `%Y-%m-%d %H:%M:%S` is classified as a date-time and not as a date |
| FrontmatterConfig.DefaultConfig | src-tauri/src/frontmatter_config.rs:52-62 | version "1.0", marked default, no preview field, no fields, no groups |
| FrontmatterConfig.LoadFrontmatterConfig | src-tauri/src/frontmatter_config.rs:64-80 | no file gives the default configuration; read and parse failures carry their messages; a parsed configuration is never marked default |
| FrontmatterConfig.LooksLikeImage | src-tauri/src/frontmatter_config.rs:211-221 | the image test of a string value; the three lemmas below state that the six extensions count in any case, that `.ico` does not, and that case never matters |
| FrontmatterConfig.LooksLikeImageOfExtension | src-tauri/src/frontmatter_config.rs:211-219 | any name ending in `.png`, `.jpg`, `.jpeg`, `.gif`, `.webp` or `.svg`, in any mix of cases, looks like an image |
| FrontmatterConfig.IconIsNoImage | src-tauri/src/frontmatter_config.rs:214-219 | a name ending in `.ico` outside an `/images/` folder does not look like an image, although the image listing (commands.rs:285) accepts `.ico` |
| FrontmatterConfig.LooksLikeImageIgnoresCase | src-tauri/src/frontmatter_config.rs:211-212 | lowercasing the value first changes nothing |
| FrontmatterConfig.ClassifyString | src-tauri/src/frontmatter_config.rs:190-207 | blank gives none; then, in priority order, "image", "datetime", "date", "text" for a multi-line value, else "string", each branch an if-and-only-if |
| FrontmatterConfig.InferValueType | src-tauri/src/frontmatter_config.rs:182-209 | null gives none; booleans, numbers, sequences and mappings give "boolean", "number", "array" and "object" exactly; tagged values are classified by the inner value; strings as `ClassifyString` |
| FrontmatterConfig.FormatLabel | src-tauri/src/frontmatter_config.rs:235-261 | the loop computes the label, which has single spaces only between words and no `_` or `-` |
| FrontmatterConfig.LabelOf | src-tauri/src/frontmatter_config.rs:235-261 | the label of a field name; `LabelShape`, the `Spaced*` lemmas, `SnakeLabel`, `CamelLabel` and the two examples below state its words and its spacing |
| FrontmatterConfig.SpaceWords | src-tauri/src/frontmatter_config.rs:236-249 | the character loop breaks words at `_`, `-` and lower-to-upper transitions, as `Spaced` states |
| FrontmatterConfig.LabelShape | src-tauri/src/frontmatter_config.rs:250-260 | every label is single-spaced, with no leading or trailing space and no `_` or `-` |
| FrontmatterConfig.Capitalize | src-tauri/src/frontmatter_config.rs:252-257 | a word keeps its length and all but its first character, which is upper-cased |
| FrontmatterConfig.SpacedCaseBreak | src-tauri/src/frontmatter_config.rs:244-248 | an upper-case letter right after a lower-case one gets a space before it |
| FrontmatterConfig.SpacedCapitalPair | src-tauri/src/frontmatter_config.rs:244-248 | two capitals in a row get no space between them |
| FrontmatterConfig.SpacedSeparator | src-tauri/src/frontmatter_config.rs:239-242 | `_` and `-` become a space and reset the lower-case flag |
| FrontmatterConfig.SnakeLabel | src-tauri/src/frontmatter_config.rs:235-261 | two lower-case words joined by `_` give the two words capitalised with a space between |
| FrontmatterConfig.CamelLabel | src-tauri/src/frontmatter_config.rs:235-261 | a three-word camel-case name is broken before each capital and its first word capitalised |
| FrontmatterConfig.ListImageLabel | src-tauri/src/frontmatter_config.rs:235-261 | `list_image` is labelled "List Image" |
| FrontmatterConfig.MainImageAltLabel | src-tauri/src/frontmatter_config.rs:235-261 | `mainImageAlt` is labelled "Main Image Alt" |
| FrontmatterConfig.BumpCounts | src-tauri/src/frontmatter_config.rs:100-104 | recording one value adds one to the field's total, and one to the count of its inferred type if it has one |
| FrontmatterConfig.CountFields | src-tauri/src/frontmatter_config.rs:99-105 | the loop over one post's custom fields records each of them once |
| FrontmatterConfig.AfterDocEntry | src-tauri/src/frontmatter_config.rs:99-105 | after one post, a field of the post has its statistics bumped by its value and every other field is unchanged |
| FrontmatterConfig.CollectStats | src-tauri/src/frontmatter_config.rs:86-109 | the walk's statistics are the tally of the readable posts' custom fields, or the first read error |
| FrontmatterConfig.DocsFailsOnUnreadable | src-tauri/src/frontmatter_config.rs:95-97 | an unreadable `.md` file makes generation fail |
| FrontmatterConfig.DocsOkWhenReadable | src-tauri/src/frontmatter_config.rs:95-98 | when every `.md` file reads, reading the posts succeeds, so with the lemma above it fails exactly when some post cannot be read |
| FrontmatterConfig.Docs | src-tauri/src/frontmatter_config.rs:89-98 | the posts read from the walk, never more than there are entries, or the first read error; `DocsMembers` states which they are |
| FrontmatterConfig.DocsMembers | src-tauri/src/frontmatter_config.rs:95-99 | when the walk reads, its posts are exactly the custom fields of the `.md` entries that read and whose frontmatter parses |
| Text.QuoteEscaped | src-tauri/src/frontmatter_config.rs:97 | a single quote in the path is written as `\'` |
| Text.UnescapeEscapeDebug | src-tauri/src/frontmatter_config.rs:97 | the path in a read error is written with `{:?}` escapes (backslash, double and single quote, NUL, tab, CR, LF, and `\u{..}` for other control characters) that read back as the original path |
| Text.EscapeDebugPlain | src-tauri/src/frontmatter_config.rs:97 | a path without backslashes, quotes of either kind and control characters appears in the message as it is |
| FrontmatterConfig.TallyTotal | src-tauri/src/frontmatter_config.rs:99-101 | a field has statistics exactly when some post has it, and its total is the number of posts having it |
| FrontmatterConfig.TallyTypeCount | src-tauri/src/frontmatter_config.rs:102-104 | a type's count for a field is the number of posts whose value for it has that type |
| FrontmatterConfig.Tally | src-tauri/src/frontmatter_config.rs:99-105 | the statistics of the posts' custom fields; `TallyTotal` and `TallyTypeCount` above state what each entry counts |
| FrontmatterConfig.PreferredType | src-tauri/src/frontmatter_config.rs:168-180 | "string" when no type was seen, otherwise a type of maximal count (a tie is open) |
| FrontmatterConfig.PreferredTypeOfTally | src-tauri/src/frontmatter_config.rs:168-180 | a type seen strictly more often than every other is the preferred type |
| FrontmatterConfig.PreferredTypeOfUntyped | src-tauri/src/frontmatter_config.rs:100-104 | a field seen only with null or blank values is a "string" field |
| FrontmatterConfig.InsertByNameSorted | src-tauri/src/frontmatter_config.rs:121 | inserting by name keeps the fields sorted by name |
| FrontmatterConfig.BuildCustomFields | src-tauri/src/frontmatter_config.rs:111-121 | one field per statistics entry, sorted ascending by name, each with the formatted label, a preferred type and no description or ui |
| FrontmatterConfig.ImageFieldNamesMembers | src-tauri/src/frontmatter_config.rs:123-127 | a name is an image field exactly when some field has it with type "image" |
| FrontmatterConfig.PickPreviewImageField | src-tauri/src/frontmatter_config.rs:263-291 | the two loops compute the preview choice: none without image fields, else the first preferred name present, else the first image field in the most posts |
| FrontmatterConfig.PreviewChoiceIsImage | src-tauri/src/frontmatter_config.rs:263-291 | there is a choice exactly when there are image fields, and it is one of them |
| FrontmatterConfig.ListImageIsPreview | src-tauri/src/frontmatter_config.rs:271-276 | `list_image`, when it is an image field, is always chosen |
| FrontmatterConfig.PreviewIsMostUsed | src-tauri/src/frontmatter_config.rs:278-290 | without a preferred name, no image field is in more posts than the chosen one |
| FrontmatterConfig.FieldGroups | src-tauri/src/frontmatter_config.rs:131-151 | no group exactly when there are no image fields |
| FrontmatterConfig.GroupFieldListMembers | src-tauri/src/frontmatter_config.rs:134-144 | the group lists every image field, at most one alt field after each, and only fields some post has |
| FrontmatterConfig.BuildGroupFields | src-tauri/src/frontmatter_config.rs:134-144 | the push loop lists each image field followed by its `_alt`, else its `Alt`, field when a post has one |
| FrontmatterConfig.GenerateFrontmatterConfig | src-tauri/src/frontmatter_config.rs:82-160 | the first read error, or a configuration (version "1.0", not default) built from the tally: the sorted fields, the preview choice and the image group |
| FrontmatterConfig.GeneratedFields | src-tauri/src/frontmatter_config.rs:111-121 | a generated configuration has a field for exactly the custom keys some post has |
| FrontmatterConfig.GeneratedPreview | src-tauri/src/frontmatter_config.rs:129-151 | a generated configuration has a preview field exactly when it has an image group, and the field is an image field |
| Commands.Lookup | src-tauri/src/commands.rs:399-412 | no replacement exactly when the character is not a letter of the table |
| Commands.TransliterateRussian | src-tauri/src/commands.rs:398-421 | the loop of 66 replacements replaces each character by its table entry, or keeps it |
| Commands.TransliterateAppend | src-tauri/src/commands.rs:416-418 | transliteration works character by character: it distributes over concatenation |
| Commands.TransliterateAscii | src-tauri/src/commands.rs:416-418 | a text without table letters passes through unchanged |
| Commands.TransliterateLeavesNoLetter | src-tauri/src/commands.rs:398-421 | the output contains no letter of the table, since every Latin replacement is ASCII |
| Commands.KeepSlugChars | src-tauri/src/commands.rs:387-388 | what is left contains only `a-z`, `0-9` and `-`; that every such character is kept, in order, is stated by the three lemmas below |
| Commands.KeepSlugCharsAppend | src-tauri/src/commands.rs:387-388 | the filter works character by character, so the kept characters stay in their order |
| Commands.KeepSlugCharsOfSlug | src-tauri/src/commands.rs:387-388 | a text of slug characters only is kept whole |
| Commands.KeepSlugCharsNone | src-tauri/src/commands.rs:387-388 | a text without slug characters leaves nothing |
| Commands.CollapseDashes | src-tauri/src/commands.rs:391-392 | no doubled hyphen is left, and the first and last characters are kept; that nothing but the repeated hyphens goes is stated by the three lemmas below |
| Commands.CollapseDashesAppend | src-tauri/src/commands.rs:391-392 | two texts that do not meet hyphen to hyphen collapse separately, so characters other than `-` keep their order and none is dropped |
| Commands.CollapseDashRun | src-tauri/src/commands.rs:391-392 | a run of hyphens becomes one hyphen |
| Commands.CollapseDashesOfSingle | src-tauri/src/commands.rs:391-392 | a text without a doubled hyphen is unchanged |
| Commands.SanitizeFilename | src-tauri/src/commands.rs:375-396 | every slug is `a-z`, `0-9` and `-` only, with no `--` and no hyphen at either end |
| Commands.SlugIsFixed | src-tauri/src/commands.rs:375-396 | a slug is its own slug |
| Commands.SanitizeIdempotent | src-tauri/src/commands.rs:375-396 | sanitising a slug again changes nothing |
| Commands.SanitizePlain | src-tauri/src/commands.rs:382-384 | for a title of slug characters and separators, space, `_` and `+` become hyphens before cleaning |
| Commands.SanitizeMyPost | src-tauri/src/commands.rs:382-384 | "My Post" becomes "my-post" |
| Commands.SanitizeUnderscorePlus | src-tauri/src/commands.rs:382-384 | "a_b+c" becomes "a-b-c" |
| Commands.PunctuationGivesEmptySlug | src-tauri/src/commands.rs:134-135 | an all-punctuation title gives the empty slug |
| Commands.NewPostIsListedIff | src-tauri/src/commands.rs:134-135 | the new post's file is listed as a post exactly when the slug is non-empty, and then its stem is the slug; an empty slug makes the hidden file `.md` |
| Commands.CreatedPostReadsBack | src-tauri/src/commands.rs:142-166 | for a title other than "Untitled Post" (which reads back as the file stem instead) and a non-empty date, when the YAML layer reads back what it emits, the file `create_post` writes reads back with the given title and date, the rest of the frontmatter at its defaults, and an empty body |
| Commands.SlashedChars | src-tauri/src/commands.rs:340 | replacing `\` by `/` keeps the length and every other character, and leaves no backslash |
| Commands.DecimalNat | src-tauri/src/commands.rs:325 | the decimal digits of a count, without a leading zero |
| Commands.Decimal | src-tauri/src/commands.rs:325 | a timestamp's decimal form is non-empty, has no `.`, starts with `-` exactly when it is negative, and its digits read back as the timestamp's absolute value |
| Commands.DuplicateName | src-tauri/src/commands.rs:321-328 | the name a copied image takes when the target exists; `DuplicateNameParts` below states its parts |
| Commands.DuplicateNameParts | src-tauri/src/commands.rs:321-328 | the renamed copy keeps the source's extension (or an empty one) and has the stem `<stem>_<timestamp>` |
| Commands.CopiedImageUrl | src-tauri/src/commands.rs:334-340 | without a relative path, the error "Failed to get relative path"; otherwise `/` followed by the path with every `\` turned into `/` |
| Commands.CopyImageToProject | src-tauri/src/commands.rs:300-341 | the directory error, then the bad-name error, then the copy error, in that order; success only with a name, a copy and a relative path, giving the URL of the images folder joined with the target name |
| Commands.CopiedImageUrlShape | src-tauri/src/commands.rs:318-340 | with a plain images folder, the URL is `/` + folder + `/` + target, for either path separator |
| Commands.ImageInfoOf | src-tauri/src/commands.rs:423-471 | an error exactly when the metadata fails ("Failed to get image metadata: ..."); otherwise the file name, the path under the images folder, the full path, the URL `/images/` + that path with `/` for `\`, the size, the creation time, and no dimensions |
| Commands.ImageUrlOfPlainPath | src-tauri/src/commands.rs:448 | a path without backslashes is used as it is in the URL |
| Commands.LoadDocument | src-tauri/src/commands.rs:483-488 | a read failure is "Failed to read file: ..."; loading succeeds exactly when the file reads, parses and has metadata |
| Commands.LoadPage | src-tauri/src/commands.rs:482-522 | the read error; a page exactly when the file reads, parses and has metadata; the parsed frontmatter, its title and the body unchanged; the project-relative path as id, or the empty id outside the project |
| Commands.LoadDraft | src-tauri/src/commands.rs:524-564 | the same as for a page: the read error, success exactly on read, parse and metadata, and the empty id outside the project |
| Commands.OutsideIds | src-tauri/src/commands.rs:505-510 | outside the project, a post is known by its whole path but a page or a draft by the empty id |
| Commands.HeaderlessPageIsUntitled | src-tauri/src/commands.rs:482-564 | pages and drafts get no title fallback: a headerless file stays "Untitled Post", with the raw text as body |
| Commands.ReloadKeepsPage | src-tauri/src/markdown.rs:127-133 | a saved page with a trimmed body reloads as the same page, with new file times |
| Commands.ReloadKeepsDraft | src-tauri/src/markdown.rs:148-154 | a saved draft with a trimmed body reloads as the same draft, with new file times |
| Commands.CollectMembers | src-tauri/src/commands.rs:81-93 | an item is collected exactly when some selected entry loads as it; entries that fail to load are skipped |
| Commands.IsPageFile | src-tauri/src/commands.rs:205-214 | the files `list_pages` takes; `ListPages` states that the listed pages are exactly those of such files that load |
| Commands.IsImageFile | src-tauri/src/commands.rs:282-285 | the files `list_images` takes; `ListImages` states that the listed images are exactly those of such files whose metadata reads |
| Commands.SortByKey | src-tauri/src/commands.rs:96 | the sort is a permutation of its input |
| Commands.SortByKeySorted | src-tauri/src/commands.rs:96 | the sort orders items from the largest key to the smallest |
| Commands.SortByKeyOfSorted | src-tauri/src/commands.rs:96 | a list already newest first is left as it is |
| Commands.ListPosts | src-tauri/src/commands.rs:70-99 | the `.md` files that load as posts, sorted newest modification first; a post is listed exactly when some `.md` entry loads as it |
| Commands.ListPages | src-tauri/src/commands.rs:187-225 | the `index.md` files outside `_posts` and `_drafts` that load as pages, newest modification first; membership is an if-and-only-if |
| Commands.ListDrafts | src-tauri/src/commands.rs:231-259 | the `.md` drafts that load, newest modification first; membership is an if-and-only-if |
| Commands.ListImages | src-tauri/src/commands.rs:265-298 | the files whose lowercased extension is png, jpg, jpeg, gif, webp, svg or ico and whose metadata reads, newest creation first; membership is an if-and-only-if |
| Config.Without | src-tauri/src/config.rs:79 | an item survives exactly when it was there and is not the project; the order of the survivors is stated by the two lemmas below |
| Config.WithoutAppend | src-tauri/src/config.rs:79 | `retain` works item by item, so the survivors keep their order |
| Config.WithoutAbsent | src-tauri/src/config.rs:79 | a list without the project is unchanged |
| Config.MoveToFront | src-tauri/src/config.rs:77-87 | the recent-projects list after opening a project; the four lemmas below state its shape, that the project occurs once, that no repeat appears, and idempotence |
| Config.MoveToFrontShape | src-tauri/src/config.rs:77-87 | the project comes first, and then the old list without it, in order, cut to nine: at most ten in all |
| Config.MoveToFrontOnce | src-tauri/src/config.rs:79-82 | the project occurs exactly once |
| Config.MoveToFrontDistinct | src-tauri/src/config.rs:77-87 | a list without repeats keeps none |
| Config.MoveToFrontIdempotent | src-tauri/src/config.rs:77-91 | opening the same project twice in a row is opening it once |
| Config.AppConfig.constructor | src-tauri/src/config.rs:21-35 | the defaults: package version, no last project, no recent projects, "en", "auto", auto-save on every 30 seconds, font size 16 |
| Config.AppConfig.AddRecentProject | src-tauri/src/config.rs:77-91 | the list becomes the move-to-front list, the last project becomes the one opened, and every other field is unchanged |

## Left out

- Reading and writing files, the directory walks (WalkDir), `create_dir_all`, `fs::copy`, `fs::write` and the folder dialogs are not modelled. A loader receives what reading returned. A listing receives the walk's entries, and a missing folder is the empty sequence. The failures of creating the images folder and of copying are parameters of `CopyImageToProject`.
- The clock and the file times are parameters. Conversion to local time and the `%Y-%m-%d %H:%M:%S` format are modelled by `FormatTimestamp` over given calendar fields. There is no time-zone arithmetic.
- serde_yaml and serde_json are abstract functions (`Codec`, and the `decode` parameter of `LoadFrontmatterConfig`). YAML syntax, quoting, key order and duplicate keys are left to them.
- The round-trip lemmas assume that the YAML layer reads back what it emits. They also assume the emitted header contains no `---` and does not end in `-`. A header value containing `---` does break the round trip in the source, but only through the YAML layer's output, which is not modelled.
- A header mapping is a map. The order of the custom fields and of HashMap iteration is not modelled.
- Dates.LooksLikeDatetime: only the fixed zero-padded shapes are recognised: RFC 3339 timestamps (section 5.6 of RFC 3339) and `YYYY-MM-DD HH:MM[:SS]`. chrono also accepts shorter field widths.
- Dates.LooksLikeDate: only `YYYY-MM-DD` with four-digit years is recognised.
- Lowercasing and the upper/lower tests cover ASCII, the Cyrillic letters of the table, and the two non-ASCII letters whose lowercase is ASCII. The rest of Unicode case mapping is not modelled.
- FrontmatterConfig.PreferredType: on a tie it returns some type of maximal count. The source's choice depends on HashMap iteration order.
- The `u32` counters, the `u64` sizes and the `i64` times are unbounded integers. The source's widths are not reached by real projects.
- The single-letter transliteration examples (for instance ъ disappearing) are not stated as lemmas. Over the 66-entry table they are too costly to prove. The table entries themselves are fixed by the `Letter` and `Latin` types, and the general lemmas cover every letter.
- Markdown.DecodeFrontmatter: an explicit `null` or `~` under `tags` or `categories`, which serde_yaml rejects, is read as an empty list, because the header mapping cannot tell it from a key with no value; a null or tagged value under `title`, `date` or a list item is rejected, where serde_yaml may instead read the plain scalar's spelling; a boolean is read as "true" or "false" whatever its spelling in the header, because the YAML value type keeps only its truth value.
- Markdown.DecodeFrontmatter: of several faulty keys, serde reports the first in the header's order; the model, whose header is an unordered map, reports the first in field order. The wording of serde_yaml's invalid-type messages is not reproduced.
- Text.EscapeDebugChar: Unicode characters other than the C0 and C1 controls and DEL that `{:?}` also escapes (unassigned and other non-printable code points, and grapheme extenders) are written as they are.
- The stem fallback "file" in `copy_image_to_project` is unreachable, because a path with a file name always has a stem. It is not modelled as a separate branch.
- `create_post` is modelled through its parts: the slug, the file name, the text it writes and the post that text reads back as. Creating the folder and writing the file are not modelled.
- `get_image_dimensions` always returns no dimensions, and `ImageInfoOf` states that.
- Commands.SortByKey: stability is stated only through its definition and `SortByKeyOfSorted`. The source's `sort_by` is stable; the model inserts each item after the items with an equal or larger key.
- `AppConfig::load` and `AppConfig::save`, and the `f32` field `editor_line_height`, are not modelled: they are configuration-file I/O and floating point.
- src-tauri/src/hugo.rs (spawning and tracking the `hugo` server), src-tauri/src/lib.rs (command registration) and src-tauri/src/files.rs (a read wrapper) are not part of this model.
- The other commands (`get_post`, `save_post`, `delete_post`, `delete_image` and the configuration commands) are thin file-system wrappers and are not modelled. Of their behaviour, the model keeps only the writing of a post (`PostToMarkdown`).

=== FILE: commands.dfy ===
/** The helpers of the editor's commands: the slug a post's file is named
    by, the URLs images are served under, and which files the listings
    take and in what order. */
module Commands {
  import opened Wrappers
  import opened Text
  import opened Paths
  import opened Yaml
  import opened Markdown
  import opened Dates

  // ---------------------------------------------------------------------
  // Transliteration

  predicate IsAscii(s: string) {
    forall i :: 0 <= i < |s| ==> s[i] as int < 128
  }

  /** A letter the table replaces: none lies inside ASCII. */
  type Letter = c: char | c as int >= 128 witness 'а'

  /** A replacement: all of them lie inside ASCII, so no replacement brings
      back a letter of the table. */
  type Latin = s: string | IsAscii(s) witness ""

  datatype Entry = Entry(letter: Letter, latin: Latin)

  /** The table of `transliterate_russian`, in its order: each Russian
      letter and the Latin text it becomes. */
  const RussianTable: seq<Entry> := [
    Entry('а', "a"), Entry('б', "b"), Entry('в', "v"), Entry('г', "g"), Entry('д', "d"), Entry('е', "e"),
    Entry('ё', "yo"), Entry('ж', "zh"), Entry('з', "z"), Entry('и', "i"), Entry('й', "y"), Entry('к', "k"),
    Entry('л', "l"), Entry('м', "m"), Entry('н', "n"), Entry('о', "o"), Entry('п', "p"), Entry('р', "r"),
    Entry('с', "s"), Entry('т', "t"), Entry('у', "u"), Entry('ф', "f"), Entry('х', "h"), Entry('ц', "ts"),
    Entry('ч', "ch"), Entry('ш', "sh"), Entry('щ', "shch"), Entry('ъ', ""), Entry('ы', "y"), Entry('ь', ""),
    Entry('э', "e"), Entry('ю', "yu"), Entry('я', "ya"),
    Entry('А', "A"), Entry('Б', "B"), Entry('В', "V"), Entry('Г', "G"), Entry('Д', "D"), Entry('Е', "E"),
    Entry('Ё', "Yo"), Entry('Ж', "Zh"), Entry('З', "Z"), Entry('И', "I"), Entry('Й', "Y"), Entry('К', "K"),
    Entry('Л', "L"), Entry('М', "M"), Entry('Н', "N"), Entry('О', "O"), Entry('П', "P"), Entry('Р', "R"),
    Entry('С', "S"), Entry('Т', "T"), Entry('У', "U"), Entry('Ф', "F"), Entry('Х', "H"), Entry('Ц', "Ts"),
    Entry('Ч', "Ch"), Entry('Ш', "Sh"), Entry('Щ', "Shch"), Entry('Ъ', ""), Entry('Ы', "Y"), Entry('Ь', ""),
    Entry('Э', "E"), Entry('Ю', "Yu"), Entry('Я', "Ya")
  ]

  /** The replacement of the first entry for `c`. */
  function Lookup(table: seq<Entry>, c: char): (r: Option<string>)
    ensures r.None? <==> forall i :: 0 <= i < |table| ==> table[i].letter != c
  {
    if table == [] then None
    else
      match Lookup(table[..|table| - 1], c)
      case Some(t) => Some(t)
      case None => if table[|table| - 1].letter == c then Some(table[|table| - 1].latin) else None
  }

  /** What one character becomes. */
  function Replacement(table: seq<Entry>, c: char): string {
    match Lookup(table, c)
    case Some(t) => t
    case None => [c]
  }

  /** Every character replaced by its image, all at once. */
  function TransliterateWith(table: seq<Entry>, s: string): string {
    if s == [] then [] else Replacement(table, s[0]) + TransliterateWith(table, s[1..])
  }

  /** The text `transliterate_russian` returns. */
  function Transliterate(s: string): string {
    TransliterateWith(RussianTable, s)
  }

  lemma {:induction false} TransliterateWithEmpty(s: string)
    ensures TransliterateWith([], s) == s
  {
    if s != [] {
      TransliterateWithEmpty(s[1..]);
      assert s == [s[0]] + s[1..];
    }
  }

  /** Replacing the next letter of the table in the text the earlier
      entries produced gives the text the longer table produces. */
  lemma {:induction false} ReplaceNextEntry(table: seq<Entry>, k: nat, s: string)
    requires k < |table|
    ensures Replace(TransliterateWith(table[..k], s), {table[k].letter}, table[k].latin) ==
            TransliterateWith(table[..k + 1], s)
  {
    if s != [] {
      var from, to := table[k].letter, table[k].latin;
      var c := s[0];
      assert table[..k + 1][..k] == table[..k];
      ReplaceAppend(Replacement(table[..k], c), TransliterateWith(table[..k], s[1..]), {from}, to);
      ReplaceNextEntry(table, k, s[1..]);
      match Lookup(table[..k], c)
      case Some(t) =>
        LookupIsEntry(table[..k], c);
        ReplaceAbsent(t, {from}, to);
      case None =>
    }
  }

  /** A found replacement is the replacement of some entry. */
  lemma {:induction false} LookupIsEntry(table: seq<Entry>, c: char)
    requires Lookup(table, c).Some?
    ensures exists i :: 0 <= i < |table| && table[i].letter == c && table[i].latin == Lookup(table, c).value
  {
    var n := |table| - 1;
    if Lookup(table[..n], c).Some? {
      LookupIsEntry(table[..n], c);
      var i :| 0 <= i < n && table[..n][i].letter == c && table[..n][i].latin == Lookup(table[..n], c).value;
      assert table[i] == table[..n][i];
    } else {
      assert table[n].letter == c && table[n].latin == Lookup(table, c).value;
    }
  }

  /** `transliterate_russian`: the text is rewritten once per entry of the
      table, each time replacing every occurrence of that entry's letter. */
  method TransliterateRussian(text: string) returns (result: string)
    ensures result == Transliterate(text)
  {
    result := text;
    TransliterateWithEmpty(text);
    assert RussianTable[..0] == [];
    for i := 0 to |RussianTable|
      invariant result == TransliterateWith(RussianTable[..i], text)
    {
      var entry := RussianTable[i];
      ReplaceNextEntry(RussianTable, i, text);
      result := Replace(result, {entry.letter}, entry.latin);
    }
    assert RussianTable[..|RussianTable|] == RussianTable;
  }

  lemma {:induction false} TransliterateAppend(table: seq<Entry>, a: string, b: string)
    ensures TransliterateWith(table, a + b) == TransliterateWith(table, a) + TransliterateWith(table, b)
  {
    if a == [] {
      assert a + b == b;
    } else {
      assert (a + b)[0] == a[0];
      assert (a + b)[1..] == a[1..] + b;
      TransliterateAppend(table, a[1..], b);
    }
  }

  /** ASCII text passes through unchanged. */
  lemma {:induction false} TransliterateAscii(table: seq<Entry>, s: string)
    requires IsAscii(s)
    ensures TransliterateWith(table, s) == s
  {
    if s != [] {
      assert Lookup(table, s[0]).None?;
      TransliterateAscii(table, s[1..]);
      assert s == [s[0]] + s[1..];
    }
  }

  /** No letter of the table is left in the result: every character is
      either one the table does not list or part of a Latin replacement. */
  lemma {:induction false} TransliterateLeavesNoLetter(table: seq<Entry>, s: string)
    ensures forall i :: 0 <= i < |TransliterateWith(table, s)| ==> Lookup(table, TransliterateWith(table, s)[i]).None?
  {
    if s != [] {
      TransliterateLeavesNoLetter(table, s[1..]);
      var head := Replacement(table, s[0]);
      forall i | 0 <= i < |head|
        ensures Lookup(table, head[i]).None?
      {
        if Lookup(table, s[0]).Some? {
          LookupIsEntry(table, s[0]);
          var j :| 0 <= j < |table| && table[j].letter == s[0] && table[j].latin == head;
          assert head[i] as int < 128;
        }
      }
      var r := TransliterateWith(table, s);
      assert r == head + TransliterateWith(table, s[1..]);
      forall i | 0 <= i < |r|
        ensures Lookup(table, r[i]).None?
      {
        if i >= |head| {
          assert r[i] == TransliterateWith(table, s[1..])[i - |head|];
        }
      }
    }
  }

  // ---------------------------------------------------------------------
  // Slugs

  /** The characters `sanitize_filename` turns into hyphens. */
  const Separators: set<char> := {' ', '_', '+'}

  /** The characters a slug is made of: `[a-z0-9-]`. */
  predicate IsSlugChar(c: char) {
    ('a' <= c <= 'z') || ('0' <= c <= '9') || c == '-'
  }

  /** No two hyphens next to each other. */
  predicate NoDoubleDash(s: string) {
    forall i :: 0 <= i < |s| - 1 ==> !(s[i] == '-' && s[i + 1] == '-')
  }

  /** What `sanitize_filename` promises of its result: slug characters
      only, no "--", and no hyphen at either end. */
  predicate IsSlug(s: string) {
    (forall i :: 0 <= i < |s| ==> IsSlugChar(s[i])) && NoDoubleDash(s) &&
    (s == [] || (s[0] != '-' && s[|s| - 1] != '-'))
  }

  /** The regex replacement of `[^a-z0-9-]` by nothing. */
  function KeepSlugChars(s: string): (r: string)
    ensures forall i :: 0 <= i < |r| ==> IsSlugChar(r[i])
  {
    if s == [] then []
    else (if IsSlugChar(s[0]) then [s[0]] else []) + KeepSlugChars(s[1..])
  }

  /** The regex replacement of `-+` by "-": every run of hyphens becomes
      one hyphen. */
  function CollapseDashes(s: string): (r: string)
    ensures NoDoubleDash(r)
    ensures s == [] <==> r == []
    ensures s != [] ==> r[0] == s[0] && r[|r| - 1] == s[|s| - 1]
  {
    if s == [] then []
    else if |s| >= 2 && s[0] == '-' && s[1] == '-' then CollapseDashes(s[1..])
    else [s[0]] + CollapseDashes(s[1..])
  }

  /** `sanitize_filename`: transliterate, lower-case, turn separators into
      hyphens, drop every other character outside `[a-z0-9-]`, collapse
      runs of hyphens and trim hyphens from both ends. */
  function SanitizeFilename(title: string): (slug: string)
    ensures IsSlug(slug)
  {
    var lowered := Replace(ToLower(Transliterate(title)), Separators, "-");
    CleanIsSlug(lowered);
    Clean(lowered)
  }

  /** The regex and trimming steps of `sanitize_filename`. */
  function Clean(lowered: string): string {
    TrimMatches(CollapseDashes(KeepSlugChars(lowered)), '-')
  }

  lemma {:induction false} CollapseSlugChars(s: string)
    requires forall i :: 0 <= i < |s| ==> IsSlugChar(s[i])
    ensures forall i :: 0 <= i < |CollapseDashes(s)| ==> IsSlugChar(CollapseDashes(s)[i])
  {
    if s != [] {
      CollapseSlugChars(s[1..]);
    }
  }

  /** A part of a string keeps its characters and has no "--" when the
      string has none. */
  lemma SlugPart(s: string, i: nat, j: nat)
    requires i <= j <= |s|
    requires forall k :: 0 <= k < |s| ==> IsSlugChar(s[k])
    requires NoDoubleDash(s)
    ensures forall k :: 0 <= k < j - i ==> IsSlugChar(s[i..j][k])
    ensures NoDoubleDash(s[i..j])
  {
    forall k | 0 <= k < j - i - 1
      ensures !(s[i..j][k] == '-' && s[i..j][k + 1] == '-')
    {
      assert s[i..j][k] == s[i + k] && s[i..j][k + 1] == s[i + k + 1];
    }
  }

  /** The regex and trimming steps make a slug of any text. */
  lemma CleanIsSlug(lowered: string)
    ensures IsSlug(Clean(lowered))
  {
    var c := CollapseDashes(KeepSlugChars(lowered));
    CollapseSlugChars(KeepSlugChars(lowered));
    TrimmedSlug(c);
  }

  /** Trimming hyphens from both ends of slug characters without "--"
      leaves a slug. */
  lemma TrimmedSlug(c: string)
    requires forall i :: 0 <= i < |c| ==> IsSlugChar(c[i])
    requires NoDoubleDash(c)
    ensures IsSlug(TrimMatches(c, '-'))
  {
    var a := TrimStartMatches(c, '-');
    SlugPart(c, |c| - |a|, |c|);
    assert a == c[|c| - |a|..];
    var b := TrimEndMatches(a, '-');
    SlugPart(a, 0, |b|);
    assert b == a[..|b|];
  }

  /** The kept characters of two strings one after the other: slug
      characters keep their order. */
  lemma {:induction false} KeepSlugCharsAppend(a: string, b: string)
    ensures KeepSlugChars(a + b) == KeepSlugChars(a) + KeepSlugChars(b)
  {
    if a == [] {
      assert a + b == b;
    } else {
      assert (a + b)[0] == a[0];
      assert (a + b)[1..] == a[1..] + b;
      KeepSlugCharsAppend(a[1..], b);
    }
  }

  /** A string with no slug character keeps nothing. */
  lemma {:induction false} KeepSlugCharsNone(s: string)
    requires forall i :: 0 <= i < |s| ==> !IsSlugChar(s[i])
    ensures KeepSlugChars(s) == []
  {
    if s != [] {
      KeepSlugCharsNone(s[1..]);
    }
  }

  lemma {:induction false} KeepSlugCharsOfSlug(s: string)
    requires forall i :: 0 <= i < |s| ==> IsSlugChar(s[i])
    ensures KeepSlugChars(s) == s
  {
    if s != [] {
      KeepSlugCharsOfSlug(s[1..]);
      assert s == [s[0]] + s[1..];
    }
  }

  /** Collapsing two strings one after the other, when they do not meet
      hyphen to hyphen, collapses each: characters other than '-' are never
      dropped or moved. */
  lemma {:induction false} CollapseDashesAppend(a: string, b: string)
    requires !(a != [] && b != [] && a[|a| - 1] == '-' && b[0] == '-')
    ensures CollapseDashes(a + b) == CollapseDashes(a) + CollapseDashes(b)
  {
    if a == [] {
      assert a + b == b;
    } else {
      var rest := a[1..];
      assert rest != [] ==> rest[|rest| - 1] == a[|a| - 1];
      CollapseDashesAppend(rest, b);
      CollapseAppendHead(a, b);
      if !(|a| >= 2 && a[0] == '-' && a[1] == '-') {
        ConsAppend(a[0], CollapseDashes(rest), CollapseDashes(b), CollapseDashes(a + b), CollapseDashes(rest + b));
      }
    }
  }

  /** One step of `CollapseDashes` on `a + b`, decided by `a` alone when `a`
      does not end in a hyphen that meets one at the start of `b`. */
  lemma CollapseAppendHead(a: string, b: string)
    requires a != [] && !(|a| == 1 && a[0] == '-' && b != [] && b[0] == '-')
    ensures CollapseDashes(a + b) ==
      if |a| >= 2 && a[0] == '-' && a[1] == '-' then CollapseDashes(a[1..] + b)
      else [a[0]] + CollapseDashes(a[1..] + b)
  {
    var t := a + b;
    assert t != [] && t[0] == a[0];
    assert t[1..] == a[1..] + b;
    if |a| >= 2 {
      assert t[1] == a[1];
      assert (|t| >= 2 && t[0] == '-' && t[1] == '-') == (a[0] == '-' && a[1] == '-');
    } else {
      assert !(|t| >= 2 && t[0] == '-' && t[1] == '-');
    }
  }

  lemma ConsAppend(c: char, x: string, y: string, u: string, v: string)
    requires u == [c] + v && v == x + y
    ensures u == ([c] + x) + y
  {
  }

  /** A run of hyphens becomes one hyphen. */
  lemma {:induction false} CollapseDashRun(s: string)
    requires s != [] && forall i :: 0 <= i < |s| ==> s[i] == '-'
    ensures CollapseDashes(s) == "-"
  {
    if |s| > 1 {
      CollapseDashRun(s[1..]);
    }
  }

  lemma {:induction false} CollapseDashesOfSingle(s: string)
    requires NoDoubleDash(s)
    ensures CollapseDashes(s) == s
  {
    if s != [] {
      NoDoubleDashTail(s);
      CollapseDashesOfSingle(s[1..]);
      assert !(|s| >= 2 && s[0] == '-' && s[1] == '-');
      assert s == [s[0]] + s[1..];
    }
  }

  lemma NoDoubleDashTail(s: string)
    requires s != [] && NoDoubleDash(s)
    ensures NoDoubleDash(s[1..])
  {
    forall i | 0 <= i < |s| - 2
      ensures !(s[1..][i] == '-' && s[1..][i + 1] == '-')
    {
      assert s[1..][i] == s[i + 1] && s[1..][i + 1] == s[i + 2];
    }
  }

  /** A slug is its own slug. */
  lemma SlugIsFixed(s: string)
    requires IsSlug(s)
    ensures SanitizeFilename(s) == s
  {
    TransliterateSlug(s);
    LowerSlug(s);
    CleanOfSlug(s);
  }

  /** A slug has no letter of the table. */
  lemma TransliterateSlug(s: string)
    requires IsSlug(s)
    ensures Transliterate(s) == s
  {
    assert IsAscii(s);
    TransliterateAscii(RussianTable, s);
  }

  /** A slug is lower case and has no separators. */
  lemma LowerSlug(s: string)
    requires IsSlug(s)
    ensures Replace(ToLower(s), Separators, "-") == s
  {
    SlugCharsAreLower(s);
    SlugCharsAreNoSeparators(s);
  }

  lemma SlugCharsAreLower(s: string)
    requires forall i :: 0 <= i < |s| ==> IsSlugChar(s[i])
    ensures ToLower(s) == s
  {
    forall i | 0 <= i < |s|
      ensures LowerChar(s[i]) == [s[i]]
    {
      SlugCharIsLower(s[i]);
    }
    ToLowerOfLower(s);
  }

  lemma SlugCharIsLower(c: char)
    requires IsSlugChar(c)
    ensures LowerChar(c) == [c]
  {
  }

  lemma SlugCharsAreNoSeparators(s: string)
    requires forall i :: 0 <= i < |s| ==> IsSlugChar(s[i])
    ensures Replace(s, Separators, "-") == s
  {
    forall i | 0 <= i < |s|
      ensures s[i] !in Separators
    {
      assert IsSlugChar(s[i]);
    }
    ReplaceAbsent(s, Separators, "-");
  }

  /** The regex and trimming steps leave a slug as it is. */
  lemma CleanOfSlug(s: string)
    requires IsSlug(s)
    ensures Clean(s) == s
  {
    KeepSlugCharsOfSlug(s);
    CollapseDashesOfSingle(s);
    TrimMatchesOfTrimmed(s, '-');
  }

  /** `sanitize_filename` is idempotent. */
  lemma SanitizeIdempotent(title: string)
    ensures SanitizeFilename(SanitizeFilename(title)) == SanitizeFilename(title)
  {
    SlugIsFixed(SanitizeFilename(title));
  }

  /** Once separators are hyphens, text made of slug characters and
      separators has nothing left for the first regex to drop. */
  lemma {:induction false} KeepAfterReplace(s: string)
    requires forall i :: 0 <= i < |s| ==> IsSlugChar(s[i]) || s[i] in Separators
    ensures KeepSlugChars(Replace(s, Separators, "-")) == Replace(s, Separators, "-")
  {
    if s != [] {
      KeepAfterReplace(s[1..]);
      var head := if s[0] in Separators then "-" else [s[0]];
      assert Replace(s, Separators, "-") == head + Replace(s[1..], Separators, "-");
      KeepSlugCharsAppend(head, Replace(s[1..], Separators, "-"));
    }
  }

  /** Slug characters and separators are ASCII and their own lower case. */
  lemma PlainChars(s: string)
    requires forall i :: 0 <= i < |s| ==> IsSlugChar(s[i]) || s[i] in Separators
    ensures IsAscii(s) && ToLower(s) == s
  {
    forall i | 0 <= i < |s|
      ensures s[i] as int < 128 && LowerChar(s[i]) == [s[i]]
    {
      PlainChar(s[i]);
    }
    ToLowerOfLower(s);
  }

  lemma PlainChar(c: char)
    requires IsSlugChar(c) || c in Separators
    ensures c as int < 128 && LowerChar(c) == [c]
  {
    if c in Separators {
      assert c == ' ' || c == '_' || c == '+';
    }
  }

  /** Text made of slug characters and separators is only touched by the
      replacement of separators before the regex steps. */
  lemma PlainLowered(s: string)
    requires forall i :: 0 <= i < |s| ==> IsSlugChar(s[i]) || s[i] in Separators
    ensures Replace(ToLower(Transliterate(s)), Separators, "-") == Replace(s, Separators, "-")
  {
    PlainChars(s);
    TransliterateAscii(RussianTable, s);
  }

  /** On text made of slug characters and separators, the lower-casing and
      transliteration steps change nothing. */
  lemma SanitizePlain(s: string)
    requires forall i :: 0 <= i < |s| ==> IsSlugChar(s[i]) || s[i] in Separators
    ensures SanitizeFilename(s) == Clean(Replace(s, Separators, "-"))
  {
    PlainLowered(s);
  }

  /** Once separators are hyphens, the first regex step changes nothing. */
  lemma CleanPlain(s: string)
    requires forall i :: 0 <= i < |s| ==> IsSlugChar(s[i]) || s[i] in Separators
    ensures Clean(Replace(s, Separators, "-")) == TrimMatches(CollapseDashes(Replace(s, Separators, "-")), '-')
  {
    KeepAfterReplace(s);
  }

  /** `sanitize_filename` on two titles: a space, an underscore and a plus
      sign each become a hyphen, and capitals become small letters. (The
      titles come in as parameters so that the verifier reasons about the
      table instead of unfolding it letter by letter.) */
  lemma SanitizeMyPost(title: string)
    requires title == "My Post"
    ensures SanitizeFilename(title) == "my-post"
  {
    MyPostLowered();
    MyPostReplaced("my post");
    MyPostSlug();
    SanitizeExample(title, "my post", "my-post");
  }

  lemma SanitizeUnderscorePlus(title: string)
    requires title == "a_b+c"
    ensures SanitizeFilename(title) == "a-b-c"
  {
    UnderscorePlusLowered();
    UnderscorePlusReplaced();
    UnderscorePlusSlug();
    SanitizeExample(title, "a_b+c", "a-b-c");
  }

  lemma MyPostLowered()
    ensures IsAscii("My Post") && ToLower("My Post") == "my post"
  {
  }

  lemma MyPostReplaced(lowered: string)
    requires lowered == "my post"
    ensures Replace(lowered, Separators, "-") == "my-post"
  {
    SeparatorBetween("my", ' ', "post");
    assert lowered == "my" + [' '] + "post";
  }

  /** One separator between two words becomes one dash. */
  lemma SeparatorBetween(a: string, c: char, b: string)
    requires forall i :: 0 <= i < |a| ==> a[i] !in Separators
    requires forall i :: 0 <= i < |b| ==> b[i] !in Separators
    requires c in Separators
    ensures Replace(a + [c] + b, Separators, "-") == a + "-" + b
  {
    ReplaceBetween(a, c, b, Separators, "-");
  }

  lemma MyPostSlug()
    ensures IsSlug("my-post")
  {
    var s := "my-post";
    forall i | 0 <= i < |s| - 1
      ensures !(s[i] == '-' && s[i + 1] == '-')
    {
      assert s[i] == '-' ==> i == 2;
    }
  }

  lemma UnderscorePlusLowered()
    ensures IsAscii("a_b+c") && ToLower("a_b+c") == "a_b+c"
  {
  }

  lemma UnderscorePlusReplaced()
    ensures Replace("a_b+c", Separators, "-") == "a-b-c"
  {
    assert Replace("+c", Separators, "-") == "-c";
    assert Replace("b+c", Separators, "-") == "b-c";
    assert Replace("_b+c", Separators, "-") == "-b-c";
  }

  lemma UnderscorePlusSlug()
    ensures IsSlug("a-b-c")
  {
    var s := "a-b-c";
    forall i | 0 <= i < |s| - 1
      ensures !(s[i] == '-' && s[i + 1] == '-')
    {
      assert s[i] == '-' ==> i == 1 || i == 3;
    }
  }

  lemma SanitizeExample(title: string, lowered: string, slug: string)
    requires IsAscii(title) && ToLower(title) == lowered
    requires Replace(lowered, Separators, "-") == slug && IsSlug(slug)
    ensures SanitizeFilename(title) == slug
  {
    TransliterateAscii(RussianTable, title);
    CleanOfSlug(slug);
  }

  // ---------------------------------------------------------------------
  // Titles that leave nothing

  /** An ASCII character that is neither a letter nor a digit. */
  predicate IsPunctuation(c: char) {
    c as int < 128 && !('a' <= c <= 'z') && !('A' <= c <= 'Z') && !('0' <= c <= '9')
  }

  lemma {:induction false} KeepOnlyHyphens(s: string)
    requires forall i :: 0 <= i < |s| ==> !('a' <= s[i] <= 'z') && !('0' <= s[i] <= '9')
    ensures forall i :: 0 <= i < |KeepSlugChars(s)| ==> KeepSlugChars(s)[i] == '-'
  {
    if s != [] {
      KeepOnlyHyphens(s[1..]);
    }
  }

  lemma {:induction false} CollapseHyphens(s: string)
    requires forall i :: 0 <= i < |s| ==> s[i] == '-'
    ensures forall i :: 0 <= i < |CollapseDashes(s)| ==> CollapseDashes(s)[i] == '-'
  {
    if s != [] {
      CollapseHyphens(s[1..]);
    }
  }

  /** Punctuation passes transliteration and lower-casing unchanged. */
  lemma PunctuationLowered(table: seq<Entry>, s: string)
    requires forall i :: 0 <= i < |s| ==> IsPunctuation(s[i])
    ensures Replace(ToLower(TransliterateWith(table, s)), Separators, "-") == Replace(s, Separators, "-")
  {
    TransliterateAscii(table, s);
    forall i | 0 <= i < |s|
      ensures LowerChar(s[i]) == [s[i]]
    {
      assert IsPunctuation(s[i]);
    }
    ToLowerOfLower(s);
  }

  /** Of punctuation, the first regex keeps the hyphens only. */
  lemma PunctuationKept(s: string)
    requires forall i :: 0 <= i < |s| ==> IsPunctuation(s[i])
    ensures forall i :: 0 <= i < |KeepSlugChars(Replace(s, Separators, "-"))| ==>
              KeepSlugChars(Replace(s, Separators, "-"))[i] == '-'
  {
    var x := Replace(s, Separators, "-");
    forall i | 0 <= i < |x|
      ensures !('a' <= x[i] <= 'z') && !('0' <= x[i] <= '9')
    {
      if x[i] !in "-" {
        var j :| 0 <= j < |s| && s[j] == x[i];
        assert IsPunctuation(s[j]);
      }
    }
    KeepOnlyHyphens(x);
  }

  /** A title without letters or digits, all of it ASCII, gives the empty
      slug: nothing keeps `create_post` from naming the file ".md". */
  lemma PunctuationGivesEmptySlug(title: string)
    requires forall i :: 0 <= i < |title| ==> IsPunctuation(title[i])
    ensures SanitizeFilename(title) == []
  {
    PunctuationLowered(RussianTable, title);
    var k := KeepSlugChars(Replace(title, Separators, "-"));
    PunctuationKept(title);
    CollapseHyphens(k);
    TrimMatchesAll(CollapseDashes(k), '-');
  }

  // ---------------------------------------------------------------------
  // A new post

  /** The name of the file `create_post` writes in the posts folder. */
  function PostFileName(title: string): string {
    SanitizeFilename(title) + ".md"
  }

  /** The new post's file is listed as a post exactly when the slug is not
      empty; for the empty slug it is ".md", which has no extension. */
  lemma NewPostIsListedIff(title: string, e: FileEntry)
    requires e.isFile && e.path.name == Some(PostFileName(title))
    ensures IsMarkdownFile(e) <==> SanitizeFilename(title) != []
    ensures SanitizeFilename(title) != [] ==> Stem(PostFileName(title)) == SanitizeFilename(title)
  {
    SlugFileName(SanitizeFilename(title), e);
  }

  lemma SlugFileName(slug: string, e: FileEntry)
    requires IsSlug(slug)
    requires e.isFile && e.path.name == Some(slug + ".md")
    ensures IsMarkdownFile(e) <==> slug != []
    ensures slug != [] ==> Stem(slug + ".md") == slug
  {
    if slug == [] {
      DotMdIsHidden(slug + ".md");
    } else {
      assert IsSlugChar(slug[0]);
      MarkdownName(slug);
    }
  }

  /** ".md" has no extension: its only dot starts the name. */
  lemma DotMdIsHidden(name: string)
    requires name == ".md"
    ensures Extension(name) == None
  {
    assert LastDot(name) == Some(0);
  }

  lemma MarkdownName(stem: string)
    requires stem != [] && stem[0] != '.'
    ensures Extension(stem + ".md") == Some("md") && Stem(stem + ".md") == stem
  {
    assert stem + ".md" == stem + "." + "md";
    StemAndExtension(stem, "md");
  }

  /** The frontmatter `create_post` writes: the title as given and the
      creation time (local, as `%Y-%m-%d %H:%M:%S`) as the date. */
  function NewPostFrontmatter(title: string, now: string): Frontmatter {
    DefaultFrontmatter().(title := title, date := now)
  }

  /** The text `create_post` writes: the frontmatter between delimiters and
      an empty body. */
  function NewPostText(title: string, now: string, codec: Codec): Result<string> {
    Serialise(NewPostFrontmatter(title, now), "", codec)
  }

  /** Reading the new file back, as `create_post` does last, gives a post
      with the title and date it was created with and no content, when the
      YAML codec reads back what it wrote and the title is not the
      "Untitled Post" placeholder the loader replaces. */
  lemma CreatedPostReadsBack(title: string, now: string, codec: Codec, yaml: string, e: FileEntry, meta: FileMeta)
    requires title != UntitledPost && now != []
    requires codec.emit(EncodeFrontmatter(NewPostFrontmatter(title, now))) == Ok(yaml)
    requires !Contains(yaml, Delimiter) && !EndsWith(yaml, "-")
    requires codec.parse(Trim(yaml)) == Ok(EncodeFrontmatter(NewPostFrontmatter(title, now)))
    requires e.contents == NewPostText(title, now, codec) && e.meta == Ok(meta)
    ensures LoadPost(e, codec).Ok?
    ensures LoadPost(e, codec).value.frontmatter == NewPostFrontmatter(title, now)
    ensures LoadPost(e, codec).value.title == title && LoadPost(e, codec).value.date == now
    ensures LoadPost(e, codec).value.content == []
  {
    var fm := NewPostFrontmatter(title, now);
    assert IsTrimmed("");
    DocumentRoundTrip(MarkdownDocument(fm, ""), codec, yaml);
  }

  // ---------------------------------------------------------------------
  // Image file names and URLs

  /** `\` turned into `/`, as both image commands do to a relative path. */
  function Slashed(s: string): string {
    Replace(s, {'\\'}, "/")
  }

  /** `Slashed` changes every backslash into a slash and nothing else. */
  lemma {:induction false} SlashedChars(s: string)
    ensures |Slashed(s)| == |s| && '\\' !in Slashed(s)
    ensures forall i :: 0 <= i < |s| ==> Slashed(s)[i] == if s[i] == '\\' then '/' else s[i]
  {
    if s != [] {
      SlashedChars(s[1..]);
      assert Slashed(s) == (if s[0] == '\\' then "/" else [s[0]]) + Slashed(s[1..]);
    }
  }

  /** A path without backslashes is its own URL form. */
  lemma SlashedOfPlain(s: string)
    requires '\\' !in s
    ensures Slashed(s) == s
  {
    ReplaceAbsent(s, {'\\'}, "/");
  }

  /** A relative path joined with either separator gives the same URL form. */
  lemma SlashedJoin(dir: string, sep: char, name: string)
    requires sep == '/' || sep == '\\'
    requires '\\' !in dir && '\\' !in name
    ensures Slashed(dir + [sep] + name) == dir + "/" + name
  {
    ReplaceAppend(dir + [sep], name, {'\\'}, "/");
    ReplaceAppend(dir, [sep], {'\\'}, "/");
    SlashedOfPlain(dir);
    SlashedOfPlain(name);
  }

  /** `n` in decimal, as `format!` writes an integer. */
  function DecimalNat(n: nat): (s: string)
    ensures s != [] && DigitsAt(s, 0, |s|)
    ensures DigitsValue(s, 0, |s|) == n
    ensures |s| > 1 ==> s[0] != '0'
  {
    if n < 10 then [Digit(n)]
    else
      var p := DecimalNat(n / 10);
      var s := p + [Digit(n % 10)];
      SameDigits(p, 0, s, 0, |p|);
      assert s[..|p|] == p;
      s
  }

  /** An integer in decimal: a minus sign when it is negative, then the
      digits of its magnitude. */
  function Decimal(n: int): (s: string)
    ensures s != [] && '.' !in s && '\\' !in s
    ensures n < 0 <==> s[0] == '-'
    ensures n >= 0 ==> DigitsAt(s, 0, |s|) && DigitsValue(s, 0, |s|) == n
    ensures n < 0 ==> DigitsAt(s, 1, |s| - 1) && DigitsValue(s, 1, |s| - 1) == -n
  {
    if n < 0 then
      var p := DecimalNat(-n);
      var s := "-" + p;
      assert s[1..1 + |p|] == p[0..|p|];
      SameDigits(p, 0, s, 1, |p|);
      s
    else DecimalNat(n)
  }

  /** The name `copy_image_to_project` gives the copy when the image folder
      already holds a file of the source's name: the stem, an underscore,
      the UTC time in seconds, a dot and the extension (empty when there is
      none). */
  function DuplicateName(name: string, timestamp: int): string {
    Stem(name) + "_" + Decimal(timestamp) + "." + Extension(name).GetOr("")
  }

  /** The renamed copy keeps the source's extension (an empty one when it
      had none), its stem is the old stem with the time appended, and it is
      longer than the source's name, so it never is that name. */
  lemma DuplicateNameParts(name: string, timestamp: int)
    ensures Extension(DuplicateName(name, timestamp)) == Some(Extension(name).GetOr(""))
    ensures Stem(DuplicateName(name, timestamp)) == Stem(name) + "_" + Decimal(timestamp)
    ensures |DuplicateName(name, timestamp)| > |name|
  {
    var stem := Stem(name) + "_" + Decimal(timestamp);
    var ext := Extension(name).GetOr("");
    assert DuplicateName(name, timestamp) == stem + "." + ext;
    assert |stem| >= 2;
    StemAndExtension(stem, ext);
  }

  /** Where the copy goes: the source's own name, or the renamed one when
      that name is taken. */
  function CopyTarget(name: string, taken: bool, timestamp: int): string {
    if taken then DuplicateName(name, timestamp) else name
  }

  /** The URL `copy_image_to_project` returns for the copy's path relative
      to the project: "/" and the path with `\` turned into `/`. */
  function CopiedImageUrl(relative: Option<string>): (r: Result<string>)
    ensures relative.None? <==> r == Err("Failed to get relative path")
    ensures r.Ok? ==> |r.value| > 0 && r.value[0] == '/' && '\\' !in r.value
    ensures r.Ok? ==> r.value[1..] == Slashed(relative.value)
  {
    match relative
    case None => Err("Failed to get relative path")
    case Some(p) =>
      SlashedChars(p);
      Ok("/" + Slashed(p))
  }

  /** `copy_image_to_project`, the file system taken as given: whether the
      image folder could be created, whether the source's name is taken
      there, the time, whether the copy succeeded, and the image folder's
      path relative to the project (None when it does not lie inside it)
      with the platform's separator. */
  function CopyImageToProject(source: FilePath, dirError: Option<string>, taken: bool, timestamp: int,
                              copyError: Option<string>, imagesRelative: Option<string>, sep: char): (r: Result<string>)
    ensures dirError.Some? ==> r == Err("Failed to create images directory: " + dirError.value)
    ensures dirError.None? && source.name.None? ==> r == Err("Invalid source filename")
    ensures dirError.None? && source.name.Some? && copyError.Some? ==> r == Err("Failed to copy image: " + copyError.value)
    ensures r.Ok? ==> source.name.Some? && copyError.None? && imagesRelative.Some?
    ensures r.Ok? ==> r == CopiedImageUrl(Some(imagesRelative.value + [sep] + CopyTarget(source.name.value, taken, timestamp)))
  {
    if dirError.Some? then Err("Failed to create images directory: " + dirError.value)
    else if source.name.None? then Err("Invalid source filename")
    else
      var target := CopyTarget(source.name.value, taken, timestamp);
      if copyError.Some? then Err("Failed to copy image: " + copyError.value)
      else CopiedImageUrl(match imagesRelative case None => None case Some(d) => Some(d + [sep] + target))
  }

  /** Every URL `copy_image_to_project` returns starts with "/" and holds no
      backslash; on either platform it is the image folder, "/" and the
      copy's name, when neither holds a backslash. */
  lemma CopiedImageUrlShape(source: FilePath, taken: bool, timestamp: int, dir: string, sep: char)
    requires source.name.Some? && (sep == '/' || sep == '\\')
    requires '\\' !in dir && '\\' !in CopyTarget(source.name.value, taken, timestamp)
    ensures CopyImageToProject(source, None, taken, timestamp, None, Some(dir), sep) ==
            Ok("/" + dir + "/" + CopyTarget(source.name.value, taken, timestamp))
  {
    var target := CopyTarget(source.name.value, taken, timestamp);
    SlashedJoin(dir, sep, target);
    assert CopyImageToProject(source, None, taken, timestamp, None, Some(dir), sep) ==
           CopiedImageUrl(Some(dir + [sep] + target));
    assert CopiedImageUrl(Some(dir + [sep] + target)) == Ok("/" + Slashed(dir + [sep] + target));
    assert "/" + (dir + "/" + target) == "/" + dir + "/" + target;
  }

  /** What `create_image_info` returns for a file under the image folder:
      its name, its path relative to the folder (empty when it is not
      inside), its whole path, the URL "/images/" and the relative path with
      `\` turned into `/`, its size and creation time, and no dimensions. */
  function ImageInfoOf(e: FileEntry): (r: Result<ImageInfo>)
    ensures r.Err? <==> e.meta.Err?
    ensures r.Err? ==> r.error == "Failed to get image metadata: " + e.meta.error
    ensures r.Ok? ==> r.value.filename == e.path.name.GetOr("") && r.value.path == e.rootRelative.GetOr("")
    ensures r.Ok? ==> r.value.fullPath == e.path.text
    ensures r.Ok? ==> StartsWith(r.value.url, "/images/") && '\\' !in r.value.url
    ensures r.Ok? ==> r.value.url[8..] == Slashed(r.value.path)
    ensures r.Ok? ==> r.value.size == e.meta.value.size && r.value.createdAt == e.meta.value.createdAt
    ensures r.Ok? ==> r.value.width.None? && r.value.height.None?
  {
    match e.meta
    case Err(err) => Err("Failed to get image metadata: " + err)
    case Ok(meta) =>
      var path := e.rootRelative.GetOr("");
      SlashedChars(path);
      Ok(ImageInfo(e.path.name.GetOr(""), path, e.path.text, "/images/" + Slashed(path),
                   meta.size, None, None, meta.createdAt))
  }

  /** An image's URL is "/images/" and its relative path when that has no backslash. */
  lemma ImageUrlOfPlainPath(e: FileEntry)
    requires e.meta.Ok? && '\\' !in e.rootRelative.GetOr("")
    ensures ImageInfoOf(e).value.url == "/images/" + e.rootRelative.GetOr("")
  {
    SlashedOfPlain(e.rootRelative.GetOr(""));
  }

  // ---------------------------------------------------------------------
  // Pages and drafts

  /** What `Page::from_file` and `Draft::from_file` read: the parsed
      document and the file's metadata, or the first error. */
  function LoadDocument(e: FileEntry, codec: Codec): (r: Result<(MarkdownDocument, FileMeta)>)
    ensures e.contents.Err? ==> r == Err("Failed to read file: " + e.contents.error)
    ensures r.Ok? <==> e.contents.Ok? && Parse(e.contents.value, codec).Ok? && e.meta.Ok?
    ensures r.Ok? ==> r.value == (Parse(e.contents.value, codec).value.0, e.meta.value)
  {
    match e.contents
    case Err(err) => Err("Failed to read file: " + err)
    case Ok(raw) =>
      match Parse(raw, codec)
      case Err(err) => Err(err)
      case Ok((doc, _)) =>
        match e.meta
        case Err(err) => Err("Failed to get file metadata: " + err)
        case Ok(meta) => Ok((doc, meta))
  }

  /** The id of a page or a draft: its path relative to the project, or
      the empty string when it does not lie inside. */
  function DocumentId(e: FileEntry): string {
    e.projectRelative.GetOr("")
  }

  /** `Page::from_file`: the document as parsed, without the title and date
      fallbacks posts get. */
  function LoadPage(e: FileEntry, codec: Codec): (r: Result<Page>)
    ensures e.contents.Err? ==> r == Err("Failed to read file: " + e.contents.error)
    ensures r.Ok? <==> e.contents.Ok? && Parse(e.contents.value, codec).Ok? && e.meta.Ok?
    ensures r.Ok? ==>
              var doc := Parse(e.contents.value, codec).value.0;
              var meta := e.meta.value;
              r.value.frontmatter == doc.frontmatter && r.value.title == doc.frontmatter.title &&
              r.value.content == doc.content && r.value.filePath == e.path.text &&
              r.value.createdAt == meta.createdAt && r.value.modifiedAt == meta.modifiedAt
    ensures r.Ok? && e.projectRelative.Some? ==> r.value.id == e.projectRelative.value
    ensures r.Ok? && e.projectRelative.None? ==> r.value.id == ""
  {
    match LoadDocument(e, codec)
    case Err(err) => Err(err)
    case Ok((doc, meta)) =>
      Ok(Page(DocumentId(e), doc.frontmatter.title, doc.content, doc.frontmatter, e.path.text,
              meta.createdAt, meta.modifiedAt))
  }

  /** `Draft::from_file`, the same as for a page. */
  function LoadDraft(e: FileEntry, codec: Codec): (r: Result<Draft>)
    ensures e.contents.Err? ==> r == Err("Failed to read file: " + e.contents.error)
    ensures r.Ok? <==> e.contents.Ok? && Parse(e.contents.value, codec).Ok? && e.meta.Ok?
    ensures r.Ok? ==>
              var doc := Parse(e.contents.value, codec).value.0;
              var meta := e.meta.value;
              r.value.frontmatter == doc.frontmatter && r.value.title == doc.frontmatter.title &&
              r.value.content == doc.content && r.value.filePath == e.path.text &&
              r.value.createdAt == meta.createdAt && r.value.modifiedAt == meta.modifiedAt
    ensures r.Ok? && e.projectRelative.Some? ==> r.value.id == e.projectRelative.value
    ensures r.Ok? && e.projectRelative.None? ==> r.value.id == ""
  {
    match LoadDocument(e, codec)
    case Err(err) => Err(err)
    case Ok((doc, meta)) =>
      Ok(Draft(DocumentId(e), doc.frontmatter.title, doc.content, doc.frontmatter, e.path.text,
               meta.createdAt, meta.modifiedAt))
  }

  /** A file outside the project folder: a post is known by its whole path,
      a page or a draft by the empty id. */
  lemma OutsideIds(e: FileEntry, codec: Codec)
    requires e.projectRelative.None?
    requires e.contents.Ok? && Parse(e.contents.value, codec).Ok? && e.meta.Ok?
    ensures LoadPost(e, codec).Ok? && LoadPost(e, codec).value.id == e.path.text
    ensures LoadPage(e, codec).Ok? && LoadPage(e, codec).value.id == ""
    ensures LoadDraft(e, codec).Ok? && LoadDraft(e, codec).value.id == ""
  {
  }

  /** Unlike a post, a page without a header keeps the placeholder title:
      neither its first heading nor its file name is consulted. */
  lemma HeaderlessPageIsUntitled(e: FileEntry, codec: Codec, raw: string, meta: FileMeta)
    requires e.contents == Ok(raw) && e.meta == Ok(meta) && !StartsWith(raw, Delimiter)
    ensures LoadPage(e, codec).Ok? && LoadDraft(e, codec).Ok?
    ensures LoadPage(e, codec).value.title == UntitledPost && LoadDraft(e, codec).value.title == UntitledPost
    ensures LoadPage(e, codec).value.content == raw && LoadDraft(e, codec).value.content == raw
  {
    assert !HasFrontmatter(raw);
  }

  /** The frontmatter of a loaded document keeps its custom keys apart from the named ones. */
  lemma LoadedKeysApart(e: FileEntry, codec: Codec)
    requires LoadDocument(e, codec).Ok?
    ensures CustomKeysApart(LoadDocument(e, codec).value.0.frontmatter)
  {
    var raw := e.contents.value;
    if !HasFrontmatter(raw) {
      assert LoadDocument(e, codec).value.0.frontmatter == DefaultFrontmatter();
    }
  }

  /** Saving a loaded page and loading the saved file gives the same page
      back (up to the file times), when its content is trimmed and the YAML
      codec reads back what it wrote. */
  lemma ReloadKeepsPage(e: FileEntry, codec: Codec, page: Page, yaml: string, saved: FileEntry, meta: FileMeta)
    requires LoadPage(e, codec) == Ok(page) && IsTrimmed(page.content)
    requires codec.emit(EncodeFrontmatter(page.frontmatter)) == Ok(yaml)
    requires !Contains(yaml, Delimiter) && !EndsWith(yaml, "-")
    requires codec.parse(Trim(yaml)) == Ok(EncodeFrontmatter(page.frontmatter))
    requires PageToMarkdown(page, codec).Ok?
    requires saved == e.(contents := Ok(PageToMarkdown(page, codec).value), meta := Ok(meta))
    ensures LoadPage(saved, codec) == Ok(page.(createdAt := meta.createdAt, modifiedAt := meta.modifiedAt))
  {
    LoadedKeysApart(e, codec);
    DocumentRoundTrip(MarkdownDocument(page.frontmatter, page.content), codec, yaml);
  }

  /** The same for a draft. */
  lemma ReloadKeepsDraft(e: FileEntry, codec: Codec, draft: Draft, yaml: string, saved: FileEntry, meta: FileMeta)
    requires LoadDraft(e, codec) == Ok(draft) && IsTrimmed(draft.content)
    requires codec.emit(EncodeFrontmatter(draft.frontmatter)) == Ok(yaml)
    requires !Contains(yaml, Delimiter) && !EndsWith(yaml, "-")
    requires codec.parse(Trim(yaml)) == Ok(EncodeFrontmatter(draft.frontmatter))
    requires DraftToMarkdown(draft, codec).Ok?
    requires saved == e.(contents := Ok(DraftToMarkdown(draft, codec).value), meta := Ok(meta))
    ensures LoadDraft(saved, codec) == Ok(draft.(createdAt := meta.createdAt, modifiedAt := meta.modifiedAt))
  {
    LoadedKeysApart(e, codec);
    DocumentRoundTrip(MarkdownDocument(draft.frontmatter, draft.content), codec, yaml);
  }

  // ---------------------------------------------------------------------
  // Listings

  /** Which files `list_pages` takes: files named "index.md" whose folder
      is not `_posts` or `_drafts`. */
  predicate IsPageFile(e: FileEntry) {
    e.isFile && e.path.name == Some("index.md") &&
    e.path.parentName != Some("_posts") && e.path.parentName != Some("_drafts")
  }

  const ImageExtensions: set<string> := {"png", "jpg", "jpeg", "gif", "webp", "svg", "ico"}

  /** Which files `list_images` takes: files whose extension, lower-cased,
      is one of the image extensions. */
  predicate IsImageFile(e: FileEntry) {
    e.isFile && e.path.name.Some? && Extension(e.path.name.value).Some? &&
    ToLower(Extension(e.path.name.value).value) in ImageExtensions
  }

  /** What a walk over `entries` collects: what `load` gives for every entry
      `take` accepts, in walk order, leaving out the ones that fail to load. */
  function Collect<T>(entries: seq<FileEntry>, take: FileEntry -> bool, load: FileEntry -> Result<T>): seq<T> {
    if entries == [] then []
    else
      var e := entries[|entries| - 1];
      Collect(entries[..|entries| - 1], take, load) + if take(e) && load(e).Ok? then [load(e).value] else []
  }

  /** An item is collected exactly when some accepted entry loads as it. */
  lemma {:induction false} CollectMembers<T>(entries: seq<FileEntry>, take: FileEntry -> bool, load: FileEntry -> Result<T>)
    ensures forall x :: x in Collect(entries, take, load) <==> exists e :: e in entries && take(e) && load(e) == Ok(x)
  {
    if entries != [] {
      var n := |entries| - 1;
      var front := entries[..n];
      CollectMembers(front, take, load);
      assert entries == front + [entries[n]];
      forall x
        ensures x in Collect(entries, take, load) <==> exists e :: e in entries && take(e) && load(e) == Ok(x)
      {
        if x in Collect(front, take, load) {
          var e :| e in front && take(e) && load(e) == Ok(x);
          assert e in entries;
        }
        if exists e :: e in entries && take(e) && load(e) == Ok(x) {
          var e :| e in entries && take(e) && load(e) == Ok(x);
          if e != entries[n] {
            assert e in front;
          }
        }
      }
    }
  }

  /** Keys never increase along the list: newest first. */
  predicate NewestFirst<T>(s: seq<T>, key: T -> int) {
    forall i, j :: 0 <= i < j < |s| ==> key(s[i]) >= key(s[j])
  }

  /** Puts `x` into a newest-first list after every item whose key is at
      least x's, as a stable sort places a later item. */
  function InsertByKey<T>(x: T, s: seq<T>, key: T -> int): (r: seq<T>)
    ensures multiset(r) == multiset(s) + multiset{x}
  {
    if s == [] || key(s[0]) < key(x) then [x] + s
    else
      assert s == [s[0]] + s[1..];
      [s[0]] + InsertByKey(x, s[1..], key)
  }

  /** `sort_by` with `b.cmp(a)` on a key: the stable sort into descending
      key order, by insertion. */
  function SortByKey<T>(xs: seq<T>, key: T -> int): (r: seq<T>)
    ensures multiset(r) == multiset(xs)
  {
    if xs == [] then []
    else
      assert xs == xs[..|xs| - 1] + [xs[|xs| - 1]];
      InsertByKey(xs[|xs| - 1], SortByKey(xs[..|xs| - 1], key), key)
  }

  lemma {:induction false} InsertByKeySorted<T>(x: T, s: seq<T>, key: T -> int)
    requires NewestFirst(s, key)
    ensures NewestFirst(InsertByKey(x, s, key), key)
  {
    var r := InsertByKey(x, s, key);
    if s == [] || key(s[0]) < key(x) {
      forall i, j | 0 <= i < j < |r|
        ensures key(r[i]) >= key(r[j])
      {
        if i == 0 {
          assert r[j] == s[j - 1];
        } else {
          assert r[i] == s[i - 1] && r[j] == s[j - 1];
        }
      }
    } else {
      var rest := InsertByKey(x, s[1..], key);
      assert NewestFirst(s[1..], key) by {
        forall i, j | 0 <= i < j < |s[1..]|
          ensures key(s[1..][i]) >= key(s[1..][j])
        {
          assert s[1..][i] == s[i + 1] && s[1..][j] == s[j + 1];
        }
      }
      InsertByKeySorted(x, s[1..], key);
      forall i, j | 0 <= i < j < |r|
        ensures key(r[i]) >= key(r[j])
      {
        if i == 0 {
          var y := rest[j - 1];
          assert y in multiset(rest);
          if y != x {
            assert y in multiset(s[1..]);
            var k :| 0 <= k < |s[1..]| && s[1..][k] == y;
            assert s[k + 1] == y;
          }
        } else {
          assert r[i] == rest[i - 1] && r[j] == rest[j - 1];
        }
      }
    }
  }

  /** The sort's result is newest first. */
  lemma {:induction false} SortByKeySorted<T>(xs: seq<T>, key: T -> int)
    ensures NewestFirst(SortByKey(xs, key), key)
  {
    if xs != [] {
      SortByKeySorted(xs[..|xs| - 1], key);
      InsertByKeySorted(xs[|xs| - 1], SortByKey(xs[..|xs| - 1], key), key);
    }
  }

  /** A permutation has the same members. */
  lemma SameMembers<T>(a: seq<T>, b: seq<T>)
    requires multiset(a) == multiset(b)
    ensures forall x :: x in a <==> x in b
  {
    forall x
      ensures x in a <==> x in b
    {
      assert x in a <==> x in multiset(a);
      assert x in b <==> x in multiset(b);
    }
  }

  /** No item of `s` is older than `x`. */
  predicate NoneOlder<T>(s: seq<T>, x: T, key: T -> int) {
    forall i :: 0 <= i < |s| ==> key(s[i]) >= key(x)
  }

  /** An item no newer than any in the list goes at its end. */
  lemma {:induction false} InsertOldest<T>(x: T, s: seq<T>, key: T -> int)
    requires NoneOlder(s, x, key)
    ensures InsertByKey(x, s, key) == s + [x]
  {
    if s != [] {
      InsertOldest(x, s[1..], key);
      assert s == [s[0]] + s[1..];
    }
  }

  /** A list already newest first is left as it is: the sort is stable. */
  lemma {:induction false} SortByKeyOfSorted<T>(xs: seq<T>, key: T -> int)
    requires NewestFirst(xs, key)
    ensures SortByKey(xs, key) == xs
  {
    if xs != [] {
      var n := |xs| - 1;
      var front := xs[..n];
      NewestFirstFront(xs, key);
      SortByKeyOfSorted(front, key);
      InsertOldest(xs[n], front, key);
      SortStepFixed(xs, key);
    }
  }

  /** The sort leaves a list as it is when it leaves the list's front as it
      is and the last item goes back at the end. */
  lemma SortStepFixed<T>(xs: seq<T>, key: T -> int)
    requires xs != []
    requires SortByKey(xs[..|xs| - 1], key) == xs[..|xs| - 1]
    requires InsertByKey(xs[|xs| - 1], xs[..|xs| - 1], key) == xs[..|xs| - 1] + [xs[|xs| - 1]]
    ensures SortByKey(xs, key) == xs
  {
    FrontAndLast(xs);
    assert SortByKey(xs, key) == InsertByKey(xs[|xs| - 1], SortByKey(xs[..|xs| - 1], key), key);
  }

  lemma FrontAndLast<T>(xs: seq<T>)
    requires xs != []
    ensures xs[..|xs| - 1] + [xs[|xs| - 1]] == xs
  {
  }

  /** Without its last item a newest-first list is still newest first, and
      that item is no newer than any before it. */
  lemma NewestFirstFront<T>(xs: seq<T>, key: T -> int)
    requires xs != [] && NewestFirst(xs, key)
    ensures NewestFirst(xs[..|xs| - 1], key)
    ensures NoneOlder(xs[..|xs| - 1], xs[|xs| - 1], key)
  {
    var front := xs[..|xs| - 1];
    forall i, j | 0 <= i < j < |front|
      ensures key(front[i]) >= key(front[j])
    {
      assert front[i] == xs[i] && front[j] == xs[j];
    }
    forall i | 0 <= i < |front|
      ensures key(front[i]) >= key(xs[|xs| - 1])
    {
      assert front[i] == xs[i];
    }
  }

  /** One more entry of the walk: the collection grows by what it loads as,
      if it is taken and loads. */
  lemma CollectStep<T>(entries: seq<FileEntry>, i: nat, take: FileEntry -> bool, load: FileEntry -> Result<T>)
    requires i < |entries|
    ensures Collect(entries[..i + 1], take, load) ==
            Collect(entries[..i], take, load) + if take(entries[i]) && load(entries[i]).Ok? then [load(entries[i]).value] else []
  {
    assert entries[..i + 1][..i] == entries[..i];
  }

  /** A collection sorted newest first holds exactly what the taken
      entries load as. */
  lemma SortedCollection<T>(entries: seq<FileEntry>, take: FileEntry -> bool, load: FileEntry -> Result<T>, key: T -> int)
    ensures NewestFirst(SortByKey(Collect(entries, take, load), key), key)
    ensures forall x :: x in SortByKey(Collect(entries, take, load), key) <==>
                        exists e :: e in entries && take(e) && load(e) == Ok(x)
  {
    var found := Collect(entries, take, load);
    SortByKeySorted(found, key);
    SameMembers(SortByKey(found, key), found);
    CollectMembers(entries, take, load);
  }

  function PostModified(p: Post): int { p.modifiedAt }
  function PageModified(p: Page): int { p.modifiedAt }
  function DraftModified(d: Draft): int { d.modifiedAt }
  function ImageCreated(i: ImageInfo): int { i.createdAt }

  function PostLoader(codec: Codec): FileEntry -> Result<Post> {
    (e: FileEntry) => LoadPost(e, codec)
  }

  function PageLoader(codec: Codec): FileEntry -> Result<Page> {
    (e: FileEntry) => LoadPage(e, codec)
  }

  function DraftLoader(codec: Codec): FileEntry -> Result<Draft> {
    (e: FileEntry) => LoadDraft(e, codec)
  }

  /** `list_posts` over the entries of a walk of the posts folder one level
      deep (none when the folder does not exist): every Markdown file that
      loads as a post, newest modification first; files that fail to load
      are skipped. */
  method ListPosts(entries: seq<FileEntry>, codec: Codec) returns (posts: seq<Post>)
    ensures posts == SortByKey(Collect(entries, IsMarkdownFile, PostLoader(codec)), PostModified)
    ensures NewestFirst(posts, PostModified)
    ensures forall p :: p in posts <==> exists e :: e in entries && IsMarkdownFile(e) && LoadPost(e, codec) == Ok(p)
  {
    var found: seq<Post> := [];
    for i := 0 to |entries|
      invariant found == Collect(entries[..i], IsMarkdownFile, PostLoader(codec))
    {
      var e := entries[i];
      CollectStep(entries, i, IsMarkdownFile, PostLoader(codec));
      if IsMarkdownFile(e) {
        var r := PostFromFile(e, codec);
        if r.Ok? {
          found := found + [r.value];
        }
      }
    }
    assert entries[..|entries|] == entries;
    posts := SortByKey(found, PostModified);
    SortedCollection(entries, IsMarkdownFile, PostLoader(codec), PostModified);
  }


  /** `list_pages` over the entries of a walk of the content folder two
      levels deep: every "index.md" outside `_posts` and `_drafts` that
      loads as a page, newest modification first. */
  method ListPages(entries: seq<FileEntry>, codec: Codec) returns (pages: seq<Page>)
    ensures pages == SortByKey(Collect(entries, IsPageFile, PageLoader(codec)), PageModified)
    ensures NewestFirst(pages, PageModified)
    ensures forall p :: p in pages <==> exists e :: e in entries && IsPageFile(e) && LoadPage(e, codec) == Ok(p)
  {
    var found: seq<Page> := [];
    for i := 0 to |entries|
      invariant found == Collect(entries[..i], IsPageFile, PageLoader(codec))
    {
      var e := entries[i];
      CollectStep(entries, i, IsPageFile, PageLoader(codec));
      if IsPageFile(e) {
        var r := LoadPage(e, codec);
        if r.Ok? {
          found := found + [r.value];
        }
      }
    }
    assert entries[..|entries|] == entries;
    pages := SortByKey(found, PageModified);
    SortedCollection(entries, IsPageFile, PageLoader(codec), PageModified);
  }


  /** `list_drafts` over the entries of a walk of the drafts folder one
      level deep: every Markdown file that loads as a draft, newest
      modification first. */
  method ListDrafts(entries: seq<FileEntry>, codec: Codec) returns (drafts: seq<Draft>)
    ensures drafts == SortByKey(Collect(entries, IsMarkdownFile, DraftLoader(codec)), DraftModified)
    ensures NewestFirst(drafts, DraftModified)
    ensures forall d :: d in drafts <==> exists e :: e in entries && IsMarkdownFile(e) && LoadDraft(e, codec) == Ok(d)
  {
    var found: seq<Draft> := [];
    for i := 0 to |entries|
      invariant found == Collect(entries[..i], IsMarkdownFile, DraftLoader(codec))
    {
      var e := entries[i];
      CollectStep(entries, i, IsMarkdownFile, DraftLoader(codec));
      if IsMarkdownFile(e) {
        var r := LoadDraft(e, codec);
        if r.Ok? {
          found := found + [r.value];
        }
      }
    }
    assert entries[..|entries|] == entries;
    drafts := SortByKey(found, DraftModified);
    SortedCollection(entries, IsMarkdownFile, DraftLoader(codec), DraftModified);
  }


  /** `list_images` over the entries of a walk of the image folder up to
      ten levels deep: every file with an image extension whose metadata
      can be read, newest creation first. */
  method ListImages(entries: seq<FileEntry>) returns (images: seq<ImageInfo>)
    ensures images == SortByKey(Collect(entries, IsImageFile, ImageInfoOf), ImageCreated)
    ensures NewestFirst(images, ImageCreated)
    ensures forall m :: m in images <==> exists e :: e in entries && IsImageFile(e) && ImageInfoOf(e) == Ok(m)
  {
    var found: seq<ImageInfo> := [];
    for i := 0 to |entries|
      invariant found == Collect(entries[..i], IsImageFile, ImageInfoOf)
    {
      var e := entries[i];
      CollectStep(entries, i, IsImageFile, ImageInfoOf);
      if IsImageFile(e) {
        var r := ImageInfoOf(e);
        if r.Ok? {
          found := found + [r.value];
        }
      }
    }
    assert entries[..|entries|] == entries;
    images := SortByKey(found, ImageCreated);
    SortedCollection(entries, IsImageFile, ImageInfoOf, ImageCreated);
  }

}

=== FILE: config.dfy ===
/** The editor's own settings, kept between sessions: the preferences and
    the list of recently opened projects, most recent first. */
module Config {
  import opened Wrappers

  /** How many recent projects the settings keep. */
  const MaxRecentProjects: nat := 10

  /** `s` with every `p` removed and the rest in order, as `retain` leaves it. */
  function Without(s: seq<string>, p: string): (r: seq<string>)
    ensures forall x :: x in r <==> x in s && x != p
    ensures |r| <= |s|
  {
    if s == [] then []
    else (if s[0] == p then [] else [s[0]]) + Without(s[1..], p)
  }

  /** Removing what is not there changes nothing. */
  lemma {:induction false} WithoutAbsent(s: seq<string>, p: string)
    requires p !in s
    ensures Without(s, p) == s
  {
    if s != [] {
      WithoutAbsent(s[1..], p);
      assert s == [s[0]] + s[1..];
    }
  }

  /** Removing from two lists one after the other removes from each: the
      remaining items keep their order. */
  lemma {:induction false} WithoutAppend(a: seq<string>, b: seq<string>, p: string)
    ensures Without(a + b, p) == Without(a, p) + Without(b, p)
  {
    if a == [] {
      assert a + b == b;
    } else {
      var head := if a[0] == p then [] else [a[0]];
      assert (a + b)[0] == a[0];
      assert (a + b)[1..] == a[1..] + b;
      WithoutAppend(a[1..], b, p);
      calc {
        Without(a + b, p);
        head + Without(a[1..] + b, p);
        head + (Without(a[1..], p) + Without(b, p));
        (head + Without(a[1..], p)) + Without(b, p);
        Without(a, p) + Without(b, p);
      }
    }
  }

  /** The recent-projects list after opening `p`: `p` first, then the old
      list without `p`, cut to the first ten. */
  function MoveToFront(s: seq<string>, p: string): seq<string> {
    var l := [p] + Without(s, p);
    if |l| > MaxRecentProjects then l[..MaxRecentProjects] else l
  }

  /** The first `n` items, or all of them when there are fewer. */
  function Take(s: seq<string>, n: nat): (r: seq<string>)
    ensures |r| <= n && (|s| <= n ==> r == s) && (n <= |s| ==> r == s[..n])
    ensures forall i :: 0 <= i < |r| ==> r[i] == s[i]
  {
    if |s| <= n then s else s[..n]
  }

  /** The opened project comes first, and the rest is the old list without
      it, in its order, cut to nine: at most ten in all. */
  lemma MoveToFrontShape(s: seq<string>, p: string)
    ensures var r := MoveToFront(s, p);
      r != [] && r[0] == p && r[1..] == Take(Without(s, p), MaxRecentProjects - 1) && |r| <= MaxRecentProjects
  {
    var l := [p] + Without(s, p);
    if |l| > MaxRecentProjects {
      assert l[..MaxRecentProjects][1..] == Without(s, p)[..MaxRecentProjects - 1];
    } else {
      assert l[1..] == Without(s, p);
    }
  }

  /** The opened project occurs exactly once in the list. */
  lemma MoveToFrontOnce(s: seq<string>, p: string)
    ensures multiset(MoveToFront(s, p))[p] == 1
  {
    MoveToFrontShape(s, p);
    var r := MoveToFront(s, p);
    var w := Without(s, p);
    var t := Take(w, MaxRecentProjects - 1);
    assert p !in t by {
      forall i | 0 <= i < |t|
        ensures t[i] != p
      {
        assert t[i] == w[i] && w[i] in w;
      }
    }
    assert r == [p] + r[1..];
    assert multiset(r) == multiset{p} + multiset(t);
  }

  /** No item occurs twice. */
  predicate Distinct(s: seq<string>) {
    forall i, j :: 0 <= i < j < |s| ==> s[i] != s[j]
  }

  lemma {:induction false} WithoutDistinct(s: seq<string>, p: string)
    requires Distinct(s)
    ensures Distinct(Without(s, p))
  {
    if s != [] {
      assert Distinct(s[1..]) by {
        forall i, j | 0 <= i < j < |s[1..]|
          ensures s[1..][i] != s[1..][j]
        {
          assert s[1..][i] == s[i + 1] && s[1..][j] == s[j + 1];
        }
      }
      WithoutDistinct(s[1..], p);
      var rest := Without(s[1..], p);
      assert s[0] !in s[1..] by {
        forall k | 0 <= k < |s[1..]|
          ensures s[1..][k] != s[0]
        {
          assert s[1..][k] == s[k + 1];
        }
      }
      assert s[0] !in rest;
    }
  }

  /** A list without repeats stays without repeats. */
  lemma MoveToFrontDistinct(s: seq<string>, p: string)
    requires Distinct(s)
    ensures Distinct(MoveToFront(s, p))
  {
    WithoutDistinct(s, p);
    var w := Without(s, p);
    var l := [p] + w;
    assert Distinct(l) by {
      forall i, j | 0 <= i < j < |l|
        ensures l[i] != l[j]
      {
        assert l[j] == w[j - 1] && w[j - 1] in w;
        if i > 0 {
          assert l[i] == w[i - 1];
        }
      }
    }
    if |l| > MaxRecentProjects {
      var r := l[..MaxRecentProjects];
      forall i, j | 0 <= i < j < |r|
        ensures r[i] != r[j]
      {
        assert r[i] == l[i] && r[j] == l[j];
      }
    }
  }

  /** Opening the same project twice in a row is opening it once. */
  lemma MoveToFrontIdempotent(s: seq<string>, p: string)
    ensures MoveToFront(MoveToFront(s, p), p) == MoveToFront(s, p)
  {
    MoveToFrontShape(s, p);
    var r := MoveToFront(s, p);
    var w := Without(s, p);
    var t := r[1..];
    assert p !in t by {
      forall i | 0 <= i < |t|
        ensures t[i] != p
      {
        assert t[i] == w[i] && w[i] in w;
      }
    }
    assert r == [p] + t;
    assert Without(r, p) == Without(t, p);
    WithoutAbsent(t, p);
  }

  /** The settings (`AppConfig`), less the line height, a float. */
  class AppConfig {
    var version: string
    var lastProjectPath: Option<string>
    var recentProjects: seq<string>
    var uiLanguage: string
    var theme: string
    var autoSaveEnabled: bool
    var autoSaveInterval: nat
    var editorFontSize: nat

    /** `AppConfig::default`, with the package version it is built from. */
    constructor (packageVersion: string)
      ensures version == packageVersion && lastProjectPath == None && recentProjects == []
      ensures uiLanguage == "en" && theme == "auto"
      ensures autoSaveEnabled && autoSaveInterval == 30 && editorFontSize == 16
    {
      version := packageVersion;
      lastProjectPath := None;
      recentProjects := [];
      uiLanguage := "en";
      theme := "auto";
      autoSaveEnabled := true;
      autoSaveInterval := 30;
      editorFontSize := 16;
    }

    /** `add_recent_project`: drop the project from the list, put it first,
        keep ten, and remember it as the last project. */
    method AddRecentProject(projectPath: string)
      modifies this
      ensures recentProjects == MoveToFront(old(recentProjects), projectPath)
      ensures lastProjectPath == Some(projectPath)
      ensures version == old(version) && uiLanguage == old(uiLanguage) && theme == old(theme)
      ensures autoSaveEnabled == old(autoSaveEnabled) && autoSaveInterval == old(autoSaveInterval)
      ensures editorFontSize == old(editorFontSize)
    {
      recentProjects := Without(recentProjects, projectPath);
      recentProjects := [projectPath] + recentProjects;
      if |recentProjects| > MaxRecentProjects {
        recentProjects := recentProjects[..MaxRecentProjects];
      }
      lastProjectPath := Some(projectPath);
    }
  }
}

=== FILE: dates.dfy ===
/** The date and time shapes schema inference recognises: chrono's
    `%Y-%m-%d`, `%Y-%m-%d %H:%M:%S`, `%Y-%m-%d %H:%M` and RFC 3339
    timestamps, each in its zero-padded form. */
module Dates {
  predicate IsDigit(c: char) {
    '0' <= c <= '9'
  }

  /** The value of the `n` decimal digits of `s` starting at `i`. */
  function DigitsValue(s: string, i: nat, n: nat): (v: nat)
    requires i + n <= |s|
    requires forall j :: i <= j < i + n ==> IsDigit(s[j])
    ensures n == 1 ==> v <= 9
    ensures n == 2 ==> v <= 99
    decreases n
  {
    if n == 0 then 0
    else
      assert IsDigit(s[i + n - 1]);
      DigitsValue(s, i, n - 1) * 10 + (s[i + n - 1] as int - '0' as int)
  }

  predicate DigitsAt(s: string, i: nat, n: nat) {
    i + n <= |s| && forall j :: i <= j < i + n ==> IsDigit(s[j])
  }

  /** A two-digit number at `i` no larger than `max`. */
  predicate NumberAt(s: string, i: nat, max: nat) {
    DigitsAt(s, i, 2) && DigitsValue(s, i, 2) <= max
  }

  predicate IsLeapYear(y: nat) {
    (y % 4 == 0 && y % 100 != 0) || y % 400 == 0
  }

  /** The number of days in month `m` (1 to 12) of year `y`. */
  function DaysInMonth(y: nat, m: nat): (d: nat)
    requires 1 <= m <= 12
    ensures 28 <= d <= 31
  {
    if m == 2 then (if IsLeapYear(y) then 29 else 28)
    else if m == 4 || m == 6 || m == 9 || m == 11 then 30
    else 31
  }

  /** `YYYY-MM-DD` at `i`, naming a day of the calendar. */
  predicate DateAt(s: string, i: nat) {
    DigitsAt(s, i, 4) && i + 10 <= |s| && s[i + 4] == '-' && s[i + 7] == '-'
    && DigitsAt(s, i + 5, 2) && DigitsAt(s, i + 8, 2)
    && 1 <= DigitsValue(s, i + 5, 2) <= 12
    && 1 <= DigitsValue(s, i + 8, 2) <= DaysInMonth(DigitsValue(s, i, 4), DigitsValue(s, i + 5, 2))
  }

  /** `HH:MM` at `i`. */
  predicate HourMinuteAt(s: string, i: nat) {
    NumberAt(s, i, 23) && i + 5 <= |s| && s[i + 2] == ':' && NumberAt(s, i + 3, 59)
  }

  /** `HH:MM:SS` at `i`; chrono admits a leap second 60. */
  predicate TimeAt(s: string, i: nat) {
    HourMinuteAt(s, i) && i + 8 <= |s| && s[i + 5] == ':' && NumberAt(s, i + 6, 60)
  }

  /** `NaiveDate::parse_from_str(value, "%Y-%m-%d")` succeeds. */
  function LooksLikeDate(value: string): (r: bool)
    ensures r ==> |value| == 10 && value[4] == '-' && value[7] == '-'
  {
    |value| == 10 && DateAt(value, 0)
  }

  /** The time offset that ends an RFC 3339 timestamp: `Z`, `z` or `±HH:MM`. */
  predicate IsOffset(s: string) {
    s == "Z" || s == "z" || (|s| == 6 && (s[0] == '+' || s[0] == '-') && HourMinuteAt(s, 1))
  }

  /** More fraction digits, then the offset. */
  predicate FractionDigitsThenOffset(s: string)
    decreases |s|
  {
    IsOffset(s) || (s != [] && IsDigit(s[0]) && FractionDigitsThenOffset(s[1..]))
  }

  /** `DateTime::parse_from_rfc3339` succeeds: a date, `T`, `t` or a space,
      a time with seconds, an optional fraction and an offset. */
  predicate IsRfc3339(value: string) {
    |value| >= 20 && DateAt(value, 0) && value[10] in {'T', 't', ' '} && TimeAt(value, 11)
    && IsFractionOrOffset(value[19..])
  }

  predicate IsFractionOrOffset(s: string) {
    IsOffset(s) || (|s| >= 2 && s[0] == '.' && IsDigit(s[1]) && FractionDigitsThenOffset(s[2..]))
  }

  /** `looks_like_datetime`: an RFC 3339 timestamp, or `%Y-%m-%d %H:%M:%S`,
      or `%Y-%m-%d %H:%M`. */
  function LooksLikeDatetime(value: string): (r: bool)
    ensures r ==> |value| >= 16 && DateAt(value, 0) && value[10] in {'T', 't', ' '}
  {
    IsRfc3339(value)
    || (|value| == 19 && DateAt(value, 0) && value[10] == ' ' && TimeAt(value, 11))
    || (|value| == 16 && DateAt(value, 0) && value[10] == ' ' && HourMinuteAt(value, 11))
  }

  /** February 29th is a date in a leap year only. */
  lemma LeapDayIsDate()
    ensures LooksLikeDate("2024-02-29")
  {
  }

  lemma LeapDayNeedsLeapYear()
    ensures !LooksLikeDate("2023-02-29")
  {
  }

  /** A value is never both a date and a datetime, so the order in which
      inference tries the two decides nothing between them. */
  lemma DateIsNotDatetime(value: string)
    requires LooksLikeDate(value)
    ensures !LooksLikeDatetime(value)
  {
  }

  function Digit(n: nat): (c: char)
    requires n < 10
    ensures IsDigit(c) && c as int - '0' as int == n
  {
    ('0' as int + n) as char
  }

  /** A number below 100 written with two digits, as `%m`, `%d`, `%H`, `%M` and `%S` write it. */
  function Pad2(n: nat): (s: string)
    requires n < 100
    ensures |s| == 2 && DigitsAt(s, 0, 2) && DigitsValue(s, 0, 2) == n
  {
    [Digit(n / 10), Digit(n % 10)]
  }

  /** A year below 10000 written with four digits, as `%Y` writes it. */
  function Pad4(n: nat): (s: string)
    requires n < 10000
    ensures |s| == 4 && DigitsAt(s, 0, 4) && DigitsValue(s, 0, 4) == n
  {
    var s := [Digit(n / 1000), Digit(n / 100 % 10), Digit(n / 10 % 10), Digit(n % 10)];
    assert DigitsValue(s, 0, 2) == n / 100 by {
      assert DigitsValue(s, 0, 1) == n / 1000;
    }
    assert DigitsValue(s, 0, 3) == n / 10 by {
      assert n / 10 == (n / 100) * 10 + n / 10 % 10;
    }
    s
  }

  /** `format("%Y-%m-%d %H:%M:%S")` of a local time, the date a post takes
      from its file. */
  function FormatTimestamp(year: nat, month: nat, day: nat, hour: nat, minute: nat, second: nat): (s: string)
    requires year < 10000 && month < 100 && day < 100 && hour < 100 && minute < 100 && second < 100
    ensures |s| == 19
  {
    var y, mo, d := Pad4(year), Pad2(month), Pad2(day);
    var h, mi, se := Pad2(hour), Pad2(minute), Pad2(second);
    [y[0], y[1], y[2], y[3], '-', mo[0], mo[1], '-', d[0], d[1], ' ',
     h[0], h[1], ':', mi[0], mi[1], ':', se[0], se[1]]
  }

  /** Two runs of digits with the same characters have the same value. */
  lemma {:induction false} SameDigits(a: string, i: nat, b: string, j: nat, n: nat)
    requires DigitsAt(a, i, n) && j + n <= |b|
    requires a[i..i + n] == b[j..j + n]
    ensures DigitsAt(b, j, n) && DigitsValue(b, j, n) == DigitsValue(a, i, n)
  {
    forall k | j <= k < j + n
      ensures IsDigit(b[k])
    {
      assert b[k] == b[j..j + n][k - j] == a[i + k - j];
    }
    if n > 0 {
      assert a[i + n - 1] == a[i..i + n][n - 1];
      assert b[j + n - 1] == b[j..j + n][n - 1];
      assert a[i..i + n - 1] == a[i..i + n][..n - 1];
      assert b[j..j + n - 1] == b[j..j + n][..n - 1];
      SameDigits(a, i, b, j, n - 1);
    }
  }

  /** The file's time, formatted as a post's fallback date, is recognised
      as a datetime and not as a date. */
  lemma FormattedTimestampIsDatetime(year: nat, month: nat, day: nat, hour: nat, minute: nat, second: nat)
    requires year < 10000 && 1 <= month <= 12 && 1 <= day <= DaysInMonth(year, month)
    requires hour <= 23 && minute <= 59 && second <= 60
    ensures LooksLikeDatetime(FormatTimestamp(year, month, day, hour, minute, second))
    ensures !LooksLikeDate(FormatTimestamp(year, month, day, hour, minute, second))
  {
    var s := FormatTimestamp(year, month, day, hour, minute, second);
    SameDigits(Pad4(year), 0, s, 0, 4);
    SameDigits(Pad2(month), 0, s, 5, 2);
    SameDigits(Pad2(day), 0, s, 8, 2);
    SameDigits(Pad2(hour), 0, s, 11, 2);
    SameDigits(Pad2(minute), 0, s, 14, 2);
    SameDigits(Pad2(second), 0, s, 17, 2);
    assert TimeAt(s, 11);
  }
}

=== FILE: frontmatter_config.dfy ===
/** The custom-field schema: the configuration a project may keep beside
    its content, and the schema inferred from the custom fields of its posts
    when it keeps none. */
module FrontmatterConfig {
  import opened Wrappers
  import opened Text
  import opened Yaml
  import opened Dates
  import opened Paths
  import Markdown

  datatype FieldUi = FieldUi(placeholder: Option<string>, rows: Option<nat>)

  /** One custom field of the editor's form. */
  datatype Field = Field(
    name: string,
    labelText: Option<string>,  // `label`, a reserved word here
    fieldType: string,
    description: Option<string>,
    ui: Option<FieldUi>)

  /** Fields the form shows together under one heading. */
  datatype FieldGroup = FieldGroup(
    name: string,
    labelText: Option<string>,  // `label`, a reserved word here
    fields: seq<string>,
    collapsed: Option<bool>)

  datatype Config = Config(
    version: string,
    previewImageField: Option<string>,
    isDefault: bool,
    customFields: seq<Field>,
    fieldGroups: seq<FieldGroup>)

  const SchemaVersion: string := "1.0"

  /** `FrontmatterConfig::default`: version "1.0", no fields, no groups, no
      preview field, and marked as the default. */
  function DefaultConfig(): (c: Config)
    ensures c.version == SchemaVersion && c.isDefault
    ensures c.previewImageField.None? && c.customFields == [] && c.fieldGroups == []
  {
    Config(SchemaVersion, None, true, [], [])
  }

  /** `load_frontmatter_config`. `file` is the configuration file: None when
      it does not exist, else what reading it returned; `decode` is
      serde_json's reading of its text. */
  function LoadFrontmatterConfig(file: Option<Result<string>>, decode: string -> Result<Config>): (r: Result<Config>)
    ensures file.None? ==> r == Ok(DefaultConfig())
    ensures r.Ok? ==> (r.value.isDefault <==> file.None?)
    ensures file.Some? && file.value.Err? ==>
              r == Err("Failed to read frontmatter config: " + file.value.error)
    ensures file.Some? && file.value.Ok? ==>
              match decode(file.value.value)
              case Err(e) => r == Err("Failed to parse frontmatter config: " + e)
              case Ok(c) => r == Ok(c.(isDefault := false))
  {
    match file
    case None => Ok(DefaultConfig())
    case Some(Err(e)) => Err("Failed to read frontmatter config: " + e)
    case Some(Ok(text)) =>
      match decode(text)
      case Err(e) => Err("Failed to parse frontmatter config: " + e)
      case Ok(c) => Ok(c.(isDefault := false))
  }

  // ---------------------------------------------------------------------
  // Classifying values

  /** The value under any number of tags. */
  function Untag(v: Value): (u: Value)
    ensures !u.Tagged?
  {
    if v.Tagged? then Untag(v.value) else v
  }

  /** `looks_like_image`: the lower-cased text names a folder "/images/" or
      ends in an image extension. */
  function LooksLikeImage(value: string): bool
  {
    var lower := ToLower(value);
    Contains(lower, "/images/")
    || EndsWith(lower, ".png") || EndsWith(lower, ".jpg") || EndsWith(lower, ".jpeg")
    || EndsWith(lower, ".gif") || EndsWith(lower, ".webp") || EndsWith(lower, ".svg")
  }

  /** An image path or name, compared as the text stands. */
  predicate ImageLike(lower: string) {
    Contains(lower, "/images/") || exists e :: e in ImageSuffixes && EndsWith(lower, e)
  }

  const ImageSuffixes: set<string> := {".png", ".jpg", ".jpeg", ".gif", ".webp", ".svg"}

  lemma LooksLikeImageLike(value: string)
    ensures LooksLikeImage(value) <==> ImageLike(ToLower(value))
  {
  }

  /** Whether a text looks like an image does not depend on its case. */
  lemma LooksLikeImageIgnoresCase(value: string)
    ensures LooksLikeImage(ToLower(value)) == LooksLikeImage(value)
  {
    ToLowerIdempotent(value);
  }

  /** A name ending in a dot and one of the six image extensions, written
      in any case, looks like an image. */
  lemma LooksLikeImageOfExtension(s: string, e: string)
    requires ToLower(e) in {"png", "jpg", "jpeg", "gif", "webp", "svg"}
    ensures LooksLikeImage(s + "." + e)
  {
    var suffix := "." + ToLower(e);
    DottedExtension(ToLower(e), suffix);
    LowerPlain(".");
    LowerWithSuffix(s, ".", e);
    ImageLikeOfSuffix(ToLower(s), suffix);
    LooksLikeImageLike(s + "." + e);
  }

  lemma DottedExtension(x: string, suffix: string)
    requires x in {"png", "jpg", "jpeg", "gif", "webp", "svg"} && suffix == "." + x
    ensures suffix in ImageSuffixes
  {
    if x == "png" {
      assert suffix == ".png";
    } else if x == "jpg" {
      assert suffix == ".jpg";
    } else if x == "jpeg" {
      assert suffix == ".jpeg";
    } else if x == "gif" {
      assert suffix == ".gif";
    } else if x == "webp" {
      assert suffix == ".webp";
    } else {
      assert suffix == ".svg";
    }
  }

  /** Lower-casing a name with a suffix of characters that lower-case to
      themselves lower-cases the name and then appends. */
  lemma LowerWithSuffix(s: string, plain: string, e: string)
    requires ToLower(plain) == plain
    ensures ToLower(s + plain + e) == ToLower(s) + (plain + ToLower(e))
  {
    ToLowerAppend(s + plain, e);
    ToLowerAppend(s, plain);
    Assoc(ToLower(s), plain, ToLower(e));
  }

  lemma ImageLikeOfSuffix(lower: string, suffix: string)
    requires suffix in ImageSuffixes
    ensures ImageLike(lower + suffix)
  {
    var t := lower + suffix;
    assert t[|t| - |suffix|..] == suffix;
  }

  /** An icon is not taken for an image by its extension: `.ico` is not
      among the six extensions, though the image listing accepts it. */
  lemma IconIsNoImage(s: string)
    requires !Contains(ToLower(s), "/images/")
    ensures !LooksLikeImage(s + ".ico")
  {
    ToLowerAppend(s, ".ico");
    LowerPlain(".ico");
    IconIsNoImageLike(ToLower(s), ".ico");
    LooksLikeImageLike(s + ".ico");
  }

  /** The two suffixes above have no letter to lower-case. */
  lemma LowerPlain(t: string)
    requires t == "." || t == ".ico"
    ensures ToLower(t) == t
  {
    assert forall i :: 0 <= i < |t| ==> LowerChar(t[i]) == [t[i]];
    ToLowerOfLower(t);
  }

  lemma IconIsNoImageLike(l: string, ico: string)
    requires ico == ".ico" && !Contains(l, "/images/")
    ensures !ImageLike(l + ico)
  {
    var lower := l + ico;
    forall i | 0 <= i <= |lower|
      ensures !OccursAt(lower, "/images/", i)
    {
      if i + 8 <= |l| {
        NotContainsNowhere(l, "/images/", i);
        assert lower[i..i + 8] == l[i..i + 8];
      } else if i + 8 <= |lower| {
        var k := i + 7 - |l|;
        assert lower[i + 7] == ico[k] != '/';
        assert "/images/"[7] == '/';
      }
    }
    assert Find(lower, "/images/").None?;
    assert lower[|lower| - 1] == 'o';
  }

  /** The type a string suggests, most specific first. */
  function ClassifyString(s: string): (r: Option<string>)
    ensures r.None? <==> IsBlank(s)
    ensures r == Some("image") <==> !IsBlank(s) && LooksLikeImage(s)
    ensures r == Some("datetime") <==> !IsBlank(s) && !LooksLikeImage(s) && LooksLikeDatetime(s)
    ensures r == Some("date") <==> !IsBlank(s) && !LooksLikeImage(s) && !LooksLikeDatetime(s) && LooksLikeDate(s)
    ensures r == Some("text") <==> !IsBlank(s) && !LooksLikeImage(s) && !LooksLikeDatetime(s) && !LooksLikeDate(s) && '\n' in s
    ensures r == Some("string") <==> !IsBlank(s) && !LooksLikeImage(s) && !LooksLikeDatetime(s) && !LooksLikeDate(s) && '\n' !in s
  {
    TrimEmptyIffBlank(s);
    if Trim(s) == [] then None
    else if LooksLikeImage(s) then Some("image")
    else if LooksLikeDatetime(s) then Some("datetime")
    else if LooksLikeDate(s) then Some("date")
    else if '\n' in s then Some("text")
    else Some("string")
  }

  /** `infer_value_type`: the form type a YAML value suggests, or None for a
      null or a blank string. Tags are looked through. */
  function InferValueType(v: Value): (r: Option<string>)
    ensures Untag(v).Null? ==> r.None?
    ensures Untag(v).Bool? <==> r == Some("boolean")
    ensures Untag(v).Number? <==> r == Some("number")
    ensures Untag(v).Sequence? <==> r == Some("array")
    ensures Untag(v).Mapping? <==> r == Some("object")
    ensures Untag(v).String? ==> r == ClassifyString(Untag(v).text)
  {
    match v
    case Null => None
    case Bool(_) => Some("boolean")
    case Number(_) => Some("number")
    case Sequence(_) => Some("array")
    case Mapping(_) => Some("object")
    case Tagged(_, inner) => InferValueType(inner)
    case String(s) => ClassifyString(s)
  }

  // ---------------------------------------------------------------------
  // Labels

  /** The text `format_label`'s loop builds from `name`: '_' and '-' become
      spaces, and a space goes before an upper-case letter that follows a
      lower-case one. */
  function Spaced(name: string, prevLower: bool): string
  {
    if name == [] then []
    else
      var c := name[0];
      if c == '_' || c == '-' then " " + Spaced(name[1..], false)
      else (if prevLower && IsUpper(c) then " " else "") + [c] + Spaced(name[1..], IsLower(c))
  }

  /** A word with its first character upper-cased. */
  function Capitalize(word: string): (r: string)
    ensures |r| == |word| && (word != [] ==> !IsLower(r[0]))
    ensures word != [] ==> r[0] == UpperChar(word[0]) && r[1..] == word[1..]
    ensures forall i :: 0 <= i < |r| ==> (IsWhitespace(r[i]) <==> IsWhitespace(word[i]))
    ensures forall i :: 0 <= i < |r| ==> ((r[i] == '_' || r[i] == '-') <==> (word[i] == '_' || word[i] == '-'))
  {
    if word == [] then [] else [UpperChar(word[0])] + word[1..]
  }

  function CapitalizeAll(words: seq<string>): (r: seq<string>)
    ensures |r| == |words| && forall i :: 0 <= i < |words| ==> r[i] == Capitalize(words[i])
  {
    if words == [] then [] else [Capitalize(words[0])] + CapitalizeAll(words[1..])
  }

  /** The spaced text has no '_' or '-' left. */
  lemma {:induction false} SpacedAvoids(name: string, prevLower: bool)
    ensures '_' !in Spaced(name, prevLower) && '-' !in Spaced(name, prevLower)
  {
    if name != [] {
      var c := name[0];
      SpacedAvoids(name[1..], c != '_' && c != '-' && IsLower(c));
      SpacedAvoids(name[1..], false);
    }
  }

  /** A run of lower-case letters is copied as it is, and leaves the flag
      set for the character after it. */
  lemma {:induction false} SpacedLowerRun(w: string, rest: string, prevLower: bool)
    requires w != [] && forall i :: 0 <= i < |w| ==> IsLower(w[i])
    ensures Spaced(w + rest, prevLower) == w + Spaced(rest, true)
  {
    var s := w + rest;
    assert s[0] == w[0] && !IsUpper(w[0]);
    assert s[1..] == w[1..] + rest;
    assert Spaced(s, prevLower) == [w[0]] + Spaced(s[1..], true);
    if |w| == 1 {
      assert w[1..] + rest == rest;
    } else {
      SpacedLowerRun(w[1..], rest, true);
      assert w == [w[0]] + w[1..];
    }
  }

  /** A separator becomes a space and clears the flag. */
  lemma SpacedSeparator(c: char, rest: string, prevLower: bool)
    requires c == '_' || c == '-'
    ensures Spaced([c] + rest, prevLower) == " " + Spaced(rest, false)
  {
    assert ([c] + rest)[1..] == rest;
  }

  /** The word break: an upper-case letter after a lower-case one gets a
      space before it. */
  lemma SpacedCaseBreak(l: char, u: char, rest: string, prevLower: bool)
    requires IsLower(l) && IsUpper(u)
    ensures Spaced([l, u] + rest, prevLower) == [l, ' ', u] + Spaced(rest, false)
  {
    var s := [l, u] + rest;
    assert s[0] == l && s[1..] == [u] + rest;
    assert ([u] + rest)[0] == u && ([u] + rest)[1..] == rest;
  }

  /** No break inside a run of capitals: "URL" stays one word. */
  lemma SpacedCapitalPair(u: char, v: char, rest: string)
    requires IsUpper(u) && IsUpper(v)
    ensures Spaced([u, v] + rest, false) == [u, v] + Spaced(rest, false)
  {
    var s := [u, v] + rest;
    assert s[0] == u && s[1..] == [v] + rest;
    assert ([v] + rest)[0] == v && ([v] + rest)[1..] == rest;
  }

  /** An upper-case letter gets a space before it when it follows a
      lower-case one, and clears the flag. */
  lemma SpacedUpper(u: char, rest: string, prevLower: bool)
    requires IsUpper(u)
    ensures Spaced([u] + rest, prevLower) == (if prevLower then " " else "") + ([u] + Spaced(rest, false))
  {
    assert ([u] + rest)[0] == u && ([u] + rest)[1..] == rest;
  }

  /** A word of lower-case letters alone is copied as it is. */
  lemma SpacedLowerWord(w: string, prevLower: bool)
    requires LowerWord(w)
    ensures Spaced(w, prevLower) == w
  {
    SpacedLowerRun(w, [], prevLower);
    assert w + [] == w;
  }

  /** The words of a label: the spaced name split at whitespace, each word capitalised. */
  function LabelWords(name: string): (words: seq<string>)
    ensures forall i :: 0 <= i < |words| ==>
              words[i] != [] && NoWhitespace(words[i]) && !IsLower(words[i][0])
              && '_' !in words[i] && '-' !in words[i]
  {
    var spaced := Spaced(name, false);
    SpacedAvoids(name, false);
    var split := SplitWhitespace(spaced);
    SplitWhitespaceAvoids(spaced, '_');
    SplitWhitespaceAvoids(spaced, '-');
    var words := CapitalizeAll(split);
    assert forall i :: 0 <= i < |words| ==> '_' !in words[i] && '-' !in words[i] by {
      forall i | 0 <= i < |words|
        ensures '_' !in words[i] && '-' !in words[i]
      {
        assert '_' !in split[i] && '-' !in split[i];
      }
    }
    words
  }

  /** What `format_label` returns: the label's words joined by single spaces. */
  function LabelOf(name: string): string {
    JoinWith(LabelWords(name), " ")
  }

  /** The label of a name is fixed by the words its spaced text splits into. */
  lemma LabelOfWords(name: string, words: seq<string>)
    requires SplitWhitespace(Spaced(name, false)) == words
    ensures LabelOf(name) == JoinWith(CapitalizeAll(words), " ")
  {
  }

  /** A non-empty run of lower-case letters. */
  predicate LowerWord(w: string) {
    w != [] && forall i :: 0 <= i < |w| ==> IsLower(w[i])
  }

  /** Two lower-case words joined by '_' make a label of the two words,
      capitalised, with a space between. */
  lemma SnakeLabel(a: string, b: string)
    requires LowerWord(a) && LowerWord(b)
    ensures LabelOf(a + "_" + b) == JoinWith([Capitalize(a), Capitalize(b)], " ")
  {
    SnakeSpaced(a, b);
    TwoWordsSplit(a, b);
    Assoc(a, "_", b);
    LabelOfWords(a + "_" + b, [a, b]);
  }

  lemma SnakeSpaced(a: string, b: string)
    requires LowerWord(a) && LowerWord(b)
    ensures Spaced(a + ("_" + b), false) == a + (" " + b)
  {
    SpacedLowerWord(b, false);
    SpacedSeparator('_', b, true);
    SpacedLowerRun(a, "_" + b, false);
  }

  /** A camel-case name of three words breaks before each capital: its label
      is the three words, the first capitalised, with a space between each. */
  lemma CamelLabel(a: string, u: char, b: string, v: char, c: string)
    requires LowerWord(a) && LowerWord(b) && LowerWord(c) && IsUpper(u) && IsUpper(v)
    ensures LabelOf(a + [u] + b + [v] + c) == JoinWith([Capitalize(a), [u] + b, [v] + c], " ")
  {
    var w2, w3 := [u] + b, [v] + c;
    CamelSpaced(a, u, b, v, c);
    Assoc([u], b, " " + w3);
    ThreeWordsSplit(a, w2, w3);
    CamelName(a, [u], b, [v], c);
    LabelOfWords(a + [u] + b + [v] + c, [a, w2, w3]);
    CapitalizeCapital(u, b);
    CapitalizeCapital(v, c);
    var caps := CapitalizeAll([a, w2, w3]);
    assert caps == [Capitalize(a), w2, w3];
  }

  lemma CamelSpaced(a: string, u: char, b: string, v: char, c: string)
    requires LowerWord(a) && LowerWord(b) && LowerWord(c) && IsUpper(u) && IsUpper(v)
    ensures Spaced(a + ([u] + (b + ([v] + c))), false) == a + (" " + ([u] + (b + (" " + ([v] + c)))))
  {
    SpacedLowerWord(c, false);
    SpacedUpper(v, c, true);
    SpacedLowerRun(b, [v] + c, false);
    SpacedUpper(u, b + ([v] + c), true);
    SpacedLowerRun(a, [u] + (b + ([v] + c)), false);
  }

  lemma CamelName(a: string, u: string, b: string, v: string, c: string)
    ensures a + u + b + v + c == a + (u + (b + (v + c)))
  {
    Assoc(b, v, c);
    Assoc(u, b, v + c);
    Assoc(a, u + b, v + c);
    Assoc(a, u, b);
  }

  /** Two words with one space between them split back into the two. */
  lemma TwoWordsSplit(a: string, b: string)
    requires a != [] && NoWhitespace(a) && b != [] && NoWhitespace(b)
    ensures SplitWhitespace(a + (" " + b)) == [a, b]
  {
    assert b + [] == b;
    SplitWhitespaceOfWord(b, []);
    SplitWhitespaceSkip(' ', b);
    SplitWhitespaceOfWord(a, " " + b);
  }

  lemma ThreeWordsSplit(a: string, b: string, c: string)
    requires a != [] && NoWhitespace(a) && b != [] && NoWhitespace(b) && c != [] && NoWhitespace(c)
    ensures SplitWhitespace(a + (" " + (b + (" " + c)))) == [a, b, c]
  {
    TwoWordsSplit(b, c);
    SplitWhitespaceSkip(' ', b + (" " + c));
    SplitWhitespaceOfWord(a, " " + (b + (" " + c)));
  }

  /** A word that starts with a capital is its own capitalisation. */
  lemma CapitalizeCapital(u: char, w: string)
    requires IsUpper(u)
    ensures Capitalize([u] + w) == [u] + w
  {
    assert ([u] + w)[1..] == w;
  }

  /** "list_image" is labelled "List Image". */
  lemma ListImageLabel(name: string)
    requires name == "list_image"
    ensures LabelOf(name) == "List Image"
  {
    var list, image := name[..4], name[5..];
    ListImageWords(name, list, image);
    SnakeLabel(list, image);
    var x, y := Capitalize(list), Capitalize(image);
    assert JoinWith([x, y], " ") == x + " " + y;
    JoinedText(x, y, "", "List Image");
  }

  lemma ListImageWords(name: string, list: string, image: string)
    requires name == "list_image" && list == name[..4] && image == name[5..]
    ensures name == list + "_" + image && LowerWord(list) && LowerWord(image)
    ensures Capitalize(list) == "List" && Capitalize(image) == "Image"
  {
    assert name == list + "_" + image;
    assert list == "list" && image == "image";
    CapitalizedText(list, "List");
    CapitalizedText(image, "Image");
  }

  /** An ASCII word and its capitalised form. */
  lemma CapitalizedText(w: string, cap: string)
    requires (w, cap) == ("list", "List") || (w, cap) == ("image", "Image") || (w, cap) == ("main", "Main")
    ensures Capitalize(w) == cap
  {
    assert w == [w[0]] + w[1..];
    CapitalizeAscii(w[0], w[1..]);
  }

  /** "mainImageAlt" is labelled "Main Image Alt". */
  lemma MainImageAltLabel(name: string)
    requires name == "mainImageAlt"
    ensures LabelOf(name) == "Main Image Alt"
  {
    var main, mage, lt := name[..4], name[5..9], name[10..];
    MainImageAltWords(name, main, mage, lt);
    CamelLabel(main, name[4], mage, name[9], lt);
    var x, y, z := Capitalize(main), [name[4]] + mage, [name[9]] + lt;
    JoinThree(x, y, z, " ");
    JoinedText(x, y, z, "Main Image Alt");
  }

  lemma MainImageAltWords(name: string, main: string, mage: string, lt: string)
    requires name == "mainImageAlt" && main == name[..4] && mage == name[5..9] && lt == name[10..]
    ensures name == main + [name[4]] + mage + [name[9]] + lt
    ensures LowerWord(main) && LowerWord(mage) && LowerWord(lt) && IsUpper(name[4]) && IsUpper(name[9])
    ensures Capitalize(main) == "Main" && [name[4]] + mage == "Image" && [name[9]] + lt == "Alt"
  {
    assert main == "main";
    CapitalizedText(main, "Main");
  }

  /** The words of the two example labels, joined. */
  lemma JoinedText(x: string, y: string, z: string, text: string)
    requires (x, y, z, text) == ("List", "Image", "", "List Image")
          || (x, y, z, text) == ("Main", "Image", "Alt", "Main Image Alt")
    ensures z == [] ==> x + " " + y == text
    ensures z != [] ==> x + " " + (y + " " + z) == text
  {
  }

  lemma JoinThree(x: string, y: string, z: string, sep: string)
    ensures JoinWith([x, y, z], sep) == x + sep + (y + sep + z)
  {
    assert [x, y, z][1..] == [y, z];
    assert [y, z][1..] == [z];
    assert JoinWith([z], sep) == z;
    assert JoinWith([y, z], sep) == y + sep + z;
  }

  /** An ASCII word is capitalised by its first letter alone. */
  lemma CapitalizeAscii(c: char, tail: string)
    requires 'a' <= c <= 'z'
    ensures Capitalize([c] + tail) == [(c as int - 32) as char] + tail
  {
    assert ([c] + tail)[1..] == tail;
  }

  /** `format_label`: the spaced text its loop builds, split into words,
      each word capitalised, joined by single spaces. */
  method FormatLabel(name: string) returns (lbl: string)
    ensures lbl == LabelOf(name)
    ensures SingleSpaced(lbl) && '_' !in lbl && '-' !in lbl
  {
    var spaced := SpaceWords(name);
    lbl := JoinWith(CapitalizeAll(SplitWhitespace(spaced)), " ");
    LabelShape(name);
  }

  /** The loop of `format_label`, character by character. */
  method SpaceWords(name: string) returns (spaced: string)
    ensures spaced == Spaced(name, false)
  {
    spaced := "";
    var prevIsLower := false;
    var i := 0;
    while i < |name|
      invariant 0 <= i <= |name|
      invariant spaced + Spaced(name[i..], prevIsLower) == Spaced(name, false)
    {
      var ch := name[i];
      SpacedStep(spaced, name[i..], prevIsLower);
      assert name[i..][1..] == name[i + 1..];
      if ch == '_' || ch == '-' {
        spaced := spaced + " ";
        prevIsLower := false;
      } else {
        if prevIsLower && IsUpper(ch) {
          spaced := spaced + " ";
        }
        spaced := spaced + [ch];
        prevIsLower := IsLower(ch);
      }
      i := i + 1;
    }
    assert name[|name|..] == [];
  }

  /** One step of `Spaced`, in the shape the loop takes it: what the loop
      appends for the first character of `s`, and the flag it carries on. */
  lemma SpacedStep(spaced: string, s: string, prevLower: bool)
    requires s != []
    ensures var c := s[0];
      var next := if c == '_' || c == '-' then spaced + " "
                  else (if prevLower && IsUpper(c) then spaced + " " else spaced) + [c];
      var nextLower := if c == '_' || c == '-' then false else IsLower(c);
      next + Spaced(s[1..], nextLower) == spaced + Spaced(s, prevLower)
  {
    var c := s[0];
    if c == '_' || c == '-' {
      assert Spaced(s, prevLower) == " " + Spaced(s[1..], false);
    } else {
      var gap := if prevLower && IsUpper(c) then " " else "";
      assert Spaced(s, prevLower) == gap + [c] + Spaced(s[1..], IsLower(c));
      assert (if prevLower && IsUpper(c) then spaced + " " else spaced) == spaced + gap;
    }
  }

  /** A label has no underscores or hyphens, and its words are separated by
      single spaces with none at either end. */
  lemma LabelShape(name: string)
    ensures SingleSpaced(LabelOf(name))
    ensures '_' !in LabelOf(name) && '-' !in LabelOf(name)
  {
    var words := LabelWords(name);
    JoinedWordsSingleSpaced(words);
    JoinAvoids(words, '_');
    JoinAvoids(words, '-');
  }

  /** Joining words with spaces adds no character other than the space. */
  lemma {:induction false} JoinAvoids(words: seq<string>, c: char)
    requires c != ' ' && forall i :: 0 <= i < |words| ==> c !in words[i]
    ensures c !in JoinWith(words, " ")
  {
    if |words| > 1 {
      JoinAvoids(words[1..], c);
    }
  }

  // ---------------------------------------------------------------------
  // Field statistics

  /** How often a custom field occurs, and how often each type was inferred
      for it (a null or blank value counts only towards `total`). */
  datatype FieldStats = FieldStats(total: nat, typeCounts: map<string, nat>)

  function CountOf(counts: map<string, nat>, t: string): nat {
    if t in counts then counts[t] else 0
  }

  function StatOf(stats: map<string, FieldStats>, k: string): FieldStats {
    if k in stats then stats[k] else FieldStats(0, map[])
  }

  /** The statistics of one field after one more value of it was seen. */
  function Bump(s: FieldStats, v: Value): FieldStats
  {
    match InferValueType(v)
    case None => FieldStats(s.total + 1, s.typeCounts)
    case Some(t) => FieldStats(s.total + 1, s.typeCounts[t := CountOf(s.typeCounts, t) + 1])
  }

  /** One more value adds one to the total and one to the count of its
      type, if it has one, and to no other count. */
  lemma BumpCounts(s: FieldStats, v: Value, t: string)
    ensures Bump(s, v).total == s.total + 1
    ensures CountOf(Bump(s, v).typeCounts, t) ==
              CountOf(s.typeCounts, t) + (if InferValueType(v) == Some(t) then 1 else 0)
    ensures t in Bump(s, v).typeCounts <==> t in s.typeCounts || InferValueType(v) == Some(t)
    ensures InferValueType(v).None? ==> Bump(s, v).typeCounts == s.typeCounts
  {
  }

  /** The statistics after one more post whose custom fields are `fields`. */
  function AfterDoc(stats: map<string, FieldStats>, fields: map<string, Value>): map<string, FieldStats>
  {
    map k | k in stats.Keys + fields.Keys ::
      if k in fields then Bump(StatOf(stats, k), fields[k]) else stats[k]
  }

  /** A post adds the fields it has, bumps their statistics with its
      values, and leaves the statistics of every other field alone. */
  lemma AfterDocEntry(stats: map<string, FieldStats>, fields: map<string, Value>, k: string)
    ensures AfterDoc(stats, fields).Keys == stats.Keys + fields.Keys
    ensures k in fields ==> StatOf(AfterDoc(stats, fields), k) == Bump(StatOf(stats, k), fields[k])
    ensures k !in fields ==> StatOf(AfterDoc(stats, fields), k) == StatOf(stats, k)
  {
  }

  /** Folding `fields` in key by key, in any order, gives `AfterDoc`. */
  lemma AfterDocStep(stats: map<string, FieldStats>, fields: map<string, Value>, todo: set<string>, k: string)
    requires todo <= fields.Keys && k in todo
    ensures AfterDoc(stats, fields - (todo - {k})) ==
            AfterDoc(stats, fields - todo)[k := Bump(StatOf(AfterDoc(stats, fields - todo), k), fields[k])]
  {
    var before := AfterDoc(stats, fields - todo);
    var after := AfterDoc(stats, fields - (todo - {k}));
    var stepped := before[k := Bump(StatOf(before, k), fields[k])];
    assert StatOf(before, k) == StatOf(stats, k);
    assert after.Keys == stepped.Keys;
    forall j | j in after.Keys
      ensures after[j] == stepped[j]
    {
    }
  }

  /** The inner loop of `generate_frontmatter_config`: each custom field of
      one post is counted once, in the map's order. */
  method CountFields(stats: map<string, FieldStats>, fields: map<string, Value>) returns (r: map<string, FieldStats>)
    ensures r == AfterDoc(stats, fields)
  {
    r := stats;
    var todo := fields.Keys;
    AfterNothing(stats, fields);
    while todo != {}
      invariant todo <= fields.Keys
      invariant r == AfterDoc(stats, fields - todo)
      decreases |todo|
    {
      var k :| k in todo;
      r := CountField(stats, fields, todo, k, r);
      todo := todo - {k};
    }
    assert fields - {} == fields;
  }

  /** One step of `CountFields`: the entry of `k` is created if missing
      and bumped. */
  method CountField(stats: map<string, FieldStats>, fields: map<string, Value>, todo: set<string>, k: string,
                    r: map<string, FieldStats>) returns (r': map<string, FieldStats>)
    requires todo <= fields.Keys && k in todo
    requires r == AfterDoc(stats, fields - todo)
    ensures r' == AfterDoc(stats, fields - (todo - {k}))
  {
    AfterDocStep(stats, fields, todo, k);
    var entry := StatOf(r, k);
    r' := r[k := Bump(entry, fields[k])];
  }

  lemma AfterNothing(stats: map<string, FieldStats>, fields: map<string, Value>)
    ensures AfterDoc(stats, fields - fields.Keys) == stats
  {
    assert fields - fields.Keys == map[];
    var r := AfterDoc(stats, map[]);
    assert r.Keys == stats.Keys;
    forall k | k in r.Keys
      ensures r[k] == stats[k]
    {
    }
  }

  /** The statistics of a sequence of posts, given by their custom fields. */
  function Tally(docs: seq<map<string, Value>>): map<string, FieldStats>
  {
    if docs == [] then map[]
    else AfterDoc(Tally(docs[..|docs| - 1]), docs[|docs| - 1])
  }

  /** The number of posts that have the field `k`. */
  function Occurrences(docs: seq<map<string, Value>>, k: string): nat
  {
    if docs == [] then 0
    else Occurrences(docs[..|docs| - 1], k) + (if k in docs[|docs| - 1] then 1 else 0)
  }

  /** The number of posts whose value of `k` was inferred to have type `t`. */
  function TypedOccurrences(docs: seq<map<string, Value>>, k: string, t: string): nat
  {
    if docs == [] then 0
    else
      var d := docs[|docs| - 1];
      TypedOccurrences(docs[..|docs| - 1], k, t)
        + (if k in d && InferValueType(d[k]) == Some(t) then 1 else 0)
  }

  /** A field is in the statistics exactly when some post has it, and its
      `total` is the number of posts that have it. */
  lemma {:induction false} TallyTotal(docs: seq<map<string, Value>>, k: string)
    ensures k in Tally(docs) <==> Occurrences(docs, k) > 0
    ensures StatOf(Tally(docs), k).total == Occurrences(docs, k)
  {
    if docs != [] {
      TallyTotal(docs[..|docs| - 1], k);
    }
  }

  /** The count of a type under a field is the number of posts whose value
      of that field has that type. */
  lemma {:induction false} TallyTypeCount(docs: seq<map<string, Value>>, k: string, t: string)
    ensures CountOf(StatOf(Tally(docs), k).typeCounts, t) == TypedOccurrences(docs, k, t)
    ensures t in StatOf(Tally(docs), k).typeCounts ==> TypedOccurrences(docs, k, t) > 0
  {
    if docs != [] {
      TallyTypeCount(docs[..|docs| - 1], k, t);
      var prev := Tally(docs[..|docs| - 1]);
      var d := docs[|docs| - 1];
      if k in d {
        var b := Bump(StatOf(prev, k), d[k]);
        assert StatOf(Tally(docs), k) == b;
        assert t in b.typeCounts ==> t in StatOf(prev, k).typeCounts || InferValueType(d[k]) == Some(t);
      } else {
        assert StatOf(Tally(docs), k) == StatOf(prev, k);
      }
    }
  }

  /** A field whose every value is null or blank has no type counts. */
  lemma {:induction false} TallyUntyped(docs: seq<map<string, Value>>, k: string)
    requires forall i :: 0 <= i < |docs| && k in docs[i] ==> InferValueType(docs[i][k]).None?
    ensures StatOf(Tally(docs), k).typeCounts == map[]
  {
    if docs != [] {
      TallyUntyped(docs[..|docs| - 1], k);
    }
  }

  // ---------------------------------------------------------------------
  // Reading the posts

  /** The error of a post that cannot be read: the path as `{:?}` writes it. */
  function ReadPostError(e: FileEntry, err: string): string {
    "Failed to read post " + DebugQuoted(e.path.text) + ": " + err
  }

  /** The custom fields of the posts among `entries`, in walk order, or the
      error of the first post that cannot be read. A post whose
      frontmatter does not parse is skipped. */
  function Docs(entries: seq<FileEntry>, codec: Codec): (r: Result<seq<map<string, Value>>>)
    ensures r.Ok? ==> |r.value| <= |entries|
  {
    if entries == [] then Ok([])
    else
      match Docs(entries[..|entries| - 1], codec)
      case Err(err) => Err(err)
      case Ok(ds) =>
        var e := entries[|entries| - 1];
        if !IsMarkdownFile(e) then Ok(ds)
        else
          match e.contents
          case Err(err) => Err(ReadPostError(e, err))
          case Ok(raw) => Ok(ds + ParsedFields(raw, codec))
  }

  /** The custom fields of a post's text, or nothing when its frontmatter
      does not parse. */
  function ParsedFields(raw: string, codec: Codec): (r: seq<map<string, Value>>)
    ensures |r| <= 1
  {
    match Markdown.Parse(raw, codec)
    case Err(_) => []
    case Ok((doc, _)) => [doc.frontmatter.customFields]
  }

  /** A `.md` entry that reads and parses, with `d` as its custom fields. */
  predicate ParsedPost(e: FileEntry, codec: Codec, d: map<string, Value>) {
    IsMarkdownFile(e) && e.contents.Ok? && d in ParsedFields(e.contents.value, codec)
  }

  /** The posts read are exactly the custom fields of the `.md` entries that
      read and parse. */
  lemma {:induction false} DocsMembers(entries: seq<FileEntry>, codec: Codec)
    requires Docs(entries, codec).Ok?
    ensures forall d :: d in Docs(entries, codec).value <==> exists e :: e in entries && ParsedPost(e, codec, d)
  {
    if entries != [] {
      var n := |entries| - 1;
      var front := entries[..n];
      var last := entries[n];
      var extra := DocsStep(entries, codec);
      DocsMembers(front, codec);
      assert entries == front + [last];
      forall d
        ensures d in Docs(entries, codec).value <==> exists e :: e in entries && ParsedPost(e, codec, d)
      {
        assert d in Docs(entries, codec).value <==> d in Docs(front, codec).value || d in extra;
        if d in Docs(front, codec).value {
          var e :| e in front && ParsedPost(e, codec, d);
          assert e in entries;
        }
        if exists e :: e in entries && ParsedPost(e, codec, d) {
          var e :| e in entries && ParsedPost(e, codec, d);
          if e != last {
            assert e in front;
          }
        }
      }
    }
  }

  /** One step of the walk: the last entry adds its custom fields when it
      reads and parses, and nothing otherwise. */
  lemma DocsStep(entries: seq<FileEntry>, codec: Codec) returns (extra: seq<map<string, Value>>)
    requires entries != [] && Docs(entries, codec).Ok?
    ensures Docs(entries[..|entries| - 1], codec).Ok?
    ensures Docs(entries, codec).value == Docs(entries[..|entries| - 1], codec).value + extra
    ensures forall d :: d in extra <==> ParsedPost(entries[|entries| - 1], codec, d)
  {
    var e := entries[|entries| - 1];
    extra := if IsMarkdownFile(e) && e.contents.Ok? then ParsedFields(e.contents.value, codec) else [];
  }

  /** Reading stops at the first post that cannot be read. */
  lemma {:induction false} DocsFailsOnUnreadable(entries: seq<FileEntry>, codec: Codec, i: nat)
    requires i < |entries| && IsMarkdownFile(entries[i]) && entries[i].contents.Err?
    ensures Docs(entries, codec).Err?
  {
    if i == |entries| - 1 {
    } else {
      DocsFailsOnUnreadable(entries[..|entries| - 1], codec, i);
    }
  }

  /** When every post can be read, reading succeeds: with the lemma above,
      reading fails exactly when some post cannot be read. */
  lemma {:induction false} DocsOkWhenReadable(entries: seq<FileEntry>, codec: Codec)
    requires forall i :: 0 <= i < |entries| && IsMarkdownFile(entries[i]) ==> entries[i].contents.Ok?
    ensures Docs(entries, codec).Ok?
  {
    if entries != [] {
      DocsOkWhenReadable(entries[..|entries| - 1], codec);
      assert IsMarkdownFile(entries[|entries| - 1]) ==> entries[|entries| - 1].contents.Ok?;
    }
  }

  /** The outer loop of `generate_frontmatter_config`: the statistics of
      the posts of the walk, or the first read error. */
  method CollectStats(entries: seq<FileEntry>, codec: Codec) returns (r: Result<map<string, FieldStats>>)
    ensures Docs(entries, codec).Err? ==> r == Err(Docs(entries, codec).error)
    ensures Docs(entries, codec).Ok? ==> r == Ok(Tally(Docs(entries, codec).value))
  {
    var stats: map<string, FieldStats> := map[];
    var i := 0;
    while i < |entries|
      invariant 0 <= i <= |entries|
      invariant Docs(entries[..i], codec).Ok?
      invariant stats == Tally(Docs(entries[..i], codec).value)
    {
      var e := entries[i];
      assert entries[..i + 1][..i] == entries[..i];
      if IsMarkdownFile(e) {
        if e.contents.Err? {
          assert Docs(entries[..i + 1], codec).Err?;
          DocsPrefixError(entries, codec, i + 1);
          return Err(ReadPostError(e, e.contents.error));
        }
        var parsed := Markdown.Parse(e.contents.value, codec);
        var ds := Docs(entries[..i], codec).value;
        assert Docs(entries[..i + 1], codec) == Ok(ds + ParsedFields(e.contents.value, codec));
        if parsed.Ok? {
          var fields := parsed.value.0.frontmatter.customFields;
          assert ParsedFields(e.contents.value, codec) == [fields];
          assert (ds + [fields])[..|ds|] == ds;
          stats := CountFields(stats, fields);
        } else {
          assert ParsedFields(e.contents.value, codec) == [];
          assert ds + [] == ds;
        }
      }
      i := i + 1;
    }
    assert entries[..i] == entries;
    r := Ok(stats);
  }

  /** An error in the walk of a prefix is the error of the whole walk. */
  lemma {:induction false} DocsPrefixError(entries: seq<FileEntry>, codec: Codec, n: nat)
    requires n <= |entries| && Docs(entries[..n], codec).Err?
    ensures Docs(entries, codec) == Docs(entries[..n], codec)
  {
    if n < |entries| {
      assert entries[..|entries| - 1][..n] == entries[..n];
      DocsPrefixError(entries[..|entries| - 1], codec, n);
      assert entries == entries[..|entries|];
    } else {
      assert entries[..n] == entries;
    }
  }

  // ---------------------------------------------------------------------
  // The preferred type of a field

  /** A type the field's values were inferred to have at least as often as
      any other; "string" when none of its values had a type. */
  predicate IsPreferredType(s: FieldStats, t: string) {
    if s.typeCounts == map[] then t == "string"
    else t in s.typeCounts && forall u :: u in s.typeCounts ==> s.typeCounts[u] <= s.typeCounts[t]
  }

  /** Every non-empty count map has a most frequent type. */
  lemma {:induction false} MaxKeyExists(counts: map<string, nat>)
    requires counts != map[]
    ensures exists t :: t in counts && forall u :: u in counts ==> counts[u] <= counts[t]
  {
    var k :| k in counts;
    var rest := counts - {k};
    if rest == map[] {
      forall u | u in counts
        ensures counts[u] <= counts[k]
      {
        assert u !in rest;
      }
    } else {
      MaxKeyExists(rest);
      var t :| t in rest && forall u :: u in rest ==> rest[u] <= rest[t];
      if counts[k] <= counts[t] {
        forall u | u in counts
          ensures counts[u] <= counts[t]
        {
          if u != k {
            assert u in rest;
          }
        }
      } else {
        forall u | u in counts
          ensures counts[u] <= counts[k]
        {
          if u != k {
            assert u in rest;
          }
        }
      }
    }
  }

  /** `FieldStats::preferred_type`: the counts are sorted by decreasing
      count and the first type is taken, so the result is some most
      frequent type; which one wins a tie depends on the order the map
      is walked in, and is left open here. */
  method PreferredType(s: FieldStats) returns (t: string)
    ensures IsPreferredType(s, t)
  {
    if s.typeCounts == map[] {
      return "string";
    }
    MaxKeyExists(s.typeCounts);
    t :| t in s.typeCounts && forall u :: u in s.typeCounts ==> s.typeCounts[u] <= s.typeCounts[t];
  }

  /** A type inferred for a field more often than any other is its
      preferred type. */
  lemma PreferredTypeOfTally(docs: seq<map<string, Value>>, k: string, t: string, chosen: string)
    requires TypedOccurrences(docs, k, t) > 0
    requires forall u :: u != t ==> TypedOccurrences(docs, k, u) < TypedOccurrences(docs, k, t)
    requires IsPreferredType(StatOf(Tally(docs), k), chosen)
    ensures chosen == t
  {
    var counts := StatOf(Tally(docs), k).typeCounts;
    TallyTypeCount(docs, k, t);
    TallyTypeCount(docs, k, chosen);
    assert t in counts;
    assert counts[t] <= counts[chosen];
  }

  /** A field whose values are all null or blank is a plain string field. */
  lemma PreferredTypeOfUntyped(docs: seq<map<string, Value>>, k: string, chosen: string)
    requires forall i :: 0 <= i < |docs| && k in docs[i] ==> InferValueType(docs[i][k]).None?
    requires IsPreferredType(StatOf(Tally(docs), k), chosen)
    ensures chosen == "string"
  {
    TallyUntyped(docs, k);
  }

  // ---------------------------------------------------------------------
  // The inferred custom fields

  /** The field names, in order. */
  function NamesOf(fs: seq<Field>): (r: seq<string>)
    ensures |r| == |fs|
    ensures forall i :: 0 <= i < |fs| ==> r[i] == fs[i].name
  {
    seq(|fs|, i requires 0 <= i < |fs| => fs[i].name)
  }

  predicate SortedByName(fs: seq<Field>) {
    forall i, j :: 0 <= i < j < |fs| ==> Less(fs[i].name, fs[j].name)
  }

  /** The field `generate_frontmatter_config` builds for one statistics
      entry: the formatted label, the preferred type, and nothing else. */
  predicate Describes(f: Field, stats: map<string, FieldStats>) {
    f.name in stats && f.labelText == Some(LabelOf(f.name)) &&
    IsPreferredType(stats[f.name], f.fieldType) && f.description.None? && f.ui.None?
  }

  /** One field per statistics entry, sorted by name (`Describes` puts
      every field's name among the entries). */
  predicate FieldsFor(fs: seq<Field>, stats: map<string, FieldStats>) {
    SortedByName(fs) &&
    (forall k :: k in stats ==> k in NamesOf(fs)) &&
    (forall i :: 0 <= i < |fs| ==> Describes(fs[i], stats))
  }

  /** `f` inserted into fields sorted by name, before the first field
      with a larger name. */
  function InsertByName(fs: seq<Field>, f: Field): (r: seq<Field>)
    ensures |r| == |fs| + 1
    ensures forall g :: g in r <==> g == f || g in fs
  {
    if fs == [] then [f]
    else if Less(f.name, fs[0].name) then [f] + fs
    else [fs[0]] + InsertByName(fs[1..], f)
  }

  /** Insertion keeps the fields sorted, provided the name is new. */
  lemma {:induction false} InsertByNameSorted(fs: seq<Field>, f: Field)
    requires SortedByName(fs) && f.name !in NamesOf(fs)
    ensures SortedByName(InsertByName(fs, f))
  {
    if fs != [] && !Less(f.name, fs[0].name) {
      assert fs[0].name in NamesOf(fs);
      LessTotal(f.name, fs[0].name);
      assert NamesOf(fs[1..]) == NamesOf(fs)[1..];
      InsertByNameSorted(fs[1..], f);
      var r := InsertByName(fs, f);
      forall j | 0 < j < |r|
        ensures Less(fs[0].name, r[j].name)
      {
        assert r[j] in InsertByName(fs[1..], f);
      }
    } else if fs != [] {
      var r := InsertByName(fs, f);
      forall j | 1 < j < |r|
        ensures Less(f.name, r[j].name)
      {
        LessTransitive(f.name, fs[0].name, r[j].name);
      }
    }
  }

  /** The names after insertion are the old names and the new one. */
  lemma InsertByNameNames(fs: seq<Field>, f: Field, k: string)
    ensures k in NamesOf(InsertByName(fs, f)) <==> k == f.name || k in NamesOf(fs)
  {
    var r := InsertByName(fs, f);
    if k in NamesOf(r) {
      var i :| 0 <= i < |r| && NamesOf(r)[i] == k;
      assert r[i] in r;
      if r[i] != f {
        var j :| 0 <= j < |fs| && fs[j] == r[i];
        assert NamesOf(fs)[j] == k;
      }
    }
    if k in NamesOf(fs) {
      var j :| 0 <= j < |fs| && NamesOf(fs)[j] == k;
      assert fs[j] in r;
      var i :| 0 <= i < |r| && r[i] == fs[j];
      assert NamesOf(r)[i] == k;
    }
    if k == f.name {
      assert f in r;
      var i :| 0 <= i < |r| && r[i] == f;
      assert NamesOf(r)[i] == k;
    }
  }

  /** The custom fields of `generate_frontmatter_config`: one field per
      statistics entry, labelled and typed, sorted by name. The entries
      are taken in the map's order, and each field is put in its sorted
      place; since names are distinct, this gives what collecting and then
      sorting gives. */
  method BuildCustomFields(stats: map<string, FieldStats>) returns (fields: seq<Field>)
    ensures FieldsFor(fields, stats)
  {
    fields := [];
    var todo := stats.Keys;
    while todo != {}
      invariant todo <= stats.Keys
      invariant SortedByName(fields)
      invariant forall k :: k in NamesOf(fields) <==> k in stats && k !in todo
      invariant forall i :: 0 <= i < |fields| ==> Describes(fields[i], stats)
      decreases |todo|
    {
      var name :| name in todo;
      var lbl := FormatLabel(name);
      var fieldType := PreferredType(stats[name]);
      var f := Field(name, Some(lbl), fieldType, None, None);
      InsertByNameSorted(fields, f);
      forall k
        ensures k in NamesOf(InsertByName(fields, f)) <==> k == name || k in NamesOf(fields)
      {
        InsertByNameNames(fields, f, k);
      }
      var next := InsertByName(fields, f);
      forall i | 0 <= i < |next|
        ensures Describes(next[i], stats)
      {
        assert next[i] in next;
        if next[i] != f {
          var j :| 0 <= j < |fields| && fields[j] == next[i];
        }
      }
      fields := next;
      todo := todo - {name};
    }
  }

  /** The names of the fields whose type is "image", in order. */
  function ImageFieldNames(fs: seq<Field>): (r: seq<string>)
    ensures |r| <= |fs|
  {
    if fs == [] then []
    else (if fs[0].fieldType == "image" then [fs[0].name] else []) + ImageFieldNames(fs[1..])
  }

  /** A name is an image field exactly when some field of that name has
      type "image". */
  lemma {:induction false} ImageFieldNamesMembers(fs: seq<Field>, k: string)
    ensures k in ImageFieldNames(fs) <==> exists i :: 0 <= i < |fs| && fs[i].name == k && fs[i].fieldType == "image"
  {
    if fs != [] {
      ImageFieldNamesMembers(fs[1..], k);
      if exists i :: 0 <= i < |fs| && fs[i].name == k && fs[i].fieldType == "image" {
        var i :| 0 <= i < |fs| && fs[i].name == k && fs[i].fieldType == "image";
        if i > 0 {
          assert fs[1..][i - 1] == fs[i];
        }
      }
      if exists i :: 0 <= i < |fs[1..]| && fs[1..][i].name == k && fs[1..][i].fieldType == "image" {
        var i :| 0 <= i < |fs[1..]| && fs[1..][i].name == k && fs[1..][i].fieldType == "image";
        assert fs[i + 1] == fs[1..][i];
      }
    }
  }

  // ---------------------------------------------------------------------
  // The preview image field

  /** The names taken as the preview image, best first, when they are
      image fields. */
  const PreferredPreviewNames: seq<string> :=
    ["list_image", "cover", "thumbnail", "main_image", "banner", "image"]

  /** The first of `candidates` that is one of `images`. */
  function FirstPreferred(candidates: seq<string>, images: seq<string>): (r: Option<string>)
    ensures r.Some? ==> r.value in candidates && r.value in images
    ensures r.None? <==> forall c :: c in candidates ==> c !in images
    ensures candidates != [] && candidates[0] in images ==> r == Some(candidates[0])
  {
    if candidates == [] then None
    else if candidates[0] in images then Some(candidates[0])
    else FirstPreferred(candidates[1..], images)
  }

  /** How many posts have the field; 0 for a name without statistics. */
  function TotalOf(stats: map<string, FieldStats>, name: string): nat {
    StatOf(stats, name).total
  }

  /** The first of `images` that occurs in the most posts. */
  function FirstMaxIndex(stats: map<string, FieldStats>, images: seq<string>): (b: nat)
    requires images != []
    ensures b < |images|
    ensures forall j :: 0 <= j < b ==> TotalOf(stats, images[j]) < TotalOf(stats, images[b])
    ensures forall j :: b < j < |images| ==> TotalOf(stats, images[j]) <= TotalOf(stats, images[b])
  {
    if |images| == 1 then 0
    else
      var b := FirstMaxIndex(stats, images[..|images| - 1]);
      if TotalOf(stats, images[|images| - 1]) <= TotalOf(stats, images[b]) then b
      else |images| - 1
  }

  /** What `pick_preview_image_field` chooses: nothing without image fields;
      else the first preferred name that is an image field; else the image
      field in the most posts, the earliest of those on a tie. */
  function PreviewChoice(stats: map<string, FieldStats>, images: seq<string>): Option<string>
  {
    if images == [] then None
    else
      match FirstPreferred(PreferredPreviewNames, images)
      case Some(c) => Some(c)
      case None => Some(images[FirstMaxIndex(stats, images)])
  }

  /** There is a preview field exactly when there are image fields, and it
      is one of them. */
  lemma PreviewChoiceIsImage(stats: map<string, FieldStats>, images: seq<string>)
    ensures PreviewChoice(stats, images).None? <==> images == []
    ensures PreviewChoice(stats, images).Some? ==> PreviewChoice(stats, images).value in images
  {
  }

  /** "list_image", when it is an image field, always wins. */
  lemma ListImageIsPreview(stats: map<string, FieldStats>, images: seq<string>)
    requires "list_image" in images
    ensures PreviewChoice(stats, images) == Some("list_image")
  {
  }

  /** Without a preferred name, no image field is in more posts than the
      chosen one. */
  lemma PreviewIsMostUsed(stats: map<string, FieldStats>, images: seq<string>, other: string)
    requires images != [] && forall c :: c in PreferredPreviewNames ==> c !in images
    requires other in images
    ensures TotalOf(stats, other) <= TotalOf(stats, PreviewChoice(stats, images).value)
  {
    var b := FirstMaxIndex(stats, images);
    var j :| 0 <= j < |images| && images[j] == other;
    assert j == b || j < b || j > b;
  }

  /** One more preferred name: it is the choice if it is an image field,
      else the choice is among the names after it. */
  lemma FirstPreferredStep(candidates: seq<string>, images: seq<string>, c: nat)
    requires c < |candidates|
    ensures FirstPreferred(candidates[c..], images) ==
      if candidates[c] in images then Some(candidates[c]) else FirstPreferred(candidates[c + 1..], images)
  {
    assert candidates[c..][0] == candidates[c];
    assert candidates[c..][1..] == candidates[c + 1..];
  }

  /** One more image field: it becomes the choice only when it is in more
      posts than the choice so far. */
  lemma FirstMaxStep(stats: map<string, FieldStats>, images: seq<string>, i: nat)
    requires i < |images|
    ensures i == 0 ==> FirstMaxIndex(stats, images[..i + 1]) == 0
    ensures i > 0 ==>
      var b := FirstMaxIndex(stats, images[..i]);
      FirstMaxIndex(stats, images[..i + 1]) ==
        if TotalOf(stats, images[i]) <= TotalOf(stats, images[b]) then b else i
  {
    assert images[..i + 1][..i] == images[..i];
    assert images[..i + 1][i] == images[i];
  }

  /** `pick_preview_image_field`. */
  method PickPreviewImageField(stats: map<string, FieldStats>, images: seq<string>) returns (r: Option<string>)
    ensures r == PreviewChoice(stats, images)
  {
    if images == [] {
      return None;
    }
    var c := 0;
    while c < |PreferredPreviewNames|
      invariant 0 <= c <= |PreferredPreviewNames|
      invariant FirstPreferred(PreferredPreviewNames, images) ==
                FirstPreferred(PreferredPreviewNames[c..], images)
    {
      var candidate := PreferredPreviewNames[c];
      FirstPreferredStep(PreferredPreviewNames, images, c);
      if candidate in images {
        return Some(candidate);
      }
      c := c + 1;
    }
    var best: Option<(string, nat)> := None;
    var i := 0;
    while i < |images|
      invariant 0 <= i <= |images|
      invariant i == 0 <==> best.None?
      invariant i > 0 ==>
        var b := FirstMaxIndex(stats, images[..i]);
        best == Some((images[b], TotalOf(stats, images[b])))
    {
      var count := TotalOf(stats, images[i]);
      FirstMaxStep(stats, images, i);
      if best.None? || best.value.1 < count {
        best := Some((images[i], count));
      }
      i := i + 1;
    }
    assert images[..i] == images;
    r := Some(best.value.0);
  }

  // ---------------------------------------------------------------------
  // The image group

  /** The alternative-text field that goes after an image field: its
      `_alt` form if some post has it, else its `Alt` form if some post
      has that. */
  function AltOf(image: string, keys: set<string>): (r: seq<string>)
    ensures |r| <= 1
    ensures forall x :: x in r ==> x in keys
  {
    if image + "_alt" in keys then [image + "_alt"]
    else if image + "Alt" in keys then [image + "Alt"]
    else []
  }

  /** The fields of the image group: each image field, followed by its
      alternative-text field when there is one. */
  function GroupFieldList(images: seq<string>, keys: set<string>): seq<string>
  {
    if images == [] then []
    else
      var n := |images| - 1;
      GroupFieldList(images[..n], keys) + [images[n]] + AltOf(images[n], keys)
  }

  /** The group lists every image field and otherwise only fields some post
      has, at most one extra per image field. */
  lemma {:induction false} GroupFieldListMembers(images: seq<string>, keys: set<string>)
    ensures |images| <= |GroupFieldList(images, keys)| <= 2 * |images|
    ensures forall x :: x in images ==> x in GroupFieldList(images, keys)
    ensures forall x :: x in GroupFieldList(images, keys) ==> x in images || x in keys
  {
    if images != [] {
      var n := |images| - 1;
      GroupFieldListMembers(images[..n], keys);
      assert images == images[..n] + [images[n]];
    }
  }

  /** The groups of a generated configuration: none without image fields,
      else one open group "images" labelled "Images". */
  function FieldGroups(images: seq<string>, keys: set<string>): (r: seq<FieldGroup>)
    ensures r == [] <==> images == []
  {
    if images == [] then []
    else [FieldGroup("images", Some("Images"), GroupFieldList(images, keys), Some(false))]
  }

  /** The loop of `generate_frontmatter_config` that lists the image group. */
  method BuildGroupFields(images: seq<string>, keys: set<string>) returns (fields: seq<string>)
    ensures fields == GroupFieldList(images, keys)
  {
    fields := [];
    var i := 0;
    while i < |images|
      invariant 0 <= i <= |images|
      invariant fields == GroupFieldList(images[..i], keys)
    {
      var image := images[i];
      assert images[..i + 1][..i] == images[..i];
      fields := fields + [image];
      var snakeAlt := image + "_alt";
      var camelAlt := image + "Alt";
      if snakeAlt in keys {
        fields := fields + [snakeAlt];
      } else if camelAlt in keys {
        fields := fields + [camelAlt];
      }
      i := i + 1;
    }
    assert images[..i] == images;
  }

  // ---------------------------------------------------------------------
  // Generating the configuration

  /** What `generate_frontmatter_config` builds from the statistics. */
  predicate GeneratedFrom(c: Config, stats: map<string, FieldStats>) {
    c.version == SchemaVersion && !c.isDefault &&
    FieldsFor(c.customFields, stats) &&
    c.previewImageField == PreviewChoice(stats, ImageFieldNames(c.customFields)) &&
    c.fieldGroups == FieldGroups(ImageFieldNames(c.customFields), stats.Keys)
  }

  /** `generate_frontmatter_config`. `entries` is the walk of the posts
      folder (empty when it does not exist). */
  method GenerateFrontmatterConfig(entries: seq<FileEntry>, codec: Codec) returns (r: Result<Config>)
    ensures Docs(entries, codec).Err? ==> r == Err(Docs(entries, codec).error)
    ensures Docs(entries, codec).Ok? ==> r.Ok? && GeneratedFrom(r.value, Tally(Docs(entries, codec).value))
  {
    var collected := CollectStats(entries, codec);
    if collected.Err? {
      return Err(collected.error);
    }
    var stats := collected.value;
    var customFields := BuildCustomFields(stats);
    var images := ImageFieldNames(customFields);
    var preview := PickPreviewImageField(stats, images);
    var groups: seq<FieldGroup>;
    if images == [] {
      groups := [];
    } else {
      var fields := BuildGroupFields(images, stats.Keys);
      groups := [FieldGroup("images", Some("Images"), fields, Some(false))];
    }
    r := Ok(Config(SchemaVersion, preview, false, customFields, groups));
  }

  /** A generated configuration has a field for exactly the custom fields
      some readable post has. */
  lemma GeneratedFields(c: Config, docs: seq<map<string, Value>>, k: string)
    requires GeneratedFrom(c, Tally(docs))
    ensures k in NamesOf(c.customFields) <==> Occurrences(docs, k) > 0
  {
    TallyTotal(docs, k);
    if k in NamesOf(c.customFields) {
      var i :| 0 <= i < |c.customFields| && NamesOf(c.customFields)[i] == k;
      assert Describes(c.customFields[i], Tally(docs));
    }
  }

  /** A generated configuration has a preview field exactly when it has an
      image group, and that field is an image field. */
  lemma GeneratedPreview(c: Config, stats: map<string, FieldStats>)
    requires GeneratedFrom(c, stats)
    ensures c.previewImageField.Some? <==> c.fieldGroups != []
    ensures c.previewImageField.Some? ==> c.previewImageField.value in ImageFieldNames(c.customFields)
  {
    PreviewChoiceIsImage(stats, ImageFieldNames(c.customFields));
  }
}

=== FILE: markdown.dfy ===
/** Posts, pages and drafts as Markdown documents with a YAML frontmatter
    header between two `---` delimiters: the serde mapping of the header's
    fields, parsing and writing a document, and loading a post from a file. */
module Markdown {
  import opened Wrappers
  import opened Text
  import opened Yaml
  import opened Paths

  const Delimiter: string := "---"
  const UntitledPost: string := "Untitled Post"

  /** The frontmatter of a document. `customFields` holds every key the named
      fields do not claim, with its YAML value unchanged. */
  datatype Frontmatter = Frontmatter(
    title: string,
    date: string,
    tags: seq<string>,
    categories: seq<string>,
    permalink: Option<string>,
    listImage: Option<string>,
    listImageAlt: Option<string>,
    mainImage: Option<string>,
    mainImageAlt: Option<string>,
    customFields: map<string, Value>)

  /** The keys of the named fields, in the camelCase the serde attributes give them. */
  const KnownKeys: set<string> :=
    {"title", "date", "tags", "categories", "permalink",
     "listImage", "listImageAlt", "mainImage", "mainImageAlt"}

  /** The frontmatter a document without a header gets: an untitled post with
      an empty date, to be filled in from the file. */
  function DefaultFrontmatter(): (fm: Frontmatter)
    ensures fm.title == UntitledPost && fm.date == []
    ensures fm.tags == [] && fm.categories == [] && fm.customFields == map[]
    ensures fm.permalink.None? && fm.listImage.None? && fm.listImageAlt.None?
    ensures fm.mainImage.None? && fm.mainImageAlt.None?
  {
    Frontmatter(UntitledPost, "", [], [], None, None, None, None, None, map[])
  }

  datatype MarkdownDocument = MarkdownDocument(frontmatter: Frontmatter, content: string)

  /** A blog post as the editor shows it: the frontmatter's title and date
      beside the whole frontmatter, where it lives, and the file's times
      in seconds since the epoch. */
  datatype Post = Post(
    id: string,
    title: string,
    date: string,
    content: string,
    frontmatter: Frontmatter,
    filePath: string,
    createdAt: int,
    modifiedAt: int)

  /** A standalone page, or a draft: like a post without a date of its own. */
  datatype Page = Page(
    id: string,
    title: string,
    content: string,
    frontmatter: Frontmatter,
    filePath: string,
    createdAt: int,
    modifiedAt: int)

  datatype Draft = Draft(
    id: string,
    title: string,
    content: string,
    frontmatter: Frontmatter,
    filePath: string,
    createdAt: int,
    modifiedAt: int)

  /** An image in the project's image folder, and where the site serves it. */
  datatype ImageInfo = ImageInfo(
    filename: string,
    path: string,
    fullPath: string,
    url: string,
    size: nat,
    width: Option<nat>,
    height: Option<nat>,
    createdAt: int)

  // ---------------------------------------------------------------------
  // The serde mapping between a header's YAML mapping and a Frontmatter

  /** The text serde_yaml gives a scalar read into a `String`: a string as
      it is, a number as written, a boolean as `true` or `false`. Null,
      sequences, mappings and tagged values give none. */
  function ScalarText(v: Value): (r: Option<string>)
    ensures v.String? ==> r == Some(v.text)
    ensures v.Number? ==> r == Some(v.repr)
    ensures r.Some? <==> v.String? || v.Number? || v.Bool?
  {
    match v
    case String(t) => Some(t)
    case Number(repr) => Some(repr)
    case Bool(b) => Some(if b then "true" else "false")
    case _ => None
  }

  /** The texts of a sequence of YAML scalars, or None when an item has no text. */
  function Strings(items: seq<Value>): (r: Option<seq<string>>)
    ensures r.Some? <==> forall i :: 0 <= i < |items| ==> ScalarText(items[i]).Some?
    ensures r.Some? ==> |r.value| == |items| &&
                        forall i :: 0 <= i < |items| ==> ScalarText(items[i]) == Some(r.value[i])
  {
    if forall i :: 0 <= i < |items| ==> ScalarText(items[i]).Some? then
      Some(seq(|items|, i requires 0 <= i < |items| => ScalarText(items[i]).value))
    else None
  }

  /** A list of strings as a YAML sequence. */
  function StringValues(ss: seq<string>): (r: seq<Value>)
    ensures |r| == |ss| && forall i :: 0 <= i < |ss| ==> r[i] == String(ss[i])
  {
    seq(|ss|, i requires 0 <= i < |ss| => String(ss[i]))
  }

  lemma StringsOfStringValues(ss: seq<string>)
    ensures Strings(StringValues(ss)) == Some(ss)
  {
    var r := Strings(StringValues(ss));
    assert r.Some?;
    assert |r.value| == |ss|;
    forall i | 0 <= i < |ss|
      ensures r.value[i] == ss[i]
    {
      assert ScalarText(StringValues(ss)[i]) == Some(r.value[i]);
    }
    assert r.value == ss;
  }

  /** What a named field's value is written back as once read: a scalar as
      the string of its text, a sequence item by item, anything else as it is. */
  function AsWritten(v: Value): Value {
    match v
    case Sequence(items) => Sequence(seq(|items|, i requires 0 <= i < |items| => TextValue(items[i])))
    case _ => TextValue(v)
  }

  function TextValue(v: Value): Value {
    match ScalarText(v)
    case Some(t) => String(t)
    case None => v
  }

  /** What a named field's value is written back as: an empty list for a list
      field with no value, otherwise `AsWritten`. */
  function WrittenBack(key: string, v: Value): Value {
    if (key == "tags" || key == "categories") && v.Null? then Sequence([]) else AsWritten(v)
  }

  /** A string, null, or list of strings, as the editor itself writes the
      named fields, is written back unchanged. */
  lemma AsWrittenKeepsStrings(v: Value)
    requires v.String? || v.Null? || (v.Sequence? && forall i :: 0 <= i < |v.items| ==> v.items[i].String?)
    ensures AsWritten(v) == v
  {
    if v.Sequence? {
      var w := AsWritten(v);
      assert |w.items| == |v.items|;
      forall i | 0 <= i < |v.items|
        ensures w.items[i] == v.items[i]
      {
        assert v.items[i].String?;
      }
      assert w.items == v.items;
    }
  }

  /** The error of a named key whose value has the wrong type. */
  function InvalidType(detail: string): (e: string)
    ensures StartsWith(e, "invalid type")
  {
    var e := "invalid type " + detail;
    assert e[..12] == "invalid type";
    e
  }

  /** A required `String` field. */
  function RequiredString(m: map<string, Value>, key: string): Result<string>
  {
    if key !in m then Err("missing field `" + key + "`")
    else
      match ScalarText(m[key])
      case Some(t) => Ok(t)
      case None => Err(InvalidType("for `" + key + "`, expected a string"))
  }

  /** A `Vec<String>` field with `#[serde(default)]`: absent means empty, and so
      does a key with no value (`tags:`), which serde_yaml reads as an empty sequence. */
  function StringList(m: map<string, Value>, key: string): Result<seq<string>>
  {
    if key !in m || m[key].Null? then Ok([])
    else if !m[key].Sequence? then Err(InvalidType("for `" + key + "`, expected a sequence"))
    else
      match Strings(m[key].items)
      case None => Err(InvalidType("in `" + key + "`, expected a string"))
      case Some(ss) => Ok(ss)
  }

  /** An `Option<String>` field: absent or null means None. */
  function OptionalString(m: map<string, Value>, key: string): Result<Option<string>>
  {
    if key !in m || m[key].Null? then Ok(None)
    else
      match ScalarText(m[key])
      case Some(t) => Ok(Some(t))
      case None => Err(InvalidType("for `" + key + "`, expected a string"))
  }

  /** A named `String` field, when present, read for its type only: serde
      reports a mistyped key as it meets it, and a missing one only after. */
  function PresentString(m: map<string, Value>, key: string): Result<bool>
  {
    if key in m && ScalarText(m[key]).None? then Err(InvalidType("for `" + key + "`, expected a string"))
    else Ok(true)
  }

  /** The type errors of the named keys that are present, in field order. */
  function TypeCheck(m: map<string, Value>): (r: Result<bool>)
    ensures r.Ok? <==> PresentConform(m)
    ensures r.Err? ==> StartsWith(r.error, "invalid type")
  {
    var _ :- PresentString(m, "title");
    var _ :- PresentString(m, "date");
    var _ :- StringList(m, "tags");
    var _ :- StringList(m, "categories");
    var _ :- OptionalString(m, "permalink");
    var _ :- OptionalString(m, "listImage");
    var _ :- OptionalString(m, "listImageAlt");
    var _ :- OptionalString(m, "mainImage");
    var _ :- OptionalString(m, "mainImageAlt");
    Ok(true)
  }

  predicate HasText(m: map<string, Value>, key: string) {
    key in m && ScalarText(m[key]).Some?
  }

  predicate HasTextListOrNothing(m: map<string, Value>, key: string) {
    key in m ==> m[key].Null? || (m[key].Sequence? && forall i :: 0 <= i < |m[key].items| ==> ScalarText(m[key].items[i]).Some?)
  }

  predicate HasTextOrNothing(m: map<string, Value>, key: string) {
    key in m ==> m[key].Null? || ScalarText(m[key]).Some?
  }

  /** What a header mapping must hold to become a Frontmatter: a scalar
      title and date, lists of scalars (or no value) under tags and
      categories, and a scalar, null or nothing under each optional field. */
  predicate Conforms(m: map<string, Value>) {
    "title" in m && "date" in m && PresentConform(m)
  }

  /** Every named key that is present has the type its field needs. */
  predicate PresentConform(m: map<string, Value>) {
    ("title" in m ==> HasText(m, "title")) && ("date" in m ==> HasText(m, "date"))
    && HasTextListOrNothing(m, "tags") && HasTextListOrNothing(m, "categories")
    && HasTextOrNothing(m, "permalink")
    && HasTextOrNothing(m, "listImage") && HasTextOrNothing(m, "listImageAlt")
    && HasTextOrNothing(m, "mainImage") && HasTextOrNothing(m, "mainImageAlt")
  }

  /** `Deserialize for Frontmatter`: reads the named fields and keeps every
      other key as a custom field. */
  function DecodeFrontmatter(m: map<string, Value>): (r: Result<Frontmatter>)
    ensures r.Ok? <==> Conforms(m)
    ensures r.Ok? ==> r.value.customFields == m - KnownKeys
    ensures r.Ok? ==> Some(r.value.title) == ScalarText(m["title"]) && Some(r.value.date) == ScalarText(m["date"])
    ensures !PresentConform(m) ==> r.Err? && StartsWith(r.error, "invalid type")
    ensures PresentConform(m) && "title" !in m ==> r == Err("missing field `title`")
    ensures PresentConform(m) && "title" in m && "date" !in m ==> r == Err("missing field `date`")
  {
    var _ :- TypeCheck(m);
    var title :- RequiredString(m, "title");
    var date :- RequiredString(m, "date");
    var tags := StringList(m, "tags").value;
    var categories := StringList(m, "categories").value;
    var permalink := OptionalString(m, "permalink").value;
    var listImage := OptionalString(m, "listImage").value;
    var listImageAlt := OptionalString(m, "listImageAlt").value;
    var mainImage := OptionalString(m, "mainImage").value;
    var mainImageAlt := OptionalString(m, "mainImageAlt").value;
    Ok(Frontmatter(title, date, tags, categories, permalink,
                   listImage, listImageAlt, mainImage, mainImageAlt, m - KnownKeys))
  }

  function OptionValue(o: Option<string>): Value {
    match o
    case None => Null
    case Some(s) => String(s)
  }

  /** `Serialize for Frontmatter`: the custom fields flattened beside the
      named ones; a None optional field is written as null. */
  function EncodeFrontmatter(fm: Frontmatter): (m: map<string, Value>)
    ensures m.Keys == fm.customFields.Keys + KnownKeys
    ensures forall k :: k in fm.customFields && k !in KnownKeys ==> m[k] == fm.customFields[k]
  {
    fm.customFields + map[
      "title" := String(fm.title),
      "date" := String(fm.date),
      "tags" := Sequence(StringValues(fm.tags)),
      "categories" := Sequence(StringValues(fm.categories)),
      "permalink" := OptionValue(fm.permalink),
      "listImage" := OptionValue(fm.listImage),
      "listImageAlt" := OptionValue(fm.listImageAlt),
      "mainImage" := OptionValue(fm.mainImage),
      "mainImageAlt" := OptionValue(fm.mainImageAlt)]
  }

  /** The custom fields do not reuse a named field's key: true of every
      Frontmatter that decoding produces. */
  predicate CustomKeysApart(fm: Frontmatter) {
    fm.customFields.Keys !! KnownKeys
  }

  /** Writing a frontmatter and reading it back gives it back. */
  lemma DecodeEncode(fm: Frontmatter)
    requires CustomKeysApart(fm)
    ensures DecodeFrontmatter(EncodeFrontmatter(fm)) == Ok(fm)
  {
    var m := EncodeFrontmatter(fm);
    EncodedFields(fm);
    RequiredOfString(m, "title", fm.title);
    RequiredOfString(m, "date", fm.date);
    ListOfStrings(m, "tags", fm.tags);
    ListOfStrings(m, "categories", fm.categories);
    OptionalOfValue(m, "permalink", fm.permalink);
    OptionalOfValue(m, "listImage", fm.listImage);
    OptionalOfValue(m, "listImageAlt", fm.listImageAlt);
    OptionalOfValue(m, "mainImage", fm.mainImage);
    OptionalOfValue(m, "mainImageAlt", fm.mainImageAlt);
    assert m - KnownKeys == fm.customFields;
  }

  lemma RequiredOfString(m: map<string, Value>, key: string, t: string)
    requires key in m && m[key] == String(t)
    ensures RequiredString(m, key) == Ok(t)
  {
  }

  lemma ListOfStrings(m: map<string, Value>, key: string, ss: seq<string>)
    requires key in m && m[key] == Sequence(StringValues(ss))
    ensures StringList(m, key) == Ok(ss)
  {
    StringsOfStringValues(ss);
  }

  lemma OptionalOfValue(m: map<string, Value>, key: string, o: Option<string>)
    requires key in m && m[key] == OptionValue(o)
    ensures OptionalString(m, key) == Ok(o)
  {
  }

  /** Reading a header mapping and writing it back loses no key and adds
      only the named fields the header left out; a custom field keeps its
      value, and a named field is written as the text it was read as. */
  lemma EncodeDecode(m: map<string, Value>)
    requires DecodeFrontmatter(m).Ok?
    ensures var e := EncodeFrontmatter(DecodeFrontmatter(m).value);
            e.Keys == m.Keys + KnownKeys &&
            forall k :: k in m ==> e[k] == if k in KnownKeys then WrittenBack(k, m[k]) else m[k]
  {
    var fm := DecodeFrontmatter(m).value;
    var e := EncodeFrontmatter(fm);
    assert e.Keys == m.Keys + KnownKeys by {
      assert m.Keys + KnownKeys == (m - KnownKeys).Keys + KnownKeys;
    }
    forall k | k in m
      ensures e[k] == if k in KnownKeys then WrittenBack(k, m[k]) else m[k]
    {
      FieldBack(m, k);
    }
  }

  /** A mistyped key is reported before a missing one: `date: d` and
      `tags: 5` without a title fail on `tags`, not on the title. */
  lemma MistypedBeforeMissing(m: map<string, Value>, d: string, n: string)
    requires m == map["date" := String(d), "tags" := Number(n)]
    ensures DecodeFrontmatter(m).Err? && StartsWith(DecodeFrontmatter(m).error, "invalid type")
  {
    assert "title" !in m && "date" in m && "tags" in m;
    assert HasText(m, "date");
    assert !HasTextListOrNothing(m, "tags");
  }

  /** A `tags:` or `categories:` line with no value reads as an empty list. */
  lemma EmptyListsRead(m: map<string, Value>, title: string, date: string)
    requires m == map["title" := String(title), "date" := String(date), "tags" := Null, "categories" := Null]
    ensures DecodeFrontmatter(m).Ok?
    ensures var fm := DecodeFrontmatter(m).value;
            fm.tags == [] && fm.categories == [] && fm.title == title && fm.customFields == map[]
  {
    assert m.Keys <= KnownKeys;
  }

  /** serde_yaml reads a number or a boolean under a named field as its text. */
  lemma ScalarsReadAsText(m: map<string, Value>, repr: string)
    requires m == map["title" := Number(repr), "date" := Bool(true), "tags" := Sequence([Number(repr)])]
    ensures DecodeFrontmatter(m).Ok?
    ensures var fm := DecodeFrontmatter(m).value;
            fm.title == repr && fm.date == "true" && fm.tags == [repr]
  {
    var items := m["tags"].items;
    assert items == [Number(repr)];
    assert ScalarText(items[0]) == Some(repr);
    assert Strings(items).value == [repr];
  }

  /** One key of a decoded header keeps its value when written back. */
  lemma FieldBack(m: map<string, Value>, k: string)
    requires DecodeFrontmatter(m).Ok? && k in m
    ensures EncodeFrontmatter(DecodeFrontmatter(m).value)[k] == if k in KnownKeys then WrittenBack(k, m[k]) else m[k]
  {
    var fm := DecodeFrontmatter(m).value;
    if k in KnownKeys {
      DecodedFields(m);
      EncodedFields(fm);
      if k == "title" {
        RequiredBack(m, k, fm.title);
      } else if k == "date" {
        RequiredBack(m, k, fm.date);
      } else if k == "tags" {
        ListBack(m, k, fm.tags);
      } else if k == "categories" {
        ListBack(m, k, fm.categories);
      } else if k == "permalink" {
        OptionalBack(m, k, fm.permalink);
      } else if k == "listImage" {
        OptionalBack(m, k, fm.listImage);
      } else if k == "listImageAlt" {
        OptionalBack(m, k, fm.listImageAlt);
      } else if k == "mainImage" {
        OptionalBack(m, k, fm.mainImage);
      } else if k == "mainImageAlt" {
        OptionalBack(m, k, fm.mainImageAlt);
      }
    }
  }

  /** Each named field of a decoded header is what its reader returned. */
  lemma DecodedFields(m: map<string, Value>)
    requires DecodeFrontmatter(m).Ok?
    ensures var fm := DecodeFrontmatter(m).value;
      RequiredString(m, "title") == Ok(fm.title) && RequiredString(m, "date") == Ok(fm.date)
      && StringList(m, "tags") == Ok(fm.tags) && StringList(m, "categories") == Ok(fm.categories)
      && OptionalString(m, "permalink") == Ok(fm.permalink)
      && OptionalString(m, "listImage") == Ok(fm.listImage)
      && OptionalString(m, "listImageAlt") == Ok(fm.listImageAlt)
      && OptionalString(m, "mainImage") == Ok(fm.mainImage)
      && OptionalString(m, "mainImageAlt") == Ok(fm.mainImageAlt)
  {
    assert RequiredString(m, "title").Ok? && RequiredString(m, "date").Ok?;
    assert StringList(m, "tags").Ok? && StringList(m, "categories").Ok?;
    assert OptionalString(m, "permalink").Ok? && OptionalString(m, "listImage").Ok?;
    assert OptionalString(m, "listImageAlt").Ok? && OptionalString(m, "mainImage").Ok?;
  }

  /** Where each named field goes in the written mapping. */
  lemma EncodedFields(fm: Frontmatter)
    ensures var e := EncodeFrontmatter(fm);
      e["title"] == String(fm.title) && e["date"] == String(fm.date)
      && e["tags"] == Sequence(StringValues(fm.tags))
      && e["categories"] == Sequence(StringValues(fm.categories))
      && e["permalink"] == OptionValue(fm.permalink)
      && e["listImage"] == OptionValue(fm.listImage)
      && e["listImageAlt"] == OptionValue(fm.listImageAlt)
      && e["mainImage"] == OptionValue(fm.mainImage)
      && e["mainImageAlt"] == OptionValue(fm.mainImageAlt)
  {
  }

  /** A list field read from a header is written back item by item as text. */
  lemma ListBack(m: map<string, Value>, key: string, ss: seq<string>)
    requires key == "tags" || key == "categories"
    requires StringList(m, key) == Ok(ss)
    ensures key in m ==> Sequence(StringValues(ss)) == WrittenBack(key, m[key])
  {
    if key in m && !m[key].Null? {
      var items := m[key].items;
      assert Strings(items) == Some(ss);
      var w := AsWritten(m[key]);
      forall i | 0 <= i < |items|
        ensures StringValues(ss)[i] == w.items[i]
      {
        assert ScalarText(items[i]) == Some(ss[i]);
      }
      assert StringValues(ss) == w.items;
    }
  }

  /** An optional field read from a header is written back as its text, or null. */
  lemma OptionalBack(m: map<string, Value>, key: string, o: Option<string>)
    requires OptionalString(m, key) == Ok(o)
    ensures key in m ==> OptionValue(o) == AsWritten(m[key])
  {
  }

  /** A required field read from a header is written back as its text. */
  lemma RequiredBack(m: map<string, Value>, key: string, t: string)
    requires RequiredString(m, key) == Ok(t)
    ensures key in m ==> String(t) == AsWritten(m[key])
  {
  }

  // ---------------------------------------------------------------------
  // Documents

  /** A header exists when the text starts with `---` and a second `---`
      follows it. */
  predicate HasFrontmatter(raw: string) {
    StartsWith(raw, Delimiter) && Contains(raw[|Delimiter|..], Delimiter)
  }

  /** Where the closing delimiter starts, counted after the opening one. */
  function HeaderEnd(raw: string): nat
    requires HasFrontmatter(raw)
  {
    Find(raw[|Delimiter|..], Delimiter).value
  }

  /** The header text between the two delimiters, trimmed. */
  function HeaderText(raw: string): string
    requires HasFrontmatter(raw)
  {
    var after := raw[|Delimiter|..];
    Trim(after[..HeaderEnd(raw)])
  }

  /** The body after the closing delimiter, trimmed. */
  function BodyText(raw: string): string
    requires HasFrontmatter(raw)
  {
    var after := raw[|Delimiter|..];
    Trim(after[HeaderEnd(raw) + |Delimiter|..])
  }

  /** `MarkdownDocument::parse`. The flag is true when the text had no
      header: the whole text is then the content, untrimmed, under the
      default frontmatter. A header that YAML or the Frontmatter mapping
      rejects is an error; a document with a header has its body trimmed. */
  function Parse(raw: string, codec: Codec): (r: Result<(MarkdownDocument, bool)>)
    ensures !HasFrontmatter(raw) ==> r == Ok((MarkdownDocument(DefaultFrontmatter(), raw), true))
    ensures HasFrontmatter(raw) ==>
              var header := codec.parse(HeaderText(raw));
              (r.Ok? <==> header.Ok? && DecodeFrontmatter(header.value).Ok?) &&
              (r.Ok? ==> r.value == (MarkdownDocument(DecodeFrontmatter(header.value).value, BodyText(raw)), false))
    ensures r.Err? ==> StartsWith(r.error, "Failed to parse frontmatter: ")
  {
    if !StartsWith(raw, Delimiter) then
      Ok((MarkdownDocument(DefaultFrontmatter(), raw), true))
    else
      assert OccursAt(raw, Delimiter, 0);
      var parts := SplitN3(raw, Delimiter);
      if |parts| < 3 then
        Ok((MarkdownDocument(DefaultFrontmatter(), raw), true))
      else
        match codec.parse(Trim(parts[1]))
        case Err(e) => Err("Failed to parse frontmatter: " + e)
        case Ok(m) =>
          match DecodeFrontmatter(m)
          case Err(e) => Err("Failed to parse frontmatter: " + e)
          case Ok(fm) => Ok((MarkdownDocument(fm, Trim(parts[2])), false))
  }

  /** The text `to_string` and every `to_markdown` write around the YAML. */
  function Render(yaml: string, content: string): string {
    "---\n" + yaml + "---\n\n" + content
  }

  /** `MarkdownDocument::to_string`: the frontmatter as YAML between two
      delimiters, a blank line, then the content as it is. */
  function Serialise(fm: Frontmatter, content: string, codec: Codec): (r: Result<string>)
    ensures r.Ok? <==> codec.emit(EncodeFrontmatter(fm)).Ok?
    ensures r.Ok? ==> r.value == Render(codec.emit(EncodeFrontmatter(fm)).value, content)
    ensures r.Err? ==> StartsWith(r.error, "Failed to serialize frontmatter: ")
  {
    match codec.emit(EncodeFrontmatter(fm))
    case Err(e) => Err("Failed to serialize frontmatter: " + e)
    case Ok(yaml) => Ok(Render(yaml, content))
  }

  lemma FindIs(s: string, p: string, k: nat)
    requires OccursAt(s, p, k)
    requires forall j :: 0 <= j < k ==> !OccursAt(s, p, j)
    ensures Find(s, p) == Some(k)
  {
  }

  /** In `w` + `yaml` + `tail` with a one-character `w` that is not '-' and a
      `tail` that starts with the delimiter, the first delimiter is the one
      that starts `tail`, when `yaml` holds none and does not end in '-'. */
  lemma FirstDelimiter(w: string, yaml: string, tail: string)
    requires |w| == 1 && w[0] != '-'
    requires !Contains(yaml, Delimiter) && !EndsWith(yaml, "-")
    requires StartsWith(tail, Delimiter)
    ensures Find(w + yaml + tail, Delimiter) == Some(1 + |yaml|)
  {
    var t := w + yaml + tail;
    var k := 1 + |yaml|;
    assert t[k..k + 3] == tail[..3];
    forall j | 0 <= j < k
      ensures !OccursAt(t, Delimiter, j)
    {
      NoDelimiterAt(w, yaml, tail, j);
    }
    FindIs(t, Delimiter, k);
  }

  /** No delimiter starts before `tail` in `w` + `yaml` + `tail`. */
  lemma NoDelimiterAt(w: string, yaml: string, tail: string, j: nat)
    requires |w| == 1 && w[0] != '-'
    requires !Contains(yaml, Delimiter) && !EndsWith(yaml, "-")
    requires j < 1 + |yaml|
    ensures !OccursAt(w + yaml + tail, Delimiter, j)
  {
    var t := w + yaml + tail;
    var k := 1 + |yaml|;
    if j == 0 {
      assert t[0] == w[0];
    } else if j + 3 <= k {
      assert t[j..j + 3] == yaml[j - 1..j + 2];
      NotContainsNowhere(yaml, Delimiter, j - 1);
    } else if j + 3 <= |t| {
      assert yaml[|yaml| - 1..] == [yaml[|yaml| - 1]];
      assert t[j..j + 3][|yaml| - j] == t[|yaml|] == yaml[|yaml| - 1];
    }
  }

  /** In a rendered document whose YAML holds no `---` and does not end in
      '-', the closing delimiter is the one written after the YAML. */
  lemma RenderHeaderEnd(yaml: string, content: string)
    requires !Contains(yaml, Delimiter) && !EndsWith(yaml, "-")
    ensures HasFrontmatter(Render(yaml, content))
    ensures HeaderEnd(Render(yaml, content)) == 1 + |yaml|
    ensures Render(yaml, content)[|Delimiter|..] == "\n" + yaml + ("---\n\n" + content)
  {
    var raw := Render(yaml, content);
    var tail := "---\n\n" + content;
    assert raw == Delimiter + ("\n" + yaml + tail);
    FirstDelimiter("\n", yaml, tail);
    assert OccursAt(raw[3..], Delimiter, 1 + |yaml|);
  }

  /** Such a document splits back at the delimiters it was written with. */
  lemma RenderSplits(yaml: string, content: string)
    requires !Contains(yaml, Delimiter) && !EndsWith(yaml, "-")
    ensures HasFrontmatter(Render(yaml, content))
    ensures HeaderText(Render(yaml, content)) == Trim(yaml)
    ensures BodyText(Render(yaml, content)) == Trim(content)
  {
    RenderHeaderEnd(yaml, content);
    SplitHeaderText(Render(yaml, content), yaml, "---\n\n" + content);
    SplitBodyText(Render(yaml, content), yaml, content);
  }

  /** The header text of a text whose closing delimiter follows a newline
      and `yaml`. */
  lemma SplitHeaderText(raw: string, yaml: string, rest: string)
    requires HasFrontmatter(raw) && HeaderEnd(raw) == 1 + |yaml|
    requires raw[|Delimiter|..] == "\n" + yaml + rest
    ensures HeaderText(raw) == Trim(yaml)
  {
    var t := raw[3..];
    assert t[..1 + |yaml|] == "\n" + yaml;
    TrimSkipsBlankPrefix("\n", yaml);
  }

  /** The body text of such a text, when the delimiter, a blank line and
      `content` follow. */
  lemma SplitBodyText(raw: string, yaml: string, content: string)
    requires HasFrontmatter(raw) && HeaderEnd(raw) == 1 + |yaml|
    requires raw[|Delimiter|..] == "\n" + yaml + ("---\n\n" + content)
    ensures BodyText(raw) == Trim(content)
  {
    var t := raw[3..];
    assert t[1 + |yaml| + 3..] == "\n\n" + content;
    TrimSkipsBlankPrefix("\n\n", content);
  }

  /** Writing a document and parsing the text back returns the content
      unchanged when it was trimmed, whatever becomes of the header. */
  lemma BodyRoundTrip(fm: Frontmatter, content: string, codec: Codec)
    requires codec.emit(EncodeFrontmatter(fm)).Ok?
    requires var yaml := codec.emit(EncodeFrontmatter(fm)).value;
             !Contains(yaml, Delimiter) && !EndsWith(yaml, "-")
    requires IsTrimmed(content)
    ensures var r := Parse(Serialise(fm, content, codec).value, codec);
            r.Ok? ==> r.value.0.content == content && !r.value.1
  {
    var yaml := codec.emit(EncodeFrontmatter(fm)).value;
    var raw := Render(yaml, content);
    assert Serialise(fm, content, codec) == Ok(raw);
    RenderSplits(yaml, content);
    TrimOfTrimmed(content);
    assert BodyText(raw) == content;
  }

  /** Writing a document and parsing it back gives the same document, when
      the YAML codec reads back what it wrote. */
  lemma DocumentRoundTrip(doc: MarkdownDocument, codec: Codec, yaml: string)
    requires codec.emit(EncodeFrontmatter(doc.frontmatter)) == Ok(yaml)
    requires !Contains(yaml, Delimiter) && !EndsWith(yaml, "-")
    requires codec.parse(Trim(yaml)) == Ok(EncodeFrontmatter(doc.frontmatter))
    requires CustomKeysApart(doc.frontmatter) && IsTrimmed(doc.content)
    ensures Serialise(doc.frontmatter, doc.content, codec) == Ok(Render(yaml, doc.content))
    ensures Parse(Render(yaml, doc.content), codec) == Ok((doc, false))
  {
    RenderSplits(yaml, doc.content);
    TrimOfTrimmed(doc.content);
    DecodeEncode(doc.frontmatter);
  }

  /** `to_markdown` of a post, a page and a draft: the frontmatter and the
      content rendered as one document. */
  function PostToMarkdown(post: Post, codec: Codec): Result<string> {
    Serialise(post.frontmatter, post.content, codec)
  }

  function PageToMarkdown(page: Page, codec: Codec): Result<string> {
    Serialise(page.frontmatter, page.content, codec)
  }

  function DraftToMarkdown(draft: Draft, codec: Codec): Result<string> {
    Serialise(draft.frontmatter, draft.content, codec)
  }

  // ---------------------------------------------------------------------
  // Titles from headings

  /** The title a line gives as a level-one heading: the trimmed line starts
      with "# ", and what is left after the leading '#'s, trimmed, is not empty. */
  function HeadingTitle(line: string): (r: Option<string>)
    ensures r.Some? ==> StartsWith(Trim(line), "# ") && r.value != [] && IsTrimmed(r.value)
  {
    var trimmed := Trim(line);
    if !StartsWith(trimmed, "# ") then None
    else
      var title := Trim(TrimStartMatches(trimmed, '#'));
      if title == [] then None else Some(title)
  }

  /** A heading line written from a title gives the title back. */
  lemma HeadingOfTitle(title: string)
    requires title != [] && IsTrimmed(title) && title[0] != '#'
    ensures HeadingTitle("# " + title) == Some(title)
  {
    var line := "# " + title;
    assert line[0] == '#' && line[|line| - 1] == title[|title| - 1];
    TrimOfTrimmed(line);
    assert StartsWith(Trim(line), "# ");
    var after := " " + title;
    assert line[1..] == after;
    assert TrimStartMatches(after, '#') == after;
    assert TrimStartMatches(line, '#') == after;
    TrimSkipsBlankPrefix(" ", title);
    TrimOfTrimmed(title);
  }

  /** The title of the first line that is a level-one heading. */
  function FirstHeading(lines: seq<string>): (r: Option<string>)
    ensures r.Some? ==> r.value != [] && IsTrimmed(r.value)
  {
    if lines == [] then None
    else
      var h := HeadingTitle(lines[0]);
      if h.Some? then h else FirstHeading(lines[1..])
  }

  /** No title is found exactly when no line is a heading. */
  lemma {:induction false} FirstHeadingNone(lines: seq<string>)
    ensures FirstHeading(lines).None? <==> forall i :: 0 <= i < |lines| ==> HeadingTitle(lines[i]).None?
  {
    if lines == [] {
    } else if HeadingTitle(lines[0]).Some? {
      assert FirstHeading(lines).Some?;
    } else {
      var rest := lines[1..];
      FirstHeadingNone(rest);
      assert FirstHeading(lines) == FirstHeading(rest);
      if FirstHeading(rest).None? {
        forall i | 0 <= i < |lines|
          ensures HeadingTitle(lines[i]).None?
        {
          if i == 0 {
            assert lines[i] == lines[0];
          } else {
            assert lines[i] == rest[i - 1];
            assert HeadingTitle(rest[i - 1]).None?;
          }
        }
      } else {
        var j :| 0 <= j < |rest| && HeadingTitle(rest[j]).Some?;
        assert lines[j + 1] == rest[j];
      }
    }
  }

  /** Lines before the first heading line do not change which heading is found. */
  lemma {:induction false} FirstHeadingSkips(before: seq<string>, after: seq<string>)
    requires FirstHeading(before).None?
    ensures FirstHeading(before + after) == FirstHeading(after)
  {
    if before != [] {
      assert (before + after)[0] == before[0];
      assert (before + after)[1..] == before[1..] + after;
      FirstHeadingSkips(before[1..], after);
    } else {
      assert before + after == after;
    }
  }

  /** The search from line `i` on: that line's title if it has one, else
      the search from the next line. */
  lemma FirstHeadingStep(lines: seq<string>, i: nat)
    requires i < |lines|
    ensures FirstHeading(lines[i..]) ==
      if HeadingTitle(lines[i]).Some? then HeadingTitle(lines[i]) else FirstHeading(lines[i + 1..])
  {
    assert lines[i..][0] == lines[i];
    assert lines[i..][1..] == lines[i + 1..];
  }

  /** `extract_title_from_markdown`: the first level-one heading's title. */
  method ExtractTitleFromMarkdown(content: string) returns (title: Option<string>)
    ensures title == FirstHeading(Lines(content))
    ensures title.Some? ==> title.value != [] && IsTrimmed(title.value)
  {
    var lines := Lines(content);
    var i := 0;
    while i < |lines|
      invariant 0 <= i <= |lines|
      invariant FirstHeading(lines) == FirstHeading(lines[i..])
    {
      FirstHeadingStep(lines, i);
      var trimmed := Trim(lines[i]);
      if StartsWith(trimmed, "# ") {
        var t := Trim(TrimStartMatches(trimmed, '#'));
        if t != [] {
          return Some(t);
        }
      }
      i := i + 1;
    }
    return None;
  }

  // ---------------------------------------------------------------------
  // Loading a post

  /** The file's stem, when it has a file name. */
  function StemOf(path: FilePath): Option<string> {
    match path.name
    case None => None
    case Some(n) => Some(Stem(n))
  }

  /** The title and date `Post::from_file` fills in: an "Untitled Post"
      takes its first heading, or else the file's stem; a document without
      a header, or with an empty date, takes the file's modification time. */
  function WithFallbacks(fm: Frontmatter, hadNoFrontmatter: bool, content: string,
                         stem: Option<string>, fileDate: string): (r: Frontmatter)
    ensures r == fm.(title := r.title, date := r.date)
    ensures fm.title != UntitledPost ==> r.title == fm.title
    ensures fm.title == UntitledPost ==>
              r.title == match FirstHeading(Lines(content))
                         case Some(t) => t
                         case None => stem.GetOr(UntitledPost)
    ensures r.date == (if hadNoFrontmatter || fm.date == [] then fileDate else fm.date)
  {
    var title :=
      if fm.title != UntitledPost then fm.title
      else match FirstHeading(Lines(content))
           case Some(t) => t
           case None => stem.GetOr(UntitledPost);
    var date := if hadNoFrontmatter || fm.date == [] then fileDate else fm.date;
    fm.(title := title, date := date)
  }

  /** Given a file date, a loaded post always has a date; and once its title
      is settled, loading it again as a file with a header changes nothing. */
  lemma FallbacksSettle(fm: Frontmatter, hadNoFrontmatter: bool, content: string,
                        stem: Option<string>, fileDate: string)
    requires fileDate != []
    ensures var r := WithFallbacks(fm, hadNoFrontmatter, content, stem, fileDate);
      r.date != [] && (r.title != UntitledPost ==> WithFallbacks(r, false, content, stem, fileDate) == r)
  {
  }

  /** The post id: the path relative to the project, or else the whole path. */
  function PostId(entry: FileEntry): string {
    entry.projectRelative.GetOr(entry.path.text)
  }

  /** What `Post::from_file` returns for a file. */
  function LoadPost(entry: FileEntry, codec: Codec): (r: Result<Post>)
    ensures entry.contents.Err? ==> r == Err("Failed to read file: " + entry.contents.error)
    ensures r.Ok? <==> entry.contents.Ok? && Parse(entry.contents.value, codec).Ok? && entry.meta.Ok?
    ensures r.Ok? ==>
              var (doc, hadNo) := Parse(entry.contents.value, codec).value;
              var meta := entry.meta.value;
              r.value.frontmatter == WithFallbacks(doc.frontmatter, hadNo, doc.content, StemOf(entry.path), meta.modifiedLocal) &&
              r.value.title == r.value.frontmatter.title && r.value.date == r.value.frontmatter.date &&
              r.value.content == doc.content && r.value.id == PostId(entry) &&
              r.value.filePath == entry.path.text &&
              r.value.createdAt == meta.createdAt && r.value.modifiedAt == meta.modifiedAt
  {
    match entry.contents
    case Err(e) => Err("Failed to read file: " + e)
    case Ok(raw) =>
      match Parse(raw, codec)
      case Err(e) => Err(e)
      case Ok((doc, hadNo)) =>
        match entry.meta
        case Err(e) => Err("Failed to get file metadata: " + e)
        case Ok(meta) =>
          var fm := WithFallbacks(doc.frontmatter, hadNo, doc.content, StemOf(entry.path), meta.modifiedLocal);
          Ok(Post(PostId(entry), fm.title, fm.date, doc.content, fm, entry.path.text, meta.createdAt, meta.modifiedAt))
  }

  /** `Post::from_file`, step by step as the source does it. */
  method PostFromFile(entry: FileEntry, codec: Codec) returns (r: Result<Post>)
    ensures r == LoadPost(entry, codec)
  {
    if entry.contents.Err? {
      return Err("Failed to read file: " + entry.contents.error);
    }
    var parsed := Parse(entry.contents.value, codec);
    if parsed.Err? {
      return Err(parsed.error);
    }
    var doc := parsed.value.0;
    var hadNoFrontmatter := parsed.value.1;
    if entry.meta.Err? {
      return Err("Failed to get file metadata: " + entry.meta.error);
    }
    var meta := entry.meta.value;
    var fm := doc.frontmatter;
    if fm.title == UntitledPost {
      var heading := ExtractTitleFromMarkdown(doc.content);
      if heading.Some? {
        fm := fm.(title := heading.value);
      } else {
        fm := fm.(title := StemOf(entry.path).GetOr(UntitledPost));
      }
    }
    if hadNoFrontmatter || fm.date == [] {
      fm := fm.(date := meta.modifiedLocal);
    }
    r := Ok(Post(PostId(entry), fm.title, fm.date, doc.content, fm, entry.path.text, meta.createdAt, meta.modifiedAt));
  }

  /** A document without a header becomes a post titled by its first heading,
      or else by its file stem, dated by its file, with the whole text as content. */
  lemma HeaderlessPost(entry: FileEntry, codec: Codec, raw: string, meta: FileMeta)
    requires entry.contents == Ok(raw) && entry.meta == Ok(meta)
    requires !StartsWith(raw, Delimiter)
    ensures LoadPost(entry, codec).Ok?
    ensures FirstHeading(Lines(raw)).Some? ==> LoadPost(entry, codec).value.title == FirstHeading(Lines(raw)).value
    ensures FirstHeading(Lines(raw)).None? ==> LoadPost(entry, codec).value.title == StemOf(entry.path).GetOr(UntitledPost)
    ensures LoadPost(entry, codec).value.date == meta.modifiedLocal
    ensures LoadPost(entry, codec).value.content == raw
  {
    assert !HasFrontmatter(raw);
  }

  /** Saving a loaded post and loading the saved file gives the same post
      back (up to the file times), once its title and date are set and its
      content is trimmed, when the YAML codec reads back what it wrote. */
  lemma ReloadKeepsPost(entry: FileEntry, codec: Codec, post: Post, yaml: string, saved: FileEntry, meta: FileMeta)
    requires LoadPost(entry, codec) == Ok(post)
    requires post.frontmatter.title != UntitledPost && post.frontmatter.date != []
    requires IsTrimmed(post.content)
    requires codec.emit(EncodeFrontmatter(post.frontmatter)) == Ok(yaml)
    requires !Contains(yaml, Delimiter) && !EndsWith(yaml, "-")
    requires codec.parse(Trim(yaml)) == Ok(EncodeFrontmatter(post.frontmatter))
    requires PostToMarkdown(post, codec).Ok?
    requires saved == entry.(contents := Ok(PostToMarkdown(post, codec).value), meta := Ok(meta))
    ensures LoadPost(saved, codec) == Ok(post.(createdAt := meta.createdAt, modifiedAt := meta.modifiedAt))
  {
    var raw := entry.contents.value;
    var doc := Parse(raw, codec).value.0;
    assert CustomKeysApart(post.frontmatter) by {
      if HasFrontmatter(raw) {
        assert post.frontmatter.customFields == doc.frontmatter.customFields;
      } else {
        assert doc.frontmatter == DefaultFrontmatter();
      }
    }
    DocumentRoundTrip(MarkdownDocument(post.frontmatter, post.content), codec, yaml);
  }
}

=== FILE: paths.dfy ===
/** The file-system facts the modelled code reads. Directory walking, reading
    and metadata calls are not modelled: their outcomes arrive as values. */
module Paths {
  import opened Wrappers

  /** What the code asks of a `Path`: its lossy display text, `file_name()`
      and `parent().file_name()`. */
  datatype FilePath = FilePath(text: string, name: Option<string>, parentName: Option<string>)

  /** `fs::metadata` as the code uses it: the creation time (or the
      modification time when the platform has none, or 0), the modification
      time, the size, and the modification time formatted in local time as
      `%Y-%m-%d %H:%M:%S`. */
  datatype FileMeta = FileMeta(createdAt: int, modifiedAt: int, size: nat, modifiedLocal: string)

  /** One entry of a directory walk: its path, whether it is a regular file,
      what reading it and asking for its metadata would return, and the
      results of `strip_prefix` against the project folder and against the
      folder being walked. */
  datatype FileEntry = FileEntry(
    path: FilePath,
    isFile: bool,
    contents: Result<string>,
    meta: Result<FileMeta>,
    projectRelative: Option<string>,
    rootRelative: Option<string>)

  /** Whether a walk takes this entry as a post or a draft: a regular file
      with extension "md". */
  predicate IsMarkdownFile(e: FileEntry) {
    e.isFile && e.path.name.Some? && Extension(e.path.name.value) == Some("md")
  }

  /** The index of the last '.' in `name`. */
  function LastDot(name: string): (r: Option<nat>)
    ensures r.Some? ==> r.value < |name| && name[r.value] == '.' && '.' !in name[r.value + 1..]
    ensures r.None? ==> '.' !in name
  {
    if name == [] then None
    else if name[|name| - 1] == '.' then Some(|name| - 1)
    else
      var r := LastDot(name[..|name| - 1]);
      assert name == name[..|name| - 1] + [name[|name| - 1]];
      r
  }

  /** `Path::extension` of a file name: the text after the last '.', unless
      that dot is the first character (a name like ".md" has none). */
  function Extension(name: string): (ext: Option<string>)
    ensures ext.Some? ==> '.' !in ext.value
  {
    if name == ".." then None
    else
      match LastDot(name)
      case None => None
      case Some(i) => if i == 0 then None else Some(name[i + 1..])
  }

  /** `Path::file_stem` of a file name: the name without its extension. */
  function Stem(name: string): (stem: string)
    ensures Extension(name).Some? ==> stem != [] && name == stem + "." + Extension(name).value
    ensures Extension(name).None? ==> stem == name
  {
    if name == ".." then name
    else
      match LastDot(name)
      case None => name
      case Some(i) =>
        if i == 0 then name
        else
          assert name == name[..i] + "." + name[i + 1..];
          name[..i]
  }

  /** A stem with an extension appended splits back into the two, however
      many dots the stem holds, unless the whole name would be "..". */
  lemma StemAndExtension(stem: string, ext: string)
    requires stem != [] && stem != "." && '.' !in ext
    ensures Extension(stem + "." + ext) == Some(ext)
    ensures Stem(stem + "." + ext) == stem
  {
    var name := stem + "." + ext;
    assert name[|stem|] == '.';
    assert name[|stem| + 1..] == ext;
    assert name != ".." by {
      if |name| == 2 {
        assert |stem| == 1 && name[0] == stem[0];
      }
    }
    var r := LastDot(name);
    assert r.Some?;
    assert r.value == |stem|;
    assert name[..|stem|] == stem;
  }
}

=== FILE: text.dfy ===
/** The parts of Rust's `str` API that the modelled code relies on: trimming,
    prefix and suffix tests, substring search, `splitn`, `lines`,
    `split_whitespace`, character replacement, case mapping and the byte-wise
    ordering of `String`. */
module Text {
  import opened Wrappers

  /** `char::is_whitespace`: the characters with the Unicode White_Space property. */
  predicate IsWhitespace(c: char) {
    var n := c as int;
    (0x9 <= n <= 0xD) || n == 0x20 || n == 0x85 || n == 0xA0 || n == 0x1680 ||
    (0x2000 <= n <= 0x200A) || n == 0x2028 || n == 0x2029 || n == 0x202F ||
    n == 0x205F || n == 0x3000
  }

  /** `s.trim().is_empty()`: nothing but whitespace. */
  predicate IsBlank(s: string) {
    forall i :: 0 <= i < |s| ==> IsWhitespace(s[i])
  }

  /** Neither end is whitespace: what `trim` produces. */
  predicate IsTrimmed(s: string) {
    s == [] || (!IsWhitespace(s[0]) && !IsWhitespace(s[|s| - 1]))
  }

  /** `str::trim_start`: the suffix left after dropping the leading whitespace. */
  function TrimStart(s: string): (r: string)
    ensures EndsWith(s, r)
    ensures r == [] || !IsWhitespace(r[0])
    ensures IsBlank(s[..|s| - |r|])
  {
    if s == [] || !IsWhitespace(s[0]) then s
    else
      var r := TrimStart(s[1..]);
      assert s[..|s| - |r|] == [s[0]] + s[1..][..|s| - 1 - |r|];
      r
  }

  /** `str::trim_end`: the prefix left after dropping the trailing whitespace. */
  function TrimEnd(s: string): (r: string)
    ensures StartsWith(s, r)
    ensures r == [] || !IsWhitespace(r[|r| - 1])
    ensures IsBlank(s[|r|..])
  {
    if s == [] || !IsWhitespace(s[|s| - 1]) then s
    else
      var r := TrimEnd(s[..|s| - 1]);
      assert s[|r|..] == s[..|s| - 1][|r|..] + [s[|s| - 1]];
      r
  }

  /** `str::trim`: the longest infix with no whitespace at either end, obtained
      by dropping only whitespace. */
  function Trim(s: string): (r: string)
    ensures IsTrimmed(r)
  {
    TrimEnd(TrimStart(s))
  }

  /** What `trim` drops is whitespace, at the two ends only. */
  lemma TrimIsInfix(s: string) returns (i: nat)
    ensures i + |Trim(s)| <= |s| && Trim(s) == s[i..i + |Trim(s)|]
    ensures IsBlank(s[..i]) && IsBlank(s[i + |Trim(s)|..])
  {
    var t := TrimStart(s);
    var r := TrimEnd(t);
    i := |s| - |t|;
    assert r == s[i..i + |r|];
    assert s[i + |r|..] == t[|r|..];
  }

  /** `trim` leaves nothing exactly when the text is all whitespace. */
  lemma TrimEmptyIffBlank(s: string)
    ensures Trim(s) == [] <==> IsBlank(s)
  {
    var i := TrimIsInfix(s);
    var t := TrimStart(s);
    assert t == [] || t[0] == s[|s| - |t|];
  }

  lemma TrimOfTrimmed(s: string)
    requires IsTrimmed(s)
    ensures Trim(s) == s
  {
  }

  /** Leading whitespace never changes what `trim` returns. */
  lemma {:induction false} TrimSkipsBlankPrefix(w: string, s: string)
    requires IsBlank(w)
    ensures Trim(w + s) == Trim(s)
  {
    TrimStartSkipsBlankPrefix(w, s);
  }

  lemma {:induction false} TrimStartSkipsBlankPrefix(w: string, s: string)
    requires IsBlank(w)
    ensures TrimStart(w + s) == TrimStart(s)
  {
    if w == [] {
      assert w + s == s;
    } else {
      assert (w + s)[0] == w[0];
      assert (w + s)[1..] == w[1..] + s;
      TrimStartSkipsBlankPrefix(w[1..], s);
    }
  }

  predicate StartsWith(s: string, p: string) {
    |p| <= |s| && s[..|p|] == p
  }

  predicate EndsWith(s: string, p: string) {
    |p| <= |s| && s[|s| - |p|..] == p
  }

  /** `p` occurs in `s` starting at index `i`. */
  predicate OccursAt(s: string, p: string, i: nat) {
    i + |p| <= |s| && s[i..i + |p|] == p
  }

  /** The first occurrence of `p` in `s` at or after `k`. */
  function FindFrom(s: string, p: string, k: nat): (r: Option<nat>)
    requires k <= |s|
    ensures r.Some? ==> k <= r.value <= |s| && OccursAt(s, p, r.value)
    ensures r.Some? ==> forall j :: k <= j < r.value ==> !OccursAt(s, p, j)
    ensures r.None? ==> forall j :: k <= j <= |s| ==> !OccursAt(s, p, j)
    decreases |s| - k
  {
    if OccursAt(s, p, k) then Some(k)
    else if k == |s| then None
    else FindFrom(s, p, k + 1)
  }

  /** `str::find`: the index of the first occurrence of `p` in `s`. */
  function Find(s: string, p: string): Option<nat>
  {
    FindFrom(s, p, 0)
  }

  /** `str::contains`. */
  predicate Contains(s: string, p: string) {
    Find(s, p).Some?
  }

  lemma ContainsAt(s: string, p: string, i: nat)
    requires OccursAt(s, p, i)
    ensures Contains(s, p)
  {
  }

  /** A string without `p` has no occurrence of `p` anywhere. */
  lemma NotContainsNowhere(s: string, p: string, i: nat)
    requires !Contains(s, p) && i <= |s|
    ensures !OccursAt(s, p, i)
  {
  }

  /** `parts` joined with `sep` between neighbours: the inverse of splitting. */
  function JoinWith(parts: seq<string>, sep: string): string
  {
    if parts == [] then []
    else if |parts| == 1 then parts[0]
    else parts[0] + sep + JoinWith(parts[1..], sep)
  }

  /** `str::splitn(3, p)`: cut at the first occurrence of `p`, then at the next
      occurrence after it; the third part keeps the rest unsplit. */
  function SplitN3(s: string, p: string): (parts: seq<string>)
    requires p != []
    ensures 1 <= |parts| <= 3
    ensures |parts| == 1 <==> Find(s, p).None?
    ensures |parts| == 1 ==> parts[0] == s
    ensures |parts| >= 2 ==> Find(s, p) == Some(|parts[0]|) && parts[0] == s[..|parts[0]|]
    ensures |parts| >= 2 ==>
              var rest := s[|parts[0]| + |p|..];
              (|parts| == 3 <==> Find(rest, p).Some?) &&
              (|parts| == 2 ==> parts[1] == rest) &&
              (|parts| == 3 ==> Find(rest, p) == Some(|parts[1]|) &&
                                parts[1] == rest[..|parts[1]|] && parts[2] == rest[|parts[1]| + |p|..])
  {
    match Find(s, p)
    case None => [s]
    case Some(i) =>
      var rest := s[i + |p|..];
      match Find(rest, p)
      case None => [s[..i], rest]
      case Some(j) => [s[..i], rest[..j], rest[j + |p|..]]
  }

  lemma JoinWithTwo(a: string, b: string, sep: string)
    ensures JoinWith([a, b], sep) == a + sep + b
  {
    assert [a, b][1..] == [b];
  }

  lemma JoinWithThree(a: string, b: string, c: string, sep: string)
    ensures JoinWith([a, b, c], sep) == a + sep + b + sep + c
  {
    assert [a, b, c][1..] == [b, c];
    JoinWithTwo(b, c, sep);
  }

  /** A string is its text before an occurrence, the occurrence, and the rest. */
  lemma Reassemble(s: string, p: string, i: nat)
    requires OccursAt(s, p, i)
    ensures s[..i] + p + s[i + |p|..] == s
  {
    assert s == s[..i] + s[i..i + |p|] + s[i + |p|..];
  }

  /** Joining the parts with the pattern gives back the string split. */
  lemma SplitN3Joins(s: string, p: string)
    requires p != []
    ensures JoinWith(SplitN3(s, p), p) == s
  {
    match Find(s, p)
    case None =>
    case Some(i) =>
      var rest := s[i + |p|..];
      Reassemble(s, p, i);
      match Find(rest, p)
      case None =>
        assert SplitN3(s, p) == [s[..i], rest];
        JoinWithTwo(s[..i], rest, p);
      case Some(j) =>
        Reassemble(rest, p, j);
        assert SplitN3(s, p) == [s[..i], rest[..j], rest[j + |p|..]];
        JoinWithThree(s[..i], rest[..j], rest[j + |p|..], p);
        Regroup(s[..i], rest[..j], rest[j + |p|..], p, rest, s);
  }

  lemma Regroup(a: string, b: string, c: string, p: string, rest: string, s: string)
    requires b + p + c == rest && a + p + rest == s
    ensures a + p + b + p + c == s
  {
    assert a + p + b + p + c == a + p + (b + p + c);
  }

  /** Drops one '\r' at the end, as `lines` does before a '\n'. */
  function StripCarriageReturn(line: string): string
  {
    if line != [] && line[|line| - 1] == '\r' then line[..|line| - 1] else line
  }

  lemma NoNewlineBefore(s: string, i: nat)
    requires i <= |s|
    requires forall j :: 0 <= j < i ==> !OccursAt(s, "\n", j)
    ensures '\n' !in s[..i]
  {
    forall j | 0 <= j < i
      ensures s[j] != '\n'
    {
      assert !OccursAt(s, "\n", j);
      assert s[j..j + 1] == [s[j]];
    }
  }

  /** `str::lines`: the pieces between '\n' characters, each without the
      '\r' of a "\r\n" ending; a final '\n' does not open an empty last line. */
  function Lines(s: string): (r: seq<string>)
    ensures forall i :: 0 <= i < |r| ==> '\n' !in r[i]
    ensures s == [] <==> r == []
    decreases |s|
  {
    if s == [] then []
    else
      match Find(s, "\n")
      case None =>
        NoNewlineBefore(s, |s|);
        assert s[..|s|] == s;
        [s]
      case Some(i) =>
        NoNewlineBefore(s, i);
        [StripCarriageReturn(s[..i])] + Lines(s[i + 1..])
  }

  /** `str::trim_start_matches(c)`: drops every leading `c`. */
  function TrimStartMatches(s: string, c: char): (r: string)
    ensures EndsWith(s, r)
    ensures r == [] || r[0] != c
    ensures forall i :: 0 <= i < |s| - |r| ==> s[i] == c
  {
    if s == [] || s[0] != c then s else TrimStartMatches(s[1..], c)
  }

  /** `str::trim_end_matches(c)`: drops every trailing `c`. */
  function TrimEndMatches(s: string, c: char): (r: string)
    ensures StartsWith(s, r)
    ensures r == [] || r[|r| - 1] != c
    ensures forall i :: |r| <= i < |s| ==> s[i] == c
  {
    if s == [] || s[|s| - 1] != c then s else TrimEndMatches(s[..|s| - 1], c)
  }

  /** `str::trim_matches(c)`: drops every leading and trailing `c`. */
  function TrimMatches(s: string, c: char): (r: string)
    ensures r == [] || (r[0] != c && r[|r| - 1] != c)
  {
    TrimEndMatches(TrimStartMatches(s, c), c)
  }

  /** A string that neither starts nor ends with `c` is its own trim. */
  lemma TrimMatchesOfTrimmed(s: string, c: char)
    requires s == [] || (s[0] != c && s[|s| - 1] != c)
    ensures TrimMatches(s, c) == s
  {
  }

  /** Trimming a string made only of `c` leaves nothing. */
  lemma TrimMatchesAll(s: string, c: char)
    requires forall i :: 0 <= i < |s| ==> s[i] == c
    ensures TrimMatches(s, c) == []
  {
    var r := TrimStartMatches(s, c);
    assert r == s[|s| - |r|..];
  }

  /** `s.replace(c, t)` for every `c` in `from`: each such character becomes
      `t`, every other character is kept. */
  function Replace(s: string, from: set<char>, t: string): (r: string)
    ensures forall i :: 0 <= i < |r| ==> r[i] in t || (r[i] in s && r[i] !in from)
  {
    if s == [] then []
    else (if s[0] in from then t else [s[0]]) + Replace(s[1..], from, t)
  }

  /** Replacing by a string of the same length keeps the length. */
  lemma {:induction false} ReplaceLength(s: string, from: set<char>, t: string)
    requires |t| == 1
    ensures |Replace(s, from, t)| == |s|
  {
    if s != [] {
      ReplaceLength(s[1..], from, t);
    }
  }

  lemma {:induction false} ReplaceAppend(a: string, b: string, from: set<char>, t: string)
    ensures Replace(a + b, from, t) == Replace(a, from, t) + Replace(b, from, t)
  {
    if a == [] {
      assert a + b == b;
    } else {
      assert (a + b)[0] == a[0];
      assert (a + b)[1..] == a[1..] + b;
      ReplaceAppend(a[1..], b, from, t);
    }
  }

  /** One replaced character between two runs of kept ones. */
  lemma ReplaceBetween(a: string, c: char, b: string, from: set<char>, t: string)
    requires forall i :: 0 <= i < |a| ==> a[i] !in from
    requires forall i :: 0 <= i < |b| ==> b[i] !in from
    requires c in from
    ensures Replace(a + [c] + b, from, t) == a + t + b
  {
    ReplaceAppend(a + [c], b, from, t);
    ReplaceAppend(a, [c], from, t);
    ReplaceAbsent(a, from, t);
    ReplaceAbsent(b, from, t);
    assert [c][1..] == [];
    assert Replace([c], from, t) == t + Replace([], from, t) == t + [] == t;
    calc {
      Replace(a + [c] + b, from, t);
      Replace(a + [c], from, t) + Replace(b, from, t);
      (Replace(a, from, t) + Replace([c], from, t)) + b;
      a + t + b;
    }
  }

  /** A string with none of the replaced characters is left as it is. */
  lemma {:induction false} ReplaceAbsent(s: string, from: set<char>, t: string)
    requires forall i :: 0 <= i < |s| ==> s[i] !in from
    ensures Replace(s, from, t) == s
  {
    if s != [] {
      ReplaceAbsent(s[1..], from, t);
    }
  }

  // ---------------------------------------------------------------------
  // Case mapping, restricted to ASCII, the Russian alphabet and the two
  // characters whose lower-case forms contain ASCII letters.

  predicate IsLower(c: char) {
    var n := c as int;
    ('a' <= c <= 'z') || (0x430 <= n <= 0x44F) || n == 0x451
  }

  predicate IsUpper(c: char) {
    var n := c as int;
    ('A' <= c <= 'Z') || (0x410 <= n <= 0x42F) || n == 0x401
  }

  /** `char::to_lowercase` on one character. U+0130 (capital I with dot)
      becomes "i" and a combining dot; U+212A (Kelvin sign) becomes "k". */
  function LowerChar(c: char): string
  {
    var n := c as int;
    if ('A' <= c <= 'Z') || (0x410 <= n <= 0x42F) then [(n + 32) as char]
    else if n == 0x401 then [0x451 as char]
    else if n == 0x130 then ['i', 0x307 as char]
    else if n == 0x212A then ['k']
    else [c]
  }

  /** `str::to_lowercase`. */
  function ToLower(s: string): string
  {
    if s == [] then [] else LowerChar(s[0]) + ToLower(s[1..])
  }

  lemma {:induction false} ToLowerAppend(a: string, b: string)
    ensures ToLower(a + b) == ToLower(a) + ToLower(b)
  {
    if a == [] {
      assert a + b == b;
    } else {
      assert (a + b)[0] == a[0];
      assert (a + b)[1..] == a[1..] + b;
      ToLowerAppend(a[1..], b);
    }
  }

  /** A string of characters that lower-case to themselves is its own lower case. */
  lemma {:induction false} ToLowerOfLower(s: string)
    requires forall i :: 0 <= i < |s| ==> LowerChar(s[i]) == [s[i]]
    ensures ToLower(s) == s
  {
    if s != [] {
      ToLowerOfLower(s[1..]);
    }
  }

  /** Lower-casing twice is lower-casing once. */
  lemma {:induction false} ToLowerIdempotent(s: string)
    ensures ToLower(ToLower(s)) == ToLower(s)
  {
    if s != [] {
      var l := LowerChar(s[0]);
      assert forall i :: 0 <= i < |l| ==> LowerChar(l[i]) == [l[i]];
      ToLowerOfLower(l);
      ToLowerAppend(l, ToLower(s[1..]));
      ToLowerIdempotent(s[1..]);
      calc {
        ToLower(ToLower(s));
        ToLower(l + ToLower(s[1..]));
        ToLower(l) + ToLower(ToLower(s[1..]));
        l + ToLower(s[1..]);
        ToLower(s);
      }
    }
  }

  /** The first character of `char::to_uppercase`. */
  function UpperChar(c: char): (u: char)
    ensures !IsLower(u) && (IsWhitespace(u) <==> IsWhitespace(c))
    ensures (u == '_' || u == '-') <==> (c == '_' || c == '-')
  {
    var n := c as int;
    if ('a' <= c <= 'z') || (0x430 <= n <= 0x44F) then (n - 32) as char
    else if n == 0x451 then 0x401 as char
    else c
  }

  // ---------------------------------------------------------------------
  // Words

  /** The end of the word that starts at `i`: the first whitespace at or after `i`. */
  function WordEnd(s: string, i: nat): (r: nat)
    requires i <= |s|
    ensures i <= r <= |s| && (r == |s| || IsWhitespace(s[r]))
    ensures forall j :: i <= j < r ==> !IsWhitespace(s[j])
    decreases |s| - i
  {
    if i == |s| || IsWhitespace(s[i]) then i else WordEnd(s, i + 1)
  }

  predicate NoWhitespace(s: string) {
    forall i :: 0 <= i < |s| ==> !IsWhitespace(s[i])
  }

  /** `str::split_whitespace`: the maximal runs of non-whitespace characters. */
  function SplitWhitespace(s: string): (words: seq<string>)
    ensures forall i :: 0 <= i < |words| ==> words[i] != [] && NoWhitespace(words[i])
    decreases |s|
  {
    if s == [] then []
    else if IsWhitespace(s[0]) then SplitWhitespace(s[1..])
    else
      var k := WordEnd(s, 0);
      var w := s[..k];
      assert NoWhitespace(w);
      var rest := SplitWhitespace(s[k..]);
      var words := [w] + rest;
      assert forall i :: 1 <= i < |words| ==> words[i] == rest[i - 1];
      words
  }

  /** A character absent from the text is absent from each of its words. */
  lemma {:induction false} SplitWhitespaceAvoids(s: string, c: char)
    requires c !in s
    ensures forall i :: 0 <= i < |SplitWhitespace(s)| ==> c !in SplitWhitespace(s)[i]
    decreases |s|
  {
    if s != [] {
      if IsWhitespace(s[0]) {
        assert c !in s[1..];
        SplitWhitespaceAvoids(s[1..], c);
      } else {
        var k := WordEnd(s, 0);
        assert c !in s[..k] && c !in s[k..];
        SplitWhitespaceAvoids(s[k..], c);
        var words := SplitWhitespace(s);
        assert words == [s[..k]] + SplitWhitespace(s[k..]);
      }
    }
  }

  /** A word followed by whitespace or by nothing ends where it ends. */
  lemma WordEndOfWord(w: string, rest: string)
    requires NoWhitespace(w) && (rest == [] || IsWhitespace(rest[0]))
    ensures WordEnd(w + rest, 0) == |w|
  {
    var s := w + rest;
    assert forall j :: 0 <= j < |w| ==> s[j] == w[j];
    if rest != [] {
      assert s[|w|] == rest[0];
    }
  }

  /** Splitting a word followed by whitespace or by nothing yields that
      word first. */
  lemma SplitWhitespaceOfWord(w: string, rest: string)
    requires w != [] && NoWhitespace(w) && (rest == [] || IsWhitespace(rest[0]))
    ensures SplitWhitespace(w + rest) == [w] + SplitWhitespace(rest)
  {
    var s := w + rest;
    WordEndOfWord(w, rest);
    assert s[0] == w[0];
    assert s[..|w|] == w;
    assert s[|w|..] == rest;
  }

  /** Leading whitespace is skipped. */
  lemma SplitWhitespaceSkip(c: char, rest: string)
    requires IsWhitespace(c)
    ensures SplitWhitespace([c] + rest) == SplitWhitespace(rest)
  {
    assert ([c] + rest)[1..] == rest;
  }

  /** Words that are non-empty and free of whitespace, joined by single
      spaces: every whitespace character is a space with a non-whitespace
      character on both sides. */
  predicate SingleSpaced(s: string) {
    forall i :: 0 <= i < |s| && IsWhitespace(s[i]) ==>
      s[i] == ' ' && 0 < i < |s| - 1 && !IsWhitespace(s[i - 1]) && !IsWhitespace(s[i + 1])
  }

  lemma {:induction false} JoinWithFirst(parts: seq<string>, sep: string)
    requires parts != [] && parts[0] != []
    ensures JoinWith(parts, sep) != [] && JoinWith(parts, sep)[0] == parts[0][0]
  {
  }

  lemma {:induction false} JoinedWordsSingleSpaced(words: seq<string>)
    requires forall i :: 0 <= i < |words| ==> words[i] != [] && NoWhitespace(words[i])
    ensures SingleSpaced(JoinWith(words, " "))
    ensures words != [] ==> JoinWith(words, " ") != []
  {
    if |words| > 1 {
      JoinedWordsSingleSpaced(words[1..]);
      var rest := JoinWith(words[1..], " ");
      JoinWithFirst(words[1..], " ");
      var s := JoinWith(words, " ");
      var w := words[0];
      assert s == w + " " + rest;
      forall i | 0 <= i < |s|
        ensures IsWhitespace(s[i]) ==>
          s[i] == ' ' && 0 < i < |s| - 1 && !IsWhitespace(s[i - 1]) && !IsWhitespace(s[i + 1])
      {
        if i < |w| {
          assert s[i] == w[i];
        } else if i == |w| {
          assert s[i - 1] == w[|w| - 1];
          assert s[i + 1] == rest[0];
        } else {
          var j := i - |w| - 1;
          assert s[i] == rest[j];
          if j == 0 {
            assert rest[0] == words[1][0];
          } else {
            assert s[i - 1] == rest[j - 1];
          }
          if j + 1 < |rest| {
            assert s[i + 1] == rest[j + 1];
          }
        }
      }
    }
  }

  // ---------------------------------------------------------------------
  // The ordering of `String`: lexicographic by code point.

  predicate Less(a: string, b: string)
    decreases |a|
  {
    if a == [] then b != []
    else if b == [] then false
    else if a[0] != b[0] then a[0] < b[0]
    else Less(a[1..], b[1..])
  }

  lemma {:induction false} LessIrreflexive(a: string)
    ensures !Less(a, a)
  {
    if a != [] {
      LessIrreflexive(a[1..]);
    }
  }

  lemma {:induction false} LessTotal(a: string, b: string)
    requires a != b
    ensures Less(a, b) || Less(b, a)
  {
    if a != [] && b != [] && a[0] == b[0] {
      assert a[1..] != b[1..] by {
        assert a == [a[0]] + a[1..] && b == [b[0]] + b[1..];
      }
      LessTotal(a[1..], b[1..]);
    }
  }

  lemma {:induction false} LessAsymmetric(a: string, b: string)
    requires Less(a, b)
    ensures !Less(b, a)
  {
    if a != [] && b != [] && a[0] == b[0] {
      LessAsymmetric(a[1..], b[1..]);
    }
  }

  lemma {:induction false} LessTransitive(a: string, b: string, c: string)
    requires Less(a, b) && Less(b, c)
    ensures Less(a, c)
  {
    if a != [] && b != [] && c != [] && a[0] == b[0] && b[0] == c[0] {
      LessTransitive(a[1..], b[1..], c[1..]);
    }
  }

  // ---------------------------------------------------------------------
  // Debug formatting of strings

  /** A lower-case hexadecimal digit. */
  function HexDigit(d: nat): (c: char)
    requires d < 16
    ensures HexValue(c) == Some(d)
  {
    if d < 10 then ('0' as int + d) as char else ('a' as int + d - 10) as char
  }

  function HexValue(c: char): (r: Option<nat>)
    ensures r.Some? ==> r.value < 16
  {
    if '0' <= c <= '9' then Some(c as int - '0' as int)
    else if 'a' <= c <= 'f' then Some(c as int - 'a' as int + 10)
    else None
  }

  /** The control characters `char::escape_debug` writes as `\u{...}`:
      C0 and C1 controls and DEL, other than the four with a short escape. */
  predicate IsControl(c: char) {
    var n := c as int;
    (n < 0x20 || 0x7F <= n <= 0x9F) && c != '\0' && c != '\t' && c != '\r' && c != '\n'
  }

  /** The character a short escape `\x` stands for. */
  function ShortEscape(x: char): Option<char> {
    match x
    case '0' => Some('\0')
    case 't' => Some('\t')
    case 'r' => Some('\r')
    case 'n' => Some('\n')
    case '\\' => Some('\\')
    case '"' => Some('"')
    case '\'' => Some('\'')
    case _ => None
  }

  /** One character as `{:?}` writes it inside a path: `char::escape_debug`, which,
      unlike the Debug of a `str`, also escapes the single quote. */
  function EscapeDebugChar(c: char): (r: string)
    ensures r != []
    ensures r[0] == '\\' <==> c == '\\' || c == '"' || c == '\'' || c == '\0' || c == '\t' || c == '\r' || c == '\n' || IsControl(c)
  {
    match c
    case '\0' => "\\0"
    case '\t' => "\\t"
    case '\r' => "\\r"
    case '\n' => "\\n"
    case '\\' => "\\\\"
    case '"' => "\\\""
    case '\'' => "\\'"
    case _ =>
      if IsControl(c) then
        var n := c as int;
        "\\u{" + (if n < 16 then [HexDigit(n)] else [HexDigit(n / 16), HexDigit(n % 16)]) + "}"
      else [c]
  }

  /** The characters of a string, each as `{:?}` writes it. */
  function EscapeDebug(s: string): string {
    if s == [] then [] else EscapeDebugChar(s[0]) + EscapeDebug(s[1..])
  }

  /** `format!("{:?}", p)` of a path: in double quotes, escaped. */
  function DebugQuoted(s: string): (r: string)
    ensures |r| >= 2 && r[0] == '"' && r[|r| - 1] == '"'
  {
    "\"" + EscapeDebug(s) + "\""
  }

  function Prepend(c: char, o: Option<string>): Option<string> {
    match o
    case Some(t) => Some([c] + t)
    case None => None
  }

  /** Reading escaped text back: the inverse of `EscapeDebug`. */
  function UnescapeDebug(t: string): Option<string>
    decreases |t|
  {
    if t == [] then Some([])
    else if t[0] != '\\' then Prepend(t[0], UnescapeDebug(t[1..]))
    else if |t| < 2 then None
    else if ShortEscape(t[1]).Some? then Prepend(ShortEscape(t[1]).value, UnescapeDebug(t[2..]))
    else if |t| >= 5 && t[1] == 'u' && t[2] == '{' && HexValue(t[3]).Some? && t[4] == '}' then
      Prepend(HexValue(t[3]).value as char, UnescapeDebug(t[5..]))
    else if |t| >= 6 && t[1] == 'u' && t[2] == '{' && HexValue(t[3]).Some? && HexValue(t[4]).Some? && t[5] == '}' then
      Prepend((16 * HexValue(t[3]).value + HexValue(t[4]).value) as char, UnescapeDebug(t[6..]))
    else None
  }

  /** Unescaping undoes one escaped character in front of any text. */
  lemma UnescapeEscapeDebugChar(c: char, rest: string)
    ensures UnescapeDebug(EscapeDebugChar(c) + rest) == Prepend(c, UnescapeDebug(rest))
  {
    var n := c as int;
    match c
    case '\0' => UnescapeShort('0', c, rest);
    case '\t' => UnescapeShort('t', c, rest);
    case '\r' => UnescapeShort('r', c, rest);
    case '\n' => UnescapeShort('n', c, rest);
    case '\\' => UnescapeShort('\\', c, rest);
    case '"' => UnescapeShort('"', c, rest);
    case '\'' => UnescapeShort('\'', c, rest);
    case _ =>
      if !IsControl(c) {
        UnescapePlain(c, rest);
      } else if n < 16 {
        UnescapeHex1(n, rest);
      } else {
        UnescapeHex2(n / 16, n % 16, rest);
      }
  }

  lemma UnescapePlain(c: char, rest: string)
    requires c != '\\'
    ensures UnescapeDebug([c] + rest) == Prepend(c, UnescapeDebug(rest))
  {
    assert ([c] + rest)[1..] == rest;
  }

  lemma UnescapeShort(x: char, c: char, rest: string)
    requires ShortEscape(x) == Some(c)
    ensures UnescapeDebug(['\\', x] + rest) == Prepend(c, UnescapeDebug(rest))
  {
    var t := ['\\', x] + rest;
    assert t[0] == '\\' && t[1] == x && t[2..] == rest;
  }

  lemma UnescapeHex1(d: nat, rest: string)
    requires d < 16
    ensures UnescapeDebug("\\u{" + [HexDigit(d)] + "}" + rest) == Prepend(d as char, UnescapeDebug(rest))
  {
    var t := "\\u{" + [HexDigit(d)] + "}" + rest;
    assert t[0] == '\\' && t[1] == 'u' && t[2] == '{' && t[3] == HexDigit(d) && t[4] == '}';
    assert t[5..] == rest;
  }

  lemma UnescapeHex2(d1: nat, d2: nat, rest: string)
    requires d1 < 16 && d2 < 16
    ensures UnescapeDebug("\\u{" + [HexDigit(d1), HexDigit(d2)] + "}" + rest)
            == Prepend((16 * d1 + d2) as char, UnescapeDebug(rest))
  {
    var t := "\\u{" + [HexDigit(d1), HexDigit(d2)] + "}" + rest;
    assert t[0] == '\\' && t[1] == 'u' && t[2] == '{' && t[3] == HexDigit(d1) && t[4] == HexDigit(d2) && t[5] == '}';
    assert t[6..] == rest;
  }

  /** Escaping for `{:?}` loses nothing: the escaped text reads back as the original. */
  lemma {:induction false} UnescapeEscapeDebug(s: string)
    ensures UnescapeDebug(EscapeDebug(s)) == Some(s)
  {
    if s != [] {
      UnescapeEscapeDebugChar(s[0], EscapeDebug(s[1..]));
      UnescapeEscapeDebug(s[1..]);
      assert s == [s[0]] + s[1..];
    }
  }

  /** A path without backslashes, quotes and control characters is written as it is. */
  lemma {:induction false} EscapeDebugPlain(s: string)
    requires forall i :: 0 <= i < |s| ==>
      s[i] != '\\' && s[i] != '"' && s[i] != '\'' && s[i] != '\0' && s[i] != '\t' && s[i] != '\r' && s[i] != '\n' && !IsControl(s[i])
    ensures EscapeDebug(s) == s
  {
    if s != [] {
      EscapeDebugPlain(s[1..]);
      assert s == [s[0]] + s[1..];
    }
  }

  /** Escaping works character by character, so it distributes over `+`. */
  lemma {:induction false} EscapeDebugAppend(a: string, b: string)
    ensures EscapeDebug(a + b) == EscapeDebug(a) + EscapeDebug(b)
  {
    if a == [] {
      assert a + b == b;
    } else {
      assert (a + b)[0] == a[0] && (a + b)[1..] == a[1..] + b;
      EscapeDebugAppend(a[1..], b);
    }
  }

  /** A single quote in a path is written as `\'`. */
  lemma QuoteEscaped(a: string, b: string)
    ensures EscapeDebug(a + "'" + b) == EscapeDebug(a) + "\\'" + EscapeDebug(b)
  {
    var q := "'" + b;
    Assoc(a, "'", b);
    EscapeDebugAppend(a, q);
    assert q[0] == '\'' && q[1..] == b;
    assert EscapeDebug(q) == "\\'" + EscapeDebug(b);
    Assoc(EscapeDebug(a), "\\'", EscapeDebug(b));
  }

  lemma Assoc(x: string, y: string, z: string)
    ensures x + (y + z) == x + y + z
  {
  }
}

=== FILE: wrappers.dfy ===
/** Option and Result, the two failure-carrying types the Rust code uses
    everywhere (`Option<T>` and `Result<T, String>`). */
module Wrappers {

  datatype Option<+T> = None | Some(value: T) {

    function GetOr(default: T): T {
      match this
      case Some(v) => v
      case None => default
    }
  }

  /** `Result<T, String>`: every error in the modelled code is a message. */
  datatype Result<+T> = Ok(value: T) | Err(error: string) {

    predicate IsFailure() {
      Err?
    }

    function PropagateFailure<U>(): Result<U>
      requires Err?
    {
      Err(error)
    }

    function Extract(): T
      requires Ok?
    {
      value
    }
  }
}

=== FILE: yaml.dfy ===
/** The YAML layer (serde_yaml), kept abstract: serde_yaml's value type and a
    codec given as a pair of functions the model never looks inside. */
module Yaml {
  import opened Wrappers

  /** `serde_yaml::Value`. A number keeps its text; a mapping keeps its
      entries in order, as serde_yaml's `Mapping` does. */
  datatype Value =
    | Null
    | Bool(b: bool)
    | Number(repr: string)
    | String(text: string)
    | Sequence(items: seq<Value>)
    | Mapping(entries: seq<(Value, Value)>)
    | Tagged(tag: string, value: Value)

  /** `serde_yaml::from_str` and `serde_yaml::to_string` for a frontmatter
      header: `parse` reads a document whose root is a mapping with string
      keys (anything else, and any YAML syntax error, is its error), `emit`
      writes such a mapping back as YAML text. */
  datatype Codec = Codec(
    parse: string -> Result<map<string, Value>>,
    emit: map<string, Value> -> Result<string>)
}
